=== FILE: README.md ===
# League MCP: a verified model of its pure core

League MCP is a Model Context Protocol server for the Riot Games API plus a
command-line client that lets a Gemini model call the server's tools. This
project models in Dafny the part of both that is plain sequential logic, and
proves what that logic promises.

- **The server's request rules.** `Regions` holds the accepted platforms, the
  platform-to-routing table with its `americas` default, and the region and
  leaderboard-level guards. `RiotRequest` covers the host URL,
  `make_riot_request` and the optional match-history query string. The
  network call is a parameter: a `Client` function from a request to a
  reply, which is either a response with a status and a body or a raised
  exception. The `RIOT_API_KEY` setting is a parameter too. The error
  report is the object `{"error": <message>}`.
- **The tools.** `Tools` lists the 31 registered tools. For each it states
  the guard that may answer without a request, the URL asked for, and the
  formatter the payload goes to. `Run` is the body all tools share: guard,
  request, the `if not data` check, then formatting.
- **The formatters.** `AccountFormat`, `SpectatorFormat`, `SummonerFormat`,
  `ClashFormat`, `LeagueFormat`, `ChallengeFormat`, `StatusFormat` and
  `MatchFormat` turn a decoded payload (`Json`) into the lines the tool
  prints. `Report` holds the rules they share:
  - the error line;
  - defaults for missing keys;
  - cut lists that end in `... and N more`;
  - team splits by `teamId`;
  - `m:ss` clocks.

  `Seqs` holds the list tools behind them: take, filter, stable sort.
- **The client.** `Client` covers how a reply is recognised as a tool call:
  the `USE_TOOL:` marker, the `name(args)` pattern, the `key=value` scan and
  argument coercion. `ClientSession` covers:
  - the tool catalogue in the prompt;
  - the answer a tool call produces;
  - `process_query`;
  - the server launch;
  - the command line.

  `ChatLoop` models the interactive loop.
- **Support.** `Text` and `Numerals` model the Python string and integer
  operations the code relies on: `strip`, `lower`/`upper`, `replace`,
  `split`, `str(int)`, `int(str)`, zero padding and the `:,` thousands
  format. `Wrappers` holds `Option` and `Result`.

The two server files share their code. `mcp-server/league.py` is the first
part of `mcp-server/league_original.py` without the routing constants. So a
definition at line L of `league.py` (L at least 20) sits at line L + 11 of
`league_original.py`. Each row below cites one of the two files: the
account, spectator, summoner and clash formatters cite `league.py`, and
everything else cites `league_original.py`.

Where a payload has the wrong shape, Python raises; the model instead reads
the value as missing or as its default. Examples of wrong shapes: a string
where a number is expected, or a list where an object is expected. Date
conversion and float formatting are left to the `Library` record of
functions in `Report`.

## Model

| member | source | states |
|---|---|---|
| Json.Lookup | mcp-server/league_original.py:57 | a key is found exactly when some field of the decoded object carries it |
| Json.LookupLast | mcp-server/league_original.py:57 | a key written more than once reads as its last value, as the decoder keeps it |
| Json.Get | mcp-server/league_original.py:76-78 | `get` gives the stored value when the object has the key and the default otherwise, a non-object having no keys |
| Json.FieldDefault | mcp-server/league_original.py:76-78 | a printed field is the text of its stored value, or `N/A` when the key is missing |
| Regions.RoutingRegion | mcp-server/league_original.py:1561-1563 | the answer is always one of the four routing regions; a mapped platform gets its table entry and any other name gets `americas` |
| Regions.RoutingCoversPlatforms | mcp-server/league_original.py:18-29 | the routing table's keys are exactly the platforms in `LOL_REGIONS` |
| Regions.EveryRoutingRegionUsed | mcp-server/league_original.py:21-29 | every routing region serves some accepted platform |
| Regions.CheckRegion | mcp-server/league_original.py:1810-1812 | a call passes the region guard if and only if its region is in `LOL_REGIONS`; otherwise the answer is the invalid-region message |
| Regions.InvalidRegionQuotes | mcp-server/league_original.py:1812 | the rejection starts `Error: Invalid region '<region>'` with the region as given |
| Regions.InvalidRegionListsAll | mcp-server/league_original.py:1812 | the rejection names every accepted region |
| Regions.CheckLevel | mcp-server/league_original.py:1494-1496 | the level passes if and only if its upper-cased form is MASTER, GRANDMASTER or CHALLENGER; otherwise the rejection quotes the level as given |
| Regions.LevelAnyCase | mcp-server/league_original.py:1494 | a level passes exactly when it spells one of the three levels in any mixture of letter cases |
| RiotRequest.BaseUrl | mcp-server/league_original.py:14 | the host is `https://<region>.api.riotgames.com`, with the region inserted verbatim |
| RiotRequest.ErrorObject | mcp-server/league_original.py:46 | an error report is a truthy object whose `error` key holds the message |
| RiotRequest.Outcome | mcp-server/league_original.py:53-68 | a non-2xx status becomes `HTTP <code>: <body>`; a failed transfer or an undecodable body becomes `Request failed: <reason>`; a decoded 2xx body is returned as it is |
| RiotRequest.MakeRiotRequest | mcp-server/league_original.py:40-68 | with no key (or an empty one) nothing is sent and the missing-key error is returned; with a key, exactly one GET goes out with the user agent, the key in `X-Riot-Token` and a 30 s timeout |
| RiotRequest.PayloadOrError | mcp-server/league_original.py:44-68 | the payload is either an error report or the decoded body of a successful response to the one request sent |
| RiotRequest.StatusReadsBack | mcp-server/league_original.py:61-64 | the status code can be read back from an HTTP error message, whatever the body text |
| RiotRequest.Given | mcp-server/league_original.py:1822-1827 | an optional integer filter is present if and only if it is given and not zero |
| RiotRequest.GivenText | mcp-server/league_original.py:1828-1829 | the match type is present if and only if it is given and not empty |
| RiotRequest.QueryParams | mcp-server/league_original.py:1821-1833 | there are never more than six parameters |
| RiotRequest.QueryParamsOrdered | mcp-server/league_original.py:1821-1833 | every piece is named by one of startTime, endTime, queue, type, start, count, and the names come in that order, each at most once |
| RiotRequest.QueryString | mcp-server/league_original.py:1835-1836 | the query string is empty if and only if every filter is false and start and count are at their defaults 0 and 20; otherwise it starts with `?` |
| RiotRequest.QueryRoundTrip | mcp-server/league_original.py:1820-1836 | reading the query string back, piece by piece, gives every filter the call set and the defaults for the rest |
| Tools.Guard | mcp-server/league_original.py:1490-1496 | the Account-V1 tools have no guard; every other tool rejects a region outside `LOL_REGIONS`, and the leaderboard then checks its level |
| Tools.Unavailable | mcp-server/league_original.py:100-102 | a false payload is answered `Unable to fetch <what>.` |
| Tools.Run | mcp-server/league_original.py:320-334 | a guarded call answers with the guard's message and sends nothing; otherwise it sends exactly what `make_riot_request` sends for the tool's URL |
| Tools.RegionCheckedFirst | mcp-server/league_original.py:87-106 | a platform tool given an unknown region answers the invalid-region message and sends nothing; an Account-V1 tool sends one request whenever a key is set, to the host named by its region verbatim |
| Tools.LeaderboardPath | mcp-server/league_original.py:1499 | the leaderboard URL holds `/leaderboards/by-level/` followed by the upper-cased level |
| Tools.LeaderboardLevel | mcp-server/league_original.py:1490-1500 | a bad level is rejected after the region check and before any request; an accepted level appears upper-cased in the URL |
| Tools.ErrorsPassThrough | mcp-server/league_original.py:70-73 | every formatter turns an error report into the single line `Error: <message>` |
| Tools.NoKeyNoRequest | mcp-server/league_original.py:44-46 | without a key, every call that passes its guard answers `Error: RIOT_API_KEY environment variable not set` and sends nothing |
| Tools.HttpErrorReported | mcp-server/league_original.py:61-64 | an HTTP error reaches the caller as `Error: HTTP <code>: <body>` after exactly one request |
| Tools.EmptyPayloadUnavailable | mcp-server/league_original.py:326-330 | a successful but false payload (`[]`, `{}`, `null`) is answered with the tool's `Unable to fetch` line and never reaches a formatter |
| Tools.DataFormatted | mcp-server/league_original.py:326-334 | a truthy payload is rendered by the tool's formatter |
| Tools.MatchRouting | mcp-server/league_original.py:1810-1818 | a match tool that passes its guard asks the routing host the table gives for its platform |
| Tools.MatchIdsUrl | mcp-server/league_original.py:1814-1836 | the match-ID URL is the routing host of the platform, then `/lol/match/v5/matches/by-puuid/<puuid>/ids`, then the query string |
| Tools.MatchIdsQuery | mcp-server/league_original.py:1814-1836 | the match-ID URL is the routing host, the fixed path and the query string, and the query string reads back as the search the call made |
| Report.ErrorLine | mcp-server/league_original.py:72-73 | the error line is `Error: ` followed by the text of the payload's `error` value |
| Report.ShortId | mcp-server/league_original.py:891 | a false or missing PUUID prints `N/A`; a present one prints its first eight characters (all of them when it is shorter) followed by `...` |
| Report.WinRate | mcp-server/league_original.py:900 | the win rate is 0 when wins plus losses is 0, and otherwise the percentage of games won, between 0 and 100 |
| Report.ClockRoundTrip | mcp-server/league_original.py:206-207 | a `m:ss` game length reads back as the length it shows: the seconds field is always two digits below 60 |
| Report.MsClockRoundTrip | mcp-server/league_original.py:1620 | a duration given in milliseconds prints as `m:ss` and reads back as its whole seconds |
| Report.GameTimeReadsBack | mcp-server/league_original.py:1755-1757 | within the first hundred minutes an event time is `MM:SS`, both fields zero-padded, and gives back the whole seconds |
| Report.TryStamp | mcp-server/league_original.py:1053 | a false timestamp prints `N/A`; a non-numeric one makes the conversion raise; a numeric one is converted |
| Report.StampPair | mcp-server/league_original.py:1052-1057 | when either conversion of a `try` block raises, both times print as `Epoch: <raw value>` |
| Report.MoreLines | mcp-server/league_original.py:1585-1586 | the `... and N more` line appears if and only if the list is longer than the cap, with N the number left out |
| Report.ShownPlusHidden | mcp-server/league_original.py:1582-1586 | the entries listed and the count the closing line announces add up to the whole list |
| Report.BlocksAt | mcp-server/league_original.py:1582-1583 | with blocks of one width, line j of entry k sits at position w*k+j, numbered from the start index |
| Report.BlocksContain | mcp-server/league_original.py:1582-1583 | every line of every entry's block appears in the listing |
| Report.TeamOf | mcp-server/league_original.py:1649-1650 | a team filter keeps exactly the entries whose `teamId` equals the team number, and nothing else |
| Report.TeamOfOrder | mcp-server/league_original.py:1649-1650 | both team filters keep the entries in list order and each as often as it occurs: a concatenation filters part by part, and one entry is kept exactly when its `teamId` matches (or, for the complement, does not) |
| Report.TeamSplit | mcp-server/league_original.py:215-232 | splitting on `teamId == 100` sends every entry to exactly one side, and the two sides together are the whole list |
| Report.TwoTeams | mcp-server/league_original.py:1649-1650 | the filters for teams 100 and 200 together hold at most every entry |
| Seqs.Take | mcp-server/league_original.py:1582 | a slice `s[:n]` is the first `min(n, len(s))` elements |
| Seqs.Filter | mcp-server/league_original.py:1649 | a comprehension filter keeps exactly the elements that pass, and only elements of the list |
| Seqs.FilterComplement | mcp-server/league_original.py:215-232 | filtering on a test and on its negation puts every element on exactly one side |
| Seqs.FirstWhereIsFirst | mcp-server/league_original.py:1629 | `next(...)` over a generator finds nothing exactly when no element passes, and otherwise finds the first that does |
| Seqs.SortBy | mcp-server/league_original.py:1751 | the sort is ascending by key, a permutation of its input, and stable: elements with equal keys keep their order |
| Seqs.SortByDescending | mcp-server/league_original.py:887 | `reverse=True` sorts descending by key, is a permutation, and is still stable |
| Seqs.TopOfAscending | mcp-server/league_original.py:1751-1753 | cutting an ascending sort keeps the lowest keys: anything left out ranks no lower than anything kept |
| Seqs.TopOfDescending | mcp-server/league_original.py:887-889 | cutting a descending sort keeps the highest keys: anything left out ranks no higher than anything kept |
| Seqs.StableSortUnique | mcp-server/league_original.py:1751 | two sorted arrangements that agree on every group of equal keys are equal, so the sort's contract fixes its result |
| AccountFormat.FormatAccount | mcp-server/league.py:59-74 | an error object prints as its one `Error:` line; otherwise the four lines carry the PUUID, game name and tag line, with `N/A` for a missing field, and the Riot ID is `<game name>#<tag line>` |
| AccountFormat.FormatActiveShard | mcp-server/league.py:139-147 | an error report gives its error line; otherwise three lines for the game, the active shard and the PUUID, and the text after `Active Shard: ` is the stored shard, or `N/A` when the key is missing |
| AccountFormat.FormatActiveRegion | mcp-server/league.py:170-178 | an error report gives its error line; otherwise three lines for the PUUID, the game and the active region, and the text after `Active Region: ` is the stored region, or `N/A` when the key is missing |
| AccountFormat.RiotIdRoundTrip | mcp-server/league.py:72 | the game name and the tag line can be read back from the `Riot ID:` line whenever the tag line holds no `#` |
| Text.StripBy | mcp-client/client.py:78 | stripping removes exactly the leading and trailing characters of the given class, leaves a result that neither starts nor ends with one, and keeps the middle unchanged |
| Text.StripIdempotent | mcp-client/client.py:219 | stripping twice gives the same result as stripping once |
| Text.LowerMatchesAnyCase | mcp-client/client.py:221 | comparing the lower-cased text with a lower-case word succeeds exactly when the text spells that word in any mixture of cases |
| Text.RemoveAllAbsent | mcp-client/client.py:99 | removing a marker that does not occur leaves the text unchanged |
| Text.RemoveAllLeading | mcp-client/client.py:99 | a marker at the very front is removed together with every later occurrence |
| Numerals.IntRoundTrip | mcp-client/client.py:128-129 | the decimal text of any integer, negative ones included, is an integer literal in canonical form and parses back to that integer |
| Numerals.CanonicalPrintsBack | mcp-client/client.py:128-129 | a canonical integer literal is exactly the text printed for the number it parses to |
| Numerals.GroupedRoundTrip | mcp-server/league_original.py:1124 | removing the commas that the thousands-grouped format inserts leaves the decimal digits of the number, after a minus sign for a negative number |
| Numerals.Pad2 | mcp-server/league.py:197 | for 0 to 99 the two-digit form is two digits that read back as the number |
| Numerals.PadLeft | mcp-server/league_original.py:913 | the text is right-aligned in the field with spaces and kept whole when it is wider than the field |
| Client.MatchParam | mcp-client/client.py:118 | a match is a word, `=` and a non-empty value without commas, and it is exactly a prefix of the text |
| Client.ValueEndFirst | mcp-client/client.py:118 | the lazy value stops at the first position where the end of text or a further `, key=` follows; no shorter value would do |
| Client.FindParams | mcp-client/client.py:118-119 | every pair found has a word for a key and a non-empty value free of commas |
| Client.ParamsRoundTrip | mcp-client/client.py:115-121 | rendering well-formed `key=value` pairs joined by `, ` and scanning the text again gives back the same pairs in the same order |
| Client.CoerceValue | mcp-client/client.py:123-135 | `true`/`false` in any case become booleans, integer literals become integers, texts of digits, `.` and `-` that `float` accepts become floats, and everything else, float-shaped text `float` rejects included, stays text; the tests apply in that order |
| Client.Collect | mcp-client/client.py:121-135 | storing the matches one by one gives a map with exactly the keys of the matches |
| Client.CollectLastWins | mcp-client/client.py:121-135 | a repeated key keeps the value from its last occurrence |
| Client.IntArgument | mcp-client/client.py:123-129 | a printed integer, bare or in single or double quotes, arrives as that integer |
| Client.BoolArgument | mcp-client/client.py:126-127 | a spelling of `true` or `false` in any case arrives as the matching boolean |
| Client.MatchCall | mcp-client/client.py:103 | a parsed call has a word for a name and is a prefix `<name>(<args>)` of the call text |
| Client.ParseCall | mcp-client/client.py:99-107 | an unparsable reply reports the text left after removing every `USE_TOOL:` and stripping |
| Client.CleanCall | mcp-client/client.py:99 | removing the marker and stripping gives back the call text written after `USE_TOOL: ` |
| Client.MatchWritten | mcp-client/client.py:103 | a written call `<name>(<args>)` matches with that name and those arguments |
| Client.CallRoundTrip | mcp-client/client.py:99-110 | a reply `USE_TOOL: <name>(<args>)` parses to that name and those arguments |
| ClientSession.CatalogLine | mcp-client/client.py:39-45 | a tool's line starts `- <name>: <description>` and gains a parameter note exactly when the schema declares properties |
| ClientSession.CatalogLineNamesParams | mcp-client/client.py:42-44 | each declared parameter appears in the tool's line as `<name> (<type>)` |
| ClientSession.Catalog | mcp-client/client.py:46 | the catalogue starts with its heading |
| ClientSession.CatalogListsEvery | mcp-client/client.py:38-46 | every listed tool's line appears in the catalogue |
| ClientSession.ContentParts | mcp-client/client.py:151-156 | the parts are empty exactly when no content item has text or data, and each text or data item contributes its part |
| ClientSession.ContentPartsOrder | mcp-client/client.py:151-156 | the parts follow the order of the content items, one per item with text or data: a concatenation collects part by part, and one item gives its text (else its data) exactly when it has one |
| ClientSession.Outcome | mcp-client/client.py:142-168 | a raised call reports `Error executing League API tool:`, an error result reports `League API Error:`, and a result without parts prints as its own text |
| ClientSession.OutcomeShowsParts | mcp-client/client.py:150-157 | every text or data part of a successful result appears in what the user sees |
| ClientSession.Execute | mcp-client/client.py:97-168 | an unparsable reply answers `Could not parse tool call:` with the cleaned text; a parsed call without a session answers `Error executing League API tool:` with Python's missing-attribute message |
| ClientSession.ExecuteWrittenCall | mcp-client/client.py:99-163 | a reply naming a tool and well-formed arguments calls that tool with exactly the collected arguments and shows its outcome |
| ClientSession.PromptCarries | mcp-client/client.py:53-73 | the prompt holds the tools context and `User query: <query>` |
| ClientSession.PromptAsks | mcp-client/client.py:59-60 | a prompt whose guide holds `Respond with: USE_TOOL:` passes that instruction, the marker the reply is parsed for, on to the model |
| ClientSession.ToolsContext | mcp-client/client.py:35-50 | with no session the context is the no-tools sentence; with one it is the catalogue of its tools, and a failed listing is an error |
| ClientSession.ProcessQuery | mcp-client/client.py:33-92 | a failed tool listing or a failed model call answers `Error processing query:` with the exception's message |
| ClientSession.DirectAnswer | mcp-client/client.py:77-87 | a reply that does not start with `USE_TOOL:` is returned stripped |
| ClientSession.ToolAnswer | mcp-client/client.py:77-84 | a reply `USE_TOOL: <call>` is answered by executing that call |
| ClientSession.ServerLaunch | mcp-client/client.py:178-188 | only `.py` and `.js` scripts launch, with `python` for the former and `node` for the latter and the path as the only argument; anything else is the script error |
| ClientSession.PythonScript | mcp-client/client.py:178-188 | a `.py` path launches with `python` |
| ClientSession.NodeScript | mcp-client/client.py:179-188 | a `.js` path launches with `node` |
| ClientSession.StartClient | mcp-client/client.py:247-256 | fewer than two arguments print the usage lines and exit with status 1; otherwise the first argument is launched |
| ClientSession.StartIgnoresExtra | mcp-client/client.py:248-255 | arguments after the script path change nothing |
| ChatLoop.QuitAnyCase | mcp-client/client.py:219-223 | a line quits exactly when, stripped, it spells `quit` in any case |
| ChatLoop.LineTurn | mcp-client/client.py:219-229 | a line quits exactly when it is a quit, and otherwise a blank line is skipped and any other line asks its stripped text |
| ChatLoop.ChatTurn | mcp-client/client.py:217-239 | with end of input read as leaving (the corrected loop), a turn leaves exactly on `quit`, an interrupt or end of input, and no turn is an error report |
| ChatLoop.RunTurnsEnds | mcp-client/client.py:217-239 | the loop ends exactly when some turn leaves it |
| ChatLoop.EndOfInputNeverEnds | mcp-client/client.py:217-239 | as written, a closed input makes every read report `Error: EOF when reading a line` and the loop never ends |
| ChatLoop.Chat | mcp-client/client.py:217-239 | every answered query is a non-blank line with no white space at either end, and only the last event can be the goodbye |
| ChatLoop.ChatEndsExactly | mcp-client/client.py:217-239 | the corrected loop ends exactly when some input is `quit`, an interrupt or end of input |
| ChatLoop.ChatStopsAt | mcp-client/client.py:223 | input after the line that ends the loop is never read |
| ChatLoop.RunChat | mcp-client/client.py:211-239 | the loop produces exactly the events and the ending of the chat function |
| Client.Arguments | mcp-client/client.py:115-135 | the argument map holds exactly the keys the scan finds, each of them a word, so an empty argument text gives an empty map |
| MatchFormat.IdLines | mcp-server/league_original.py:1582-1583 | one line per match ID, numbered from 1 in the order received |
| MatchFormat.FormatMatchIds | mcp-server/league_original.py:1565-1588 | a false list gives `No matches found for PUUID: <8 chars>...`; an error report gives its error line; otherwise a five-line header with the total, then at most ten numbered IDs and the closing `... and N more matches` line if there are more than ten |
| MatchFormat.MatchIdListed | mcp-server/league_original.py:1582-1583 | the k-th of the first ten IDs is printed on its own line, numbered k+1 |
| MatchFormat.MatchIdsAccounted | mcp-server/league_original.py:1585-1586 | up to ten IDs there is no closing line; past ten the listing has sixteen lines and the closing count makes up the rest |
| MatchFormat.Outcome | mcp-server/league_original.py:1653 | a side reads VICTORY if and only if a winning team was found and its ID equals the side's team number |
| MatchFormat.ObjectiveLine | mcp-server/league_original.py:1693-1705 | a team's objectives line is labelled Blue Side if and only if its `teamId` is 100 |
| MatchFormat.MatchTimes | mcp-server/league_original.py:1612-1623 | the duration is `m:ss` of seconds when `gameEndTimestamp` is set and of milliseconds otherwise; when either computation raises, the creation prints `Epoch: <raw>` and the duration `<raw>s` |
| MatchFormat.Side | mcp-server/league_original.py:1649-1668 | a side is its result line followed by two lines for each of its players, in order |
| MatchFormat.FormatMatchDetail | mcp-server/league_original.py:1590-1708 | an error report gives its error line; otherwise the header, the blue side, the red side and one objectives line per team, with the line count fixed by the sizes of the two sides and of the team list |
| MatchFormat.OneVictor | mcp-server/league_original.py:1629 | at most one side reads VICTORY; a side does exactly when the first team marked as the winner carries its number; with no team marked both read DEFEAT |
| MatchFormat.SidesWithinParticipants | mcp-server/league_original.py:1649-1650 | the two sides list only players of teams 100 and 200, so together they never list more players than the match has |
| MatchFormat.DurationReadsBack | mcp-server/league_original.py:1616-1620 | the duration line reads back as the match length in whole seconds, under both unit conventions |
| MatchFormat.FrameEvents | mcp-server/league_original.py:1735-1748 | each collected event is of one of the four key kinds, comes from the frame, and carries the frame's timestamp |
| MatchFormat.KeyEventsExactly | mcp-server/league_original.py:1735-1748 | an event is collected if and only if it is of one of the four kinds, and it is collected with the timestamp of its own frame |
| MatchFormat.EventLines | mcp-server/league_original.py:1762-1786 | every key event but `CHAMPION_SPECIAL_KILL` prints exactly one line; the special kill prints none |
| MatchFormat.EventsTextCount | mcp-server/league_original.py:1753-1786 | the timeline prints one line for each shown event other than a special kill |
| MatchFormat.FormatMatchTimeline | mcp-server/league_original.py:1710-1791 | an error report gives its error line; otherwise the header with the frame count, the lines of the shown events, and `... and N more events` when more than twenty key events were collected |
| MatchFormat.ShownEarliest | mcp-server/league_original.py:1750-1753 | the shown events are the twenty earliest key events in timestamp order; one left out is no earlier than any shown; events at the same time keep their collection order |
| MatchFormat.TimelineAccounted | mcp-server/league_original.py:1788-1789 | past twenty key events the closing count makes up the rest |
| SpectatorFormat.SideLines | mcp-server/league.py:235 | a side with no entries prints its `none` line; otherwise one `  - Champion ID: <id>` line per entry, in order |
| SpectatorFormat.FormatActiveGame | mcp-server/league.py:182-247 | an error report gives its error line; otherwise the header ends with the `m:ss` duration, and the blue side holds the participants and bans with `teamId` 100 while the red side holds every other one |
| SpectatorFormat.ActiveGameSides | mcp-server/league.py:204-221 | every participant and every ban is listed on exactly one side, so the two `Players:` counts add up to the participant count |
| SpectatorFormat.FormatFeaturedGames | mcp-server/league.py:249-297 | an error report gives its error line; a false `gameList` gives `No featured games currently available.`; otherwise a four-line header with the total, then eight lines per game numbered from 1 |
| SpectatorFormat.FeaturedPlayersCounted | mcp-server/league.py:282-284 | a featured game's `Players: a vs b` counts only teams 100 and 200, never more than its participant list |
| SummonerFormat.RevisionText | mcp-server/league.py:360-371 | a missing, false or `'N/A'` revision date prints `N/A`; a non-numeric one, or one whose conversion raises, prints `Epoch: <raw>`; otherwise the converted date |
| SummonerFormat.FormatSummoner | mcp-server/league.py:350-382 | an error report gives its error line; otherwise the header and its rule, then the summoner ID, account ID, PUUID, profile icon ID and level with `N/A` defaults, then the revision date, one per line |
| SummonerFormat.FormatChampionRotation | mcp-server/league.py:492-512 | an error report gives its error line; otherwise each list's length, then its IDs comma-joined or `None` when it is empty |
| SummonerFormat.IdListRoundTrip | mcp-server/league.py:506-510 | an ID list read back from its line is the list of IDs: none lost, merged with a neighbour or reordered, and an empty list reads back empty |
| ClashFormat.FormatClashPlayer | mcp-server/league.py:514-545 | a false payload gives `No active Clash registrations found for this player.` before any error check; an error report gives its error line; otherwise the count and six lines per registration numbered from 1 |
| ClashFormat.RegistrationsNumbered | mcp-server/league.py:529-543 | registration k is listed at lines 3+6k to 8+6k under the number k+1, in payload order |
| ClashFormat.FormatClashTeam | mcp-server/league.py:547-587 | an error report gives its error line; otherwise the team header with the member count, then four lines per member numbered from 1 |
| ClashFormat.PhaseStatus | mcp-server/league.py:626-636 | a phase reads CANCELLED if and only if its `cancelled` flag is truthy, and ACTIVE otherwise |
| ClashFormat.TournamentBlock | mcp-server/league.py:606-644 | a tournament's `Phases:` count is the length of its schedule, and one five-line block follows per phase |
| ClashFormat.FormatClashTournaments | mcp-server/league.py:589-646 | a false list gives `No active or upcoming tournaments found.` before any error check; an error report gives its error line; otherwise the count and one block per tournament numbered from 1 |
| ClashFormat.FormatClashTournament | mcp-server/league.py:648-697 | an error report gives its error line; otherwise the header with `Total Phases:` equal to the schedule length, then five lines per phase |
| ClashFormat.PhaseBlock | mcp-server/league.py:622-644 | a phase block is five lines, the last its status line, under whichever labels the formatter uses |
| ClashFormat.PhaseFallback | mcp-server/league.py:679-685 | in either formatter, when either timestamp of a phase fails to convert, both time lines print the raw epoch values |
| ClashFormat.TournamentPhase | mcp-server/league.py:673-695 | phase k of a tournament is the block at line 8+5k, numbered k+1, in schedule order |
| LeagueFormat.Rule | mcp-server/league_original.py:877 | `'=' * n` is n equals signs |
| LeagueFormat.LadderFlags | mcp-server/league_original.py:902-908 | HOT, VET and NEW each appear if and only if the entry's `hotStreak`, `veteran` or `freshBlood` flag is truthy |
| LeagueFormat.FlagSuffix | mcp-server/league_original.py:910 | the flag suffix is empty if and only if no flag is set |
| LeagueFormat.FormatLeagueList | mcp-server/league_original.py:864-918 | an error report gives its error line; otherwise the title is underlined by a rule of its own length, the total counts every entry, and three lines follow for each listed entry, numbered from 1 |
| LeagueFormat.TopEntriesAreHighest | mcp-server/league_original.py:886-889 | the ladder lists min(n, 10) entries in descending order of league points (missing counts as 0); every entry left out has no more points than any entry listed |
| LeagueFormat.EntryFlags | mcp-server/league_original.py:962-970 | each of HOT STREAK, VETERAN, FRESH BLOOD and INACTIVE appears if and only if its flag is truthy |
| LeagueFormat.SeriesLines | mcp-server/league_original.py:953-960 | the promotion-series line is present if and only if `miniSeries` is truthy |
| LeagueFormat.StatusLines | mcp-server/league_original.py:972 | the status line is present if and only if some flag is set, and joins the flags with ` \| ` |
| LeagueFormat.QueueBlock | mcp-server/league_original.py:974-982 | a queue block is six fixed lines followed by the optional series and status lines |
| LeagueFormat.FormatLeagueEntries | mcp-server/league_original.py:920-984 | a false list gives `No ranked entries found for this player.` before any error check; an error report gives its error line; otherwise the count and one block per queue numbered from 1 |
| ChallengeFormat.WithState | mcp-server/league_original.py:1002-1005 | a state group keeps exactly the configurations whose `state` is that state, and nothing else |
| ChallengeFormat.WithStateOrder | mcp-server/league_original.py:1002-1005 | a state group keeps catalogue order and multiplicity: a concatenation filters part by part, and one configuration is kept exactly when its `state` matches |
| ChallengeFormat.FormatChallengeConfigs | mcp-server/league_original.py:986-1029 | a false list gives `No challenge configurations found.` before any error check; an error report gives its error line; otherwise the total, the four group counts, and three lines per sampled challenge |
| ChallengeFormat.StateCountsBounded | mcp-server/league_original.py:1002-1011 | a configuration is in at most one state, so the four group counts never add up to more than the total |
| ChallengeFormat.SampleIsEnabled | mcp-server/league_original.py:1016 | the sample is the first min(n, 10) enabled challenges, in catalogue order, and only enabled ones |
| ChallengeFormat.FlagText | mcp-server/league_original.py:1026 | the leaderboard flag reads as its first word (`Yes`, `Enabled`) if and only if it is truthy, and as the second word otherwise |
| ChallengeFormat.FormatChallengeConfig | mcp-server/league_original.py:1031-1078 | an error report gives its error line; otherwise eleven header lines with the two converted times, then one line per threshold |
| ChallengeFormat.ThresholdListed | mcp-server/league_original.py:1075-1076 | every threshold is listed under its level's upper-cased name, in payload order |
| ChallengeFormat.FormatChallengeLeaderboard | mcp-server/league_original.py:1080-1106 | a false list gives `No <level> players found for this challenge.` before any error check; an error report gives its error line; otherwise the upper-cased title, a rule of `=` one character shorter than it, the total, and two lines for each of at most 25 rows |
| ChallengeFormat.RankLine | mcp-server/league_original.py:1099-1102 | a row without a `position` shows its place in the listing, padded to three columns, followed by its score formatted as `:,.0f` |
| ChallengeFormat.CategoryLines | mcp-server/league_original.py:1132-1142 | four lines per category, and lines 4k to 4k+3 are the block of the k-th category in key order: its upper-cased name, points, level and percentile |
| ChallengeFormat.AchievedText | mcp-server/league_original.py:1159-1164 | a challenge with no achieved time, or one that does not convert, reads `In Progress`; otherwise the converted day |
| ChallengeFormat.FormatPlayerChallenges | mcp-server/league_original.py:1108-1172 | an error report gives its error line; otherwise the summary header with the challenge count, four lines per category, then three lines for each listed top challenge |
| ChallengeFormat.TopChallengesAreHighest | mcp-server/league_original.py:1145-1152 | the summary lists min(n, 10) challenges, highest value first; one left out has no higher value than any listed |
| StatusFormat.EnglishTitleIsFirst | mcp-server/league_original.py:1206 | the title is the content of the first `en_US` title, and `No title` when no title is English |
| StatusFormat.StatusHeader | mcp-server/league_original.py:1185-1193 | the status line reads OPERATIONAL if and only if there are neither maintenances nor incidents |
| StatusFormat.Section | mcp-server/league_original.py:1195-1198 | a maintenance or incident section is empty if and only if its list is false |
| StatusFormat.FormatPlatformStatus | mcp-server/league_original.py:1174-1240 | an error report gives its error line; otherwise the header, the maintenance section, the incident section, and the closing `No active maintenances or incidents` line exactly when the platform is operational |
| StatusFormat.OperationalIffQuiet | mcp-server/league_original.py:1191-1238 | the status reads OPERATIONAL exactly when the answer holds the `No active maintenances or incidents` line |

## Left out

- HTTP transport, timeouts, `async`/`await`, FastMCP registration, the stdio transport and the MCP session are left out. They are I/O and foreign libraries. The network is the `RiotRequest.Client` parameter, the API key is an `Option<string>` parameter, and a tool call on the client side is the `call` function of a `Session`.
- The Gemini call, `genai.configure` and the `.env` loading are left out. They are external services and configuration. The model's reply is the `model` parameter of `ProcessQuery`.
- The prompt text is a `PromptText` parameter of `ProcessQuery`, and the lemmas hold for every prompt text. The client's own text is written out word for word as `ClientSession.LeaguePrompt`, its guide built around `RespondWith`, the instruction to answer with the `USE_TOOL:` marker. No lemma is stated about that constant itself: the long literal makes every proof that mentions it costly. `PromptCarries` and `PromptAsks` state what any prompt, and so the client's, passes to the model.
- `datetime.fromtimestamp`/`strftime` depend on the time zone and the C library. They are the `dateTime` and `day` functions of `Report.Library`, which give `None` where the conversion raises. Only the branches around them are modelled: a false value prints `N/A`, and a caught `ValueError` or `TypeError` falls back to `Epoch:`. The achieved date of `ChallengeFormat.AchievedText` is the exception: it prints `In Progress` both when the time is false and when the conversion raises.
- The date conversions catch only `ValueError` and `TypeError`. An `OverflowError` or `OSError` from an out-of-range stamp propagates out of the tool in Python. The model does not tell these apart: every `None` from the library takes the caught branch and prints its fallback.
- Report.WholeThousands: `:,.0f` converts an integer to a float before formatting. Above 2^53 that conversion rounds, and `Library.groupedWhole` receives the exact value and stands for the conversion and the formatting together. An integer too large for a float raises `OverflowError` in Python; the model has no such case and leaves the text to the library.
- Float output is the `fixed`, `groupedWhole`, `groupedFloat` and `floatText` functions of `Report.Library`. This covers `.1f`/`.2f`, `frameInterval / 1000`, `:,.0f`, `:,` of a float and `str` of a float. The `:,` format of an integer and of a boolean (as 0 or 1) is modelled exactly; on a text, `null`, a list or an object `:,` raises in Python, and `Report.Thousands` prints such a value as `str` does instead.
- Client.CoerceValue: a float-shaped value becomes `FloatArg` holding its text; the float it denotes is not computed.
- Logging and the console output of the client are left out. These are the welcome banner, the example queries, the `🔄 Executing:` line and the prompt string of `input`.
- Emoji, blank lines and the indentation of the multi-line f-strings are left out. Each formatter returns its lines with the leading spaces that carry meaning and without the decoration.
- Report.ShortId and the other payload readers: where Python would raise on a payload of the wrong shape, the model reads the value as missing. Examples are `[:8]` on a non-string, `//` on a non-number and `team['teamId']` on a team without it.
- ChallengeFormat.Position: `f"{position:3d}"` (league_original.py line 1102) raises on any position that is not an integer or a boolean: `ValueError` for a text or a float, `TypeError` for `null`, a list or an object. The model prints such a value as `str` does instead, as `Report.Thousands` does for `:,`.
- Json.Repr: a text inside a printed list or dict is wrapped in single quotes as it stands. Python's `repr` would also escape `\` and control characters, and would use double quotes for a text holding `'`.
- Json.Lookup: a key written twice reads as its last value, as `json.loads` keeps it. Iterating an object's items still visits every written pair, where a Python dict holds one per key.
- `Text.IsSpace`, `Lower`, `Upper` and `IsWordChar` cover ASCII only. Python's `str.strip`, `str.lower`, `str.upper` and `\w` also act on other Unicode characters.
- RiotRequest.QueryRoundTrip: holds only for a `type` free of `&`. The source builds the query text itself and does not escape the values, so a `&` in `type` reads back as a new piece.
- ClientSession.Outcome: reading `result.error` is a `Result`. Its text is given when the read succeeds and the exception's message when it raises, because the attribute is not part of the MCP result type.
- ChatLoop.Chat: SIGINT is an `Interrupt` input that can arrive only where a line is read; an interrupt during `process_query` is not modelled.
- `cleanup` and the `AsyncExitStack` are left out. They only release resources.
- `mcp-server/main.py` is not part of this model. It wires up modules whose files are not shown.
- `mcp-server/primitives/prompts/common_workflows.py` is not part of this model. It holds static prompt templates.

## Findings

| source | as written | input that shows it | evidently intended | confidence | as-written member | corrected member |
|---|---|---|---|---|---|---|
| mcp-client/client.py:217-239 | `input()` raises `EOFError` at end of input. `except Exception` catches it, prints `Error: EOF when reading a line` and the `while True` loop reads again, forever | a closed or exhausted standard input, such as `python client.py server.py < /dev/null` | end of input ends the loop, as `quit` and Ctrl-C do | medium, not executed | ChatLoop.EndOfInputNeverEnds | ChatLoop.ChatEndsExactly |

=== FILE: account_format.dfy ===
/** What the Account-V1 tools print: a Riot account, and a player's active
    shard and active region. */
module AccountFormat {
  import opened Wrappers
  import opened Text
  import opened Json
  import opened Report

  /** `format_account`. */
  function FormatAccount(data: Json): (r: seq<string>)
    ensures IsError(data) ==> r == [ErrorLine(data)]
    ensures !IsError(data) ==> (
      && |r| == 4
      && r[0] == "PUUID: " + Field(data, "puuid")
      && r[1] == "Game Name: " + Field(data, "gameName")
      && r[2] == "Tag Line: " + Field(data, "tagLine")
      && r[3] == "Riot ID: " + Field(data, "gameName") + "#" + Field(data, "tagLine"))
  {
    if IsError(data) then [ErrorLine(data)]
    else
      var name := Field(data, "gameName");
      var tag := Field(data, "tagLine");
      ["PUUID: " + Field(data, "puuid"), "Game Name: " + name, "Tag Line: " + tag,
       "Riot ID: " + name + "#" + tag]
  }

  /** Reads the game name and tag line back out of a `Riot ID:` line. */
  function ReadRiotId(line: string): Option<(string, string)> {
    var head := "Riot ID: ";
    if StartsWith(line, head) then SplitLast(line[|head|..], '#') else None
  }

  /** The `Riot ID:` line gives back the game name and the tag line whenever
      the tag line has no `#`; game names may contain one. */
  lemma RiotIdRoundTrip(data: Json)
    requires !IsError(data)
    requires '#' !in Field(data, "tagLine")
    ensures ReadRiotId(FormatAccount(data)[3]) == Some((Field(data, "gameName"), Field(data, "tagLine")))
  {
    var name := Field(data, "gameName");
    var tag := Field(data, "tagLine");
    var line := FormatAccount(data)[3];
    assert line == "Riot ID: " + (name + ['#'] + tag);
    assert line[|"Riot ID: "|..] == name + ['#'] + tag;
    SplitLastJoin(name, '#', tag);
  }

  /** The answer of `get_active_shard` once data has arrived. */
  function FormatActiveShard(data: Json): (r: seq<string>)
    ensures IsError(data) ==> r == [ErrorLine(data)]
    ensures !IsError(data) ==> (
      && |r| == 3
      && r[0] == "Game: " + Field(data, "game")
      && r[1] == "Active Shard: " + Field(data, "activeShard")
      && r[2] == "PUUID: " + Field(data, "puuid")
      && r[1][|"Active Shard: "|..]
        == if Has(data, "activeShard") then Show(Lookup(data.fields, "activeShard").value) else "N/A")
  {
    FieldDefault(data, "activeShard");
    if IsError(data) then [ErrorLine(data)]
    else ["Game: " + Field(data, "game"), "Active Shard: " + Field(data, "activeShard"),
          "PUUID: " + Field(data, "puuid")]
  }

  /** The answer of `get_active_region` once data has arrived. */
  function FormatActiveRegion(data: Json): (r: seq<string>)
    ensures IsError(data) ==> r == [ErrorLine(data)]
    ensures !IsError(data) ==> (
      && |r| == 3
      && r[0] == "PUUID: " + Field(data, "puuid")
      && r[1] == "Game: " + Field(data, "game")
      && r[2] == "Active Region: " + Field(data, "region")
      && r[2][|"Active Region: "|..]
        == if Has(data, "region") then Show(Lookup(data.fields, "region").value) else "N/A")
  {
    FieldDefault(data, "region");
    if IsError(data) then [ErrorLine(data)]
    else ["PUUID: " + Field(data, "puuid"), "Game: " + Field(data, "game"),
          "Active Region: " + Field(data, "region")]
  }
}

=== FILE: challenge_format.dfy ===
/** What the Challenges-V1 tools print: the challenge catalogue grouped by
    state, one challenge's configuration, a level's leaderboard and a
    player's challenge summary. */
module ChallengeFormat {
  import opened Wrappers
  import opened Numerals
  import opened Text
  import opened Json
  import opened Report
  import Seqs

  /** `c.get('state') == state`. */
  predicate InState(c: Json, state: string) {
    Get(c, "state", Null) == Str(state)
  }

  /** The configurations in one state, in catalogue order. */
  function WithState(cs: seq<Json>, state: string): (r: seq<Json>)
    ensures forall i :: 0 <= i < |r| ==> InState(r[i], state)
    ensures forall i :: 0 <= i < |cs| && InState(cs[i], state) ==> cs[i] in r
    ensures forall c :: c in r ==> c in cs
  {
    Seqs.Filter(cs, c => InState(c, state))
  }

  /** The state filter keeps catalogue order and multiplicity: filtering a
      concatenation filters the parts, and a single configuration is kept
      exactly when it is in the state. */
  lemma WithStateOrder(a: seq<Json>, b: seq<Json>, c: Json, state: string)
    ensures WithState(a + b, state) == WithState(a, state) + WithState(b, state)
    ensures WithState([c], state) == if InState(c, state) then [c] else []
  {
    Seqs.FilterAppend(a, b, d => InState(d, state));
    Seqs.FilterSingle(c, d => InState(d, state));
  }

  /** The English name of a challenge, `Challenge <id>` when it has none. */
  function ChallengeName(c: Json): string {
    var en := Get(Get(c, "localizedNames", Obj([])), "en_US", Obj([]));
    Show(Get(en, "name", Str("Challenge " + Field(c, "id"))))
  }

  /** A flag shown as one of two words: `'Yes' if leaderboard else 'No'`,
      `'Enabled' if leaderboard else 'Disabled'`. */
  function FlagText(v: Json, on: string, off: string): (r: string)
    requires on != off
    ensures r == on <==> Truthy(v)
    ensures r == on || r == off
  {
    if Truthy(v) then on else off
  }

  /** The block for sample challenge number `i`. */
  function SampleBlock(i: int, c: Json): (r: seq<string>)
    ensures |r| == 3
  {
    [Numbered(i) + ChallengeName(c) + " (ID: " + Field(c, "id") + ")",
     "    Tracking: " + Field(c, "tracking"),
     "    Leaderboard: " + FlagText(Get(c, "leaderboard", Bool(false)), "Yes", "No")]
  }

  /** The enabled challenges the sample lists: the first ten. */
  function Sample(cs: seq<Json>): seq<Json> {
    Seqs.Take(WithState(cs, "ENABLED"), 10)
  }

  function ConfigsHeader(cs: seq<Json>): (r: seq<string>)
    ensures |r| == 8 && r[2] == "Total Challenges: " + IntToString(|cs|)
    ensures r[3] == "ENABLED: " + IntToString(|WithState(cs, "ENABLED")|) + " challenges"
  {
    ["CHALLENGE CONFIGURATIONS", "========================",
     "Total Challenges: " + IntToString(|cs|),
     "ENABLED: " + IntToString(|WithState(cs, "ENABLED")|) + " challenges",
     "HIDDEN: " + IntToString(|WithState(cs, "HIDDEN")|) + " challenges  ",
     "DISABLED: " + IntToString(|WithState(cs, "DISABLED")|) + " challenges",
     "ARCHIVED: " + IntToString(|WithState(cs, "ARCHIVED")|) + " challenges",
     "SAMPLE ENABLED CHALLENGES:"]
  }

  /** `format_challenge_configs`. */
  function FormatChallengeConfigs(data: Json): (r: seq<string>)
    ensures !Truthy(data) ==> r == ["No challenge configurations found."]
    ensures Truthy(data) && IsError(data) ==> r == [ErrorLine(data)]
    ensures Truthy(data) && !IsError(data) ==> (
      && |r| == 8 + 3 * |Sample(Items(data))|
      && r[2] == "Total Challenges: " + IntToString(|Items(data)|)
      && r[3] == "ENABLED: " + IntToString(|WithState(Items(data), "ENABLED")|) + " challenges"
      && r[8..] == Blocks(Sample(Items(data)), SampleBlock, 1))
  {
    if !Truthy(data) then ["No challenge configurations found."]
    else if IsError(data) then [ErrorLine(data)]
    else
      var cs := Items(data);
      var head := ConfigsHeader(cs);
      var body := Blocks(Sample(cs), SampleBlock, 1);
      BlocksLength(Sample(cs), SampleBlock, 1, 3);
      assert (head + body)[8..] == body;
      head + body
  }

  /** A configuration is in at most one of the four states, so the four
      group counts never add up to more than the catalogue. */
  lemma {:induction false} StateCountsBounded(cs: seq<Json>)
    ensures |WithState(cs, "ENABLED")| + |WithState(cs, "HIDDEN")|
      + |WithState(cs, "DISABLED")| + |WithState(cs, "ARCHIVED")| <= |cs|
  {
    if |cs| > 0 {
      StateCountsBounded(cs[1..]);
      assert cs == [cs[0]] + cs[1..];
      Seqs.FilterAppend([cs[0]], cs[1..], c => InState(c, "ENABLED"));
      Seqs.FilterAppend([cs[0]], cs[1..], c => InState(c, "HIDDEN"));
      Seqs.FilterAppend([cs[0]], cs[1..], c => InState(c, "DISABLED"));
      Seqs.FilterAppend([cs[0]], cs[1..], c => InState(c, "ARCHIVED"));
    }
  }

  /** The sample lists the first `min(n, 10)` enabled challenges, in
      catalogue order, and only enabled ones. */
  lemma SampleIsEnabled(cs: seq<Json>)
    ensures |Sample(cs)| == if |WithState(cs, "ENABLED")| < 10 then |WithState(cs, "ENABLED")| else 10
    ensures Sample(cs) == WithState(cs, "ENABLED")[..|Sample(cs)|]
    ensures forall i :: 0 <= i < |Sample(cs)| ==> InState(Sample(cs)[i], "ENABLED")
  {
  }

  /** One `  LEVEL: threshold` line per entry of `thresholds`, in key order. */
  function ThresholdLines(ts: seq<(string, Json)>): (r: seq<string>)
    ensures |r| == |ts|
    ensures forall i :: 0 <= i < |ts| ==> r[i] == "  " + Upper(ts[i].0) + ": " + Show(ts[i].1)
  {
    seq(|ts|, i requires 0 <= i < |ts| => "  " + Upper(ts[i].0) + ": " + Show(ts[i].1))
  }

  function Thresholds(data: Json): seq<(string, Json)> {
    Fields(Get(data, "thresholds", Obj([])))
  }

  /** The start and end times of a challenge, converted together. */
  function ChallengeTimes(lib: Library, data: Json): (string, string) {
    StampPair(lib, Get(data, "startTimestamp", Int(0)), Get(data, "endTimestamp", Int(0)))
  }

  function ConfigHeader(lib: Library, data: Json): (r: seq<string>)
    ensures |r| == 11
    ensures r[8] == "Start Time: " + ChallengeTimes(lib, data).0
    ensures r[9] == "End Time: " + ChallengeTimes(lib, data).1
  {
    var en := Get(Get(data, "localizedNames", Obj([])), "en_US", Obj([]));
    var times := ChallengeTimes(lib, data);
    ["CHALLENGE DETAILS", "=================",
     "Name: " + ChallengeName(data), "ID: " + Field(data, "id"),
     "Description: " + FieldOr(en, "description", "No description available"),
     "Status: " + Field(data, "state"), "Tracking: " + Field(data, "tracking"),
     "Leaderboard: " + FlagText(Get(data, "leaderboard", Bool(false)), "Enabled", "Disabled"),
     "Start Time: " + times.0, "End Time: " + times.1, "THRESHOLDS:"]
  }

  /** `format_challenge_config`. */
  function FormatChallengeConfig(lib: Library, data: Json): (r: seq<string>)
    ensures IsError(data) ==> r == [ErrorLine(data)]
    ensures !IsError(data) ==> (
      && |r| == 11 + |Thresholds(data)|
      && r[8] == "Start Time: " + ChallengeTimes(lib, data).0
      && r[9] == "End Time: " + ChallengeTimes(lib, data).1
      && r[11..] == ThresholdLines(Thresholds(data)))
  {
    if IsError(data) then [ErrorLine(data)]
    else
      var head := ConfigHeader(lib, data);
      var body := ThresholdLines(Thresholds(data));
      assert (head + body)[11..] == body;
      head + body
  }

  /** Every threshold of the configuration is listed under its level's
      upper-cased name, in the order the payload gives them. */
  lemma ThresholdListed(lib: Library, data: Json, k: nat)
    requires !IsError(data) && k < |Thresholds(data)|
    ensures 11 + k < |FormatChallengeConfig(lib, data)|
    ensures FormatChallengeConfig(lib, data)[11 + k]
      == "  " + Upper(Thresholds(data)[k].0) + ": " + Show(Thresholds(data)[k].1)
  {
    var r := FormatChallengeConfig(lib, data);
    assert r[11 + k] == r[11..][k];
  }

  /** `f"{position:3d}"`. */
  function Position(v: Json): string {
    match Num(v)
    case Some(n) => PadLeft(IntToString(n), 3)
    case None => Show(v)
  }

  /** The block for leaderboard row number `i`; a row without a `position`
      shows its row number. */
  function RankBlock(lib: Library, i: int, p: Json): (r: seq<string>)
    ensures |r| == 2 && r[0] == RankHead(lib, i, p) && r[1] == "      PUUID: " + ShortId(p, "puuid")
  {
    [RankHead(lib, i, p), "      PUUID: " + ShortId(p, "puuid")]
  }

  /** The first line of a leaderboard row: its position and score. */
  function RankHead(lib: Library, i: int, p: Json): string {
    "#" + Position(Get(p, "position", Int(i))) + ". Score: " + WholeThousands(lib, Get(p, "value", Int(0)))
  }

  function RankRows(lib: Library): (int, Json) -> seq<string> {
    (i, p) => RankBlock(lib, i, p)
  }

  /** `format_challenge_leaderboard`. Its rule of `=` is one character
      shorter than the title above it. */
  function FormatChallengeLeaderboard(lib: Library, data: Json, level: string): (r: seq<string>)
    ensures !Truthy(data) ==> r == ["No " + level + " players found for this challenge."]
    ensures Truthy(data) && IsError(data) ==> r == [ErrorLine(data)]
    ensures Truthy(data) && !IsError(data) ==> (
      && |r| == 4 + 2 * |Seqs.Take(Items(data), 25)|
      && r[0] == Upper(level) + " CHALLENGE LEADERBOARD"
      && |r[1]| + 1 == |r[0]|
      && (forall k :: 0 <= k < |r[1]| ==> r[1][k] == '=')
      && r[2] == "Total Players: " + IntToString(|Items(data)|)
      && r[4..] == Blocks(Seqs.Take(Items(data), 25), RankRows(lib), 1))
  {
    if !Truthy(data) then ["No " + level + " players found for this challenge."]
    else if IsError(data) then [ErrorLine(data)]
    else
      var head := [Upper(level) + " CHALLENGE LEADERBOARD", seq(|level| + 21, _ => '='),
        "Total Players: " + IntToString(|Items(data)|), "TOP PLAYERS:"];
      var top := Seqs.Take(Items(data), 25);
      var body := Blocks(top, RankRows(lib), 1);
      BlocksLength(top, RankRows(lib), 1, 2);
      assert (head + body)[4..] == body;
      head + body
  }

  /** A row without a `position` is numbered by the place `i` the listing
      gives it (`enumerate(..., 1)`), padded to three columns. */
  lemma RankLine(lib: Library, i: int, p: Json)
    requires !Has(p, "position")
    ensures RankHead(lib, i, p)
      == "#" + PadLeft(IntToString(i), 3) + ". Score: " + WholeThousands(lib, Get(p, "value", Int(0)))
  {
    assert Get(p, "position", Int(i)) == Int(i);
  }

  /** `f"{v:.2f}%"`. */
  function Percent(lib: Library, v: Json, n: nat): string {
    Fixed(lib, v, n) + "%"
  }

  /** The block for one category of the breakdown. */
  function CategoryBlock(lib: Library, category: string, points: Json): (r: seq<string>)
    ensures |r| == 4 && r[0] == "  " + Upper(category) + ":"
  {
    ["  " + Upper(category) + ":",
     "    Points: " + Thousands(lib, Get(points, "current", Int(0))),
     "    Level: " + FieldOr(points, "level", "NONE"),
     "    Percentile: " + Percent(lib, Get(points, "percentile", Int(0)), 2)]
  }

  /** The breakdown, one block per category in key order. */
  function CategoryLines(lib: Library, cats: seq<(string, Json)>): (r: seq<string>)
    ensures |r| == 4 * |cats|
    ensures forall k :: 0 <= k < |cats| ==> r[4 * k..4 * k + 4] == CategoryBlock(lib, cats[k].0, cats[k].1)
    decreases |cats|
  {
    if |cats| == 0 then []
    else
      var head := CategoryBlock(lib, cats[0].0, cats[0].1);
      var rest := CategoryLines(lib, cats[1..]);
      assert forall k :: 1 <= k < |cats| ==>
        (head + rest)[4 * k..4 * k + 4] == rest[4 * (k - 1)..4 * (k - 1) + 4] && cats[k] == cats[1..][k - 1];
      head + rest
  }

  /** The sort key `x.get('value', 0)`. */
  function Progress(x: Json): real {
    Real(Get(x, "value", Int(0))).GetOr(0.0)
  }

  /** The challenges the summary lists: by value, highest first, ties in
      payload order, at most ten. */
  function TopChallenges(cs: seq<Json>): seq<Json> {
    Seqs.Take(Seqs.SortByDescending(cs, Progress), 10)
  }

  /** The `Achieved:` value: the day a challenge was reached, `In Progress`
      when it has no time or the time does not convert. */
  function AchievedText(lib: Library, t: Json): (r: string)
    ensures !Truthy(t) || Real(t).None? ==> r == "In Progress"
    ensures Truthy(t) && Real(t).Some? ==> r == lib.day(Real(t).value).GetOr("In Progress")
  {
    if !Truthy(t) then "In Progress"
    else match Real(t)
      case Some(x) => lib.day(x).GetOr("In Progress")
      case None => "In Progress"
  }

  /** The block for top challenge number `i`. */
  function ProgressBlock(lib: Library, i: int, c: Json): (r: seq<string>)
    ensures |r| == 3 && r[2] == "    Achieved: " + AchievedText(lib, Get(c, "achievedTime", Int(0)))
  {
    [Numbered(i) + "Challenge " + Field(c, "challengeId") + ": " + FieldOr(c, "level", "NONE"),
     "    Progress: " + WholeThousands(lib, Get(c, "value", Int(0)))
       + " (Top " + Percent(lib, Get(c, "percentile", Int(0)), 1) + ")",
     "    Achieved: " + AchievedText(lib, Get(c, "achievedTime", Int(0)))]
  }

  function ProgressRows(lib: Library): (int, Json) -> seq<string> {
    (i, c) => ProgressBlock(lib, i, c)
  }

  function Challenges(data: Json): seq<Json> {
    Items(Get(data, "challenges", Arr([])))
  }

  function Categories(data: Json): seq<(string, Json)> {
    Fields(Get(data, "categoryPoints", Obj([])))
  }

  function SummaryHeader(lib: Library, data: Json): (r: seq<string>)
    ensures |r| == 7 && r[5] == "Active Challenges: " + IntToString(|Challenges(data)|)
  {
    var total := Get(data, "totalPoints", Obj([]));
    ["PLAYER CHALLENGE SUMMARY", "========================",
     "Total Points: " + Thousands(lib, Get(total, "current", Int(0))),
     "Overall Level: " + FieldOr(total, "level", "NONE"),
     "Percentile: " + Percent(lib, Get(total, "percentile", Int(0)), 2),
     "Active Challenges: " + IntToString(|Challenges(data)|),
     "CATEGORY BREAKDOWN:"]
  }

  /** `format_player_challenges`. */
  function FormatPlayerChallenges(lib: Library, data: Json): (r: seq<string>)
    ensures IsError(data) ==> r == [ErrorLine(data)]
    ensures !IsError(data) ==> (
      && |r| == 8 + 4 * |Categories(data)| + 3 * |TopChallenges(Challenges(data))|
      && r[5] == "Active Challenges: " + IntToString(|Challenges(data)|)
      && r[7..] == CategoryLines(lib, Categories(data)) + ["TOP CHALLENGES BY PROGRESS:"]
        + Blocks(TopChallenges(Challenges(data)), ProgressRows(lib), 1))
  {
    if IsError(data) then [ErrorLine(data)]
    else
      var head := SummaryHeader(lib, data);
      var cats := CategoryLines(lib, Categories(data));
      var top := TopChallenges(Challenges(data));
      var body := Blocks(top, ProgressRows(lib), 1);
      BlocksLength(top, ProgressRows(lib), 1, 3);
      var rest := cats + ["TOP CHALLENGES BY PROGRESS:"] + body;
      assert (head + rest)[7..] == rest;
      head + rest
  }

  /** The summary lists at most ten challenges, highest value first and ties
      in payload order; a challenge it leaves out has no higher value than
      any it lists. */
  lemma TopChallengesAreHighest(cs: seq<Json>, x: Json)
    requires x in cs
    ensures |TopChallenges(cs)| == if |cs| < 10 then |cs| else 10
    ensures forall i, j :: 0 <= i < j < |TopChallenges(cs)| ==>
      Progress(TopChallenges(cs)[i]) >= Progress(TopChallenges(cs)[j])
    ensures x in TopChallenges(cs) || forall y :: y in TopChallenges(cs) ==> Progress(y) >= Progress(x)
  {
    Seqs.TopOfDescending(cs, Progress, 10, x);
  }
}

=== FILE: chat_loop.dfy ===
/** The League MCP client's chat loop: it reads queries until `quit` or
    Ctrl-C and shows the answer to each. The console is the sequence of
    what the successive `input()` calls give, and answering a query is a
    parameter. */
module ChatLoop {
  import opened Text

  /** What one `input()` call gives: a line, or the `EOFError` raised at
      the end of input, or the `KeyboardInterrupt` of Ctrl-C. */
  datatype Input = Line(text: string) | EndOfInput | Interrupt

  /** What the loop shows for one turn: a query and its answer, the report
      of an exception, or the goodbye of an interrupt. */
  datatype Event = Answered(query: string, response: string) | Failed(message: string) | Exiting

  /** `f"Error: {str(e)}"` for the `EOFError` that `input()` raises when
      standard input is closed or redirected from an exhausted file: CPython
      gives it the text `EOF when reading a line`. */
  const EofMessage := "Error: EOF when reading a line"

  /** `query.lower() == 'quit'` on the stripped line. */
  predicate IsQuit(text: string) {
    Lower(Strip(text)) == "quit"
  }

  /** `quit` is recognised in any mixture of cases. */
  lemma QuitAnyCase(text: string)
    ensures IsQuit(text) <==> SameIgnoringCase(Strip(text), "quit")
  {
    assert Lower("quit") == "quit";
    LowerMatchesAnyCase(Strip(text), "quit");
  }

  /** The inputs that end the loop once the end of input is handled:
      Ctrl-C, `quit`, and the end of input. */
  predicate Ends(i: Input) {
    i.Interrupt? || i.EndOfInput? || (i.Line? && IsQuit(i.text))
  }

  /** What one pass of the loop's body does with what `input()` gave:
      leave the loop (saying goodbye or not), skip a blank line, answer a
      query, or report an exception and read on. */
  datatype Turn = Leave(bye: bool) | Skip | Ask(query: string) | Report(message: string)

  /** The turn of a line: `quit` leaves silently, a blank line is skipped,
      anything else is asked as the stripped query. */
  function LineTurn(text: string): (r: Turn)
    ensures r.Leave? <==> IsQuit(text)
    ensures r.Leave? ==> !r.bye
    ensures r.Ask? ==> r.query == Strip(text)
    ensures r.Ask? ==> |r.query| > 0 && !IsSpace(r.query[0]) && !IsSpace(r.query[|r.query| - 1])
    ensures r.Leave? || r.Skip? || r.Ask?
  {
    var q := Strip(text);
    StripEnds(text);
    if Lower(q) == "quit" then Leave(false)
    else if |q| == 0 then Skip
    else Ask(q)
  }

  /** A turn of `chat_loop` as written: the `EOFError` of the end of input
      is reported like any other exception. */
  function WrittenTurn(i: Input): Turn {
    match i
    case Interrupt => Leave(true)
    case EndOfInput => Report(EofMessage)
    case Line(text) => LineTurn(text)
  }

  /** A turn with the end of input ending the loop as Ctrl-C does. */
  function ChatTurn(i: Input): (r: Turn)
    ensures r.Leave? <==> Ends(i)
    ensures !r.Report?
  {
    match i
    case Interrupt => Leave(true)
    case EndOfInput => Leave(true)
    case Line(text) => LineTurn(text)
  }

  /** What a turn shows. */
  function Shown(t: Turn, answer: string -> string): seq<Event> {
    match t
    case Leave(bye) => if bye then [Exiting] else []
    case Skip => []
    case Ask(q) => [Answered(q, answer(q))]
    case Report(m) => [Failed(m)]
  }

  /** The loop over its turns: each turn's events are shown, up to and
      including the first turn that leaves; the flag tells whether one
      did. */
  function RunTurns(ts: seq<Turn>, answer: string -> string): (r: (seq<Event>, bool))
    decreases |ts|
  {
    if |ts| == 0 then ([], false)
    else if ts[0].Leave? then (Shown(ts[0], answer), true)
    else
      var rest := RunTurns(ts[1..], answer);
      (Shown(ts[0], answer) + rest.0, rest.1)
  }

  /** The turns the inputs give as written, one per input. */
  function WrittenTurns(inputs: seq<Input>): (r: seq<Turn>)
    ensures |r| == |inputs| && forall k :: 0 <= k < |inputs| ==> r[k] == WrittenTurn(inputs[k])
  {
    seq(|inputs|, k requires 0 <= k < |inputs| => WrittenTurn(inputs[k]))
  }

  /** `chat_loop` as written, over the inputs it reads: the events it shows
      and whether it left the loop. */
  function ChatAsWritten(inputs: seq<Input>, answer: string -> string): (seq<Event>, bool) {
    RunTurns(WrittenTurns(inputs), answer)
  }

  function Repeat<T>(x: T, n: nat): (r: seq<T>)
    ensures |r| == n && forall k :: 0 <= k < n ==> r[k] == x
  {
    seq(n, k => x)
  }

  lemma {:induction false} ReportsNeverEnd(n: nat, m: string, answer: string -> string)
    ensures RunTurns(Repeat(Report(m), n), answer) == (Repeat(Failed(m), n), false)
  {
    if n > 0 {
      ReportsNeverEnd(n - 1, m, answer);
      assert Repeat(Report(m), n)[1..] == Repeat(Report(m), n - 1);
      assert Repeat(Failed(m), n) == [Failed(m)] + Repeat(Failed(m), n - 1);
    }
  }

  /** Once input is closed every `input()` raises `EOFError`: the loop as
      written then reports `Error: EOF when reading a line` for each read and never ends, however
      many reads there are. */
  lemma EndOfInputNeverEnds(n: nat, answer: string -> string)
    ensures ChatAsWritten(Repeat(EndOfInput, n), answer) == (Repeat(Failed(EofMessage), n), false)
  {
    assert WrittenTurns(Repeat(EndOfInput, n)) == Repeat(Report(EofMessage), n);
    ReportsNeverEnd(n, EofMessage, answer);
  }

  /** Every event shows a proper query, and only the last can be the
      goodbye. */
  predicate WellShown(es: seq<Event>) {
    (forall k :: 0 <= k < |es| ==> ProperQuery(es[k])) &&
    (forall k :: 0 <= k < |es| - 1 ==> es[k].Answered?)
  }

  /** An answered query is a non-blank line with no white space at either
      end. */
  predicate ProperQuery(e: Event) {
    e.Answered? ==> |e.query| > 0 && !IsSpace(e.query[0]) && !IsSpace(e.query[|e.query| - 1])
  }

  /** A turn as `ChatTurn` gives it. */
  predicate ProperTurn(t: Turn) {
    !t.Report? && (t.Ask? ==> |t.query| > 0 && !IsSpace(t.query[0]) && !IsSpace(t.query[|t.query| - 1]))
  }

  lemma ShownAppend(a: seq<Event>, b: seq<Event>)
    requires forall k :: 0 <= k < |a| ==> a[k].Answered? && ProperQuery(a[k])
    requires WellShown(b)
    ensures WellShown(a + b)
  {
    assert forall k :: |a| <= k < |a + b| ==> (a + b)[k] == b[k - |a|];
  }

  lemma {:induction false} RunTurnsShown(ts: seq<Turn>, answer: string -> string)
    requires forall k :: 0 <= k < |ts| ==> ProperTurn(ts[k])
    ensures WellShown(RunTurns(ts, answer).0)
    decreases |ts|
  {
    if |ts| > 0 {
      assert ProperTurn(ts[0]);
      if !ts[0].Leave? {
        assert forall k :: 0 <= k < |ts[1..]| ==> ts[1..][k] == ts[k + 1];
        RunTurnsShown(ts[1..], answer);
        ShownAppend(Shown(ts[0], answer), RunTurns(ts[1..], answer).0);
      }
    }
  }

  /** The loop leaves exactly when one of its turns does. */
  lemma {:induction false} RunTurnsEnds(ts: seq<Turn>, answer: string -> string)
    ensures RunTurns(ts, answer).1 <==> exists k :: 0 <= k < |ts| && ts[k].Leave?
    decreases |ts|
  {
    if |ts| > 0 {
      RunTurnsEnds(ts[1..], answer);
      if exists k :: 0 <= k < |ts| && ts[k].Leave? {
        var k :| 0 <= k < |ts| && ts[k].Leave?;
        if k > 0 {
          assert ts[1..][k - 1] == ts[k];
        }
      }
      if exists k :: 0 <= k < |ts[1..]| && ts[1..][k].Leave? {
        var k :| 0 <= k < |ts[1..]| && ts[1..][k].Leave?;
        assert ts[k + 1] == ts[1..][k];
      }
    }
  }

  /** Turns after the first that leaves are not run. */
  lemma {:induction false} RunTurnsStopsAt(ts: seq<Turn>, k: nat, tail: seq<Turn>, answer: string -> string)
    requires k < |ts| && ts[k].Leave?
    requires forall i :: 0 <= i < k ==> !ts[i].Leave?
    ensures RunTurns(ts + tail, answer) == RunTurns(ts, answer)
    decreases k
  {
    assert (ts + tail)[0] == ts[0];
    if k > 0 {
      assert (ts + tail)[1..] == ts[1..] + tail;
      forall i | 0 <= i < k - 1 ensures !ts[1..][i].Leave? {
        assert ts[1..][i] == ts[i + 1];
      }
      RunTurnsStopsAt(ts[1..], k - 1, tail, answer);
    }
  }

  /** The turns the inputs give once the end of input is handled. */
  function Turns(inputs: seq<Input>): (r: seq<Turn>)
    ensures |r| == |inputs| && forall k :: 0 <= k < |inputs| ==> r[k] == ChatTurn(inputs[k])
  {
    seq(|inputs|, k requires 0 <= k < |inputs| => ChatTurn(inputs[k]))
  }

  /** The chat loop with the end of input ending it: the events shown, and
      whether the loop was left. Every query answered is a non-blank line
      without white space around it, and only the last event can be the
      goodbye. */
  function Chat(inputs: seq<Input>, answer: string -> string): (r: (seq<Event>, bool))
    ensures WellShown(r.0)
  {
    var ts := Turns(inputs);
    assert forall k :: 0 <= k < |ts| ==> ProperTurn(ts[k]);
    RunTurnsShown(ts, answer);
    RunTurns(ts, answer)
  }

  /** The loop ends exactly when some input ends it. */
  lemma ChatEndsExactly(inputs: seq<Input>, answer: string -> string)
    ensures Chat(inputs, answer).1 <==> exists k :: 0 <= k < |inputs| && Ends(inputs[k])
  {
    var ts := Turns(inputs);
    RunTurnsEnds(ts, answer);
    assert forall k :: 0 <= k < |inputs| ==> (ts[k].Leave? <==> Ends(inputs[k]));
  }

  /** Nothing after the first input that ends the loop is read. */
  lemma ChatStopsAt(inputs: seq<Input>, k: nat, tail: seq<Input>, answer: string -> string)
    requires k < |inputs| && Ends(inputs[k])
    requires forall i :: 0 <= i < k ==> !Ends(inputs[i])
    ensures Chat(inputs + tail, answer) == Chat(inputs, answer)
  {
    var ts := Turns(inputs);
    TurnsAppend(inputs, tail);
    assert ts[k].Leave?;
    assert forall i :: 0 <= i < k ==> !ts[i].Leave?;
    RunTurnsStopsAt(ts, k, Turns(tail), answer);
  }

  lemma TurnsAppend(a: seq<Input>, b: seq<Input>)
    ensures Turns(a + b) == Turns(a) + Turns(b)
  {
    assert forall k :: 0 <= k < |a + b| ==> (a + b)[k] == if k < |a| then a[k] else b[k - |a|];
  }

  /** The loop run from turn `i` on, one turn unrolled. */
  lemma RunTurnsFrom(ts: seq<Turn>, i: nat, answer: string -> string)
    requires i < |ts|
    ensures ts[i].Leave? ==> RunTurns(ts[i..], answer) == (Shown(ts[i], answer), true)
    ensures !ts[i].Leave? ==> RunTurns(ts[i..], answer).0 == Shown(ts[i], answer) + RunTurns(ts[i + 1..], answer).0
    ensures !ts[i].Leave? ==> RunTurns(ts[i..], answer).1 == RunTurns(ts[i + 1..], answer).1
  {
    var here := ts[i..];
    assert here[0] == ts[i] && here[1..] == ts[i + 1..];
  }

  /** One pass of the loop keeps the events shown so far in step with
      the loop over all turns. */
  lemma RunChatStep(ts: seq<Turn>, i: nat, events: seq<Event>, answer: string -> string)
    requires i < |ts|
    requires RunTurns(ts, answer).0 == events + RunTurns(ts[i..], answer).0
    requires RunTurns(ts, answer).1 == RunTurns(ts[i..], answer).1
    ensures ts[i].Leave? ==> RunTurns(ts, answer) == (events + Shown(ts[i], answer), true)
    ensures !ts[i].Leave? ==> RunTurns(ts, answer).0 == (events + Shown(ts[i], answer)) + RunTurns(ts[i + 1..], answer).0
    ensures !ts[i].Leave? ==> RunTurns(ts, answer).1 == RunTurns(ts[i + 1..], answer).1
  {
    RunTurnsFrom(ts, i, answer);
    if !ts[i].Leave? {
      var rest := RunTurns(ts[i + 1..], answer).0;
      assert events + (Shown(ts[i], answer) + rest) == (events + Shown(ts[i], answer)) + rest;
    }
  }

  /** `chat_loop` reading one input at a time, as the `while True` loop
      does. */
  method RunChat(inputs: seq<Input>, answer: string -> string) returns (events: seq<Event>, ended: bool)
    ensures (events, ended) == Chat(inputs, answer)
  {
    ghost var ts := Turns(inputs);
    events := [];
    ended := false;
    var i := 0;
    assert ts[0..] == ts;
    while i < |inputs| && !ended
      invariant 0 <= i <= |inputs|
      invariant !ended ==> RunTurns(ts, answer).0 == events + RunTurns(ts[i..], answer).0
      invariant !ended ==> RunTurns(ts, answer).1 == RunTurns(ts[i..], answer).1
      invariant ended ==> RunTurns(ts, answer) == (events, true)
      decreases |inputs| - i
    {
      var turn := ChatTurn(inputs[i]);
      RunChatStep(ts, i, events, answer);
      events := events + Shown(turn, answer);
      ended := turn.Leave?;
      i := i + 1;
    }
    if !ended {
      assert ts[i..] == [];
      assert events + [] == events;
    }
  }
}

=== FILE: clash_format.dfy ===
/** What the Clash-V1 tools print: a player's registrations, a team, the
    tournament list and a single tournament with its schedule. The list
    payloads are checked for emptiness before they are checked for an
    error report. */
module ClashFormat {
  import opened Numerals
  import opened Json
  import opened Report
  import Seqs

  /** The block for registration number `i`. */
  function RegistrationBlock(i: int, x: Json): (r: seq<string>)
    ensures |r| == 6 && r[0] == "Registration #" + IntToString(i) + ":"
  {
    ["Registration #" + IntToString(i) + ":", "  Summoner ID: " + Field(x, "summonerId"),
     "  PUUID: " + Field(x, "puuid"), "  Team ID: " + Field(x, "teamId"),
     "  Position: " + Field(x, "position"), "  Role: " + Field(x, "role")]
  }

  /** `format_clash_player`. */
  function FormatClashPlayer(data: Json): (r: seq<string>)
    ensures !Truthy(data) ==> r == ["No active Clash registrations found for this player."]
    ensures Truthy(data) && IsError(data) ==> r == [ErrorLine(data)]
    ensures Truthy(data) && !IsError(data) ==> (
      && |r| == 3 + 6 * |Items(data)|
      && r[2] == "Active Registrations: " + IntToString(|Items(data)|)
      && r[3..] == Blocks(Items(data), RegistrationBlock, 1))
  {
    if !Truthy(data) then ["No active Clash registrations found for this player."]
    else if IsError(data) then [ErrorLine(data)]
    else
      var head := ["CLASH PLAYER REGISTRATIONS", "==========================",
        "Active Registrations: " + IntToString(|Items(data)|)];
      var body := Blocks(Items(data), RegistrationBlock, 1);
      BlocksLength(Items(data), RegistrationBlock, 1, 6);
      assert (head + body)[3..] == body;
      head + body
  }

  /** Registration `k` (from 0) is listed at lines `3 + 6k` to `8 + 6k`
      under the number `k + 1` (whose first line is `Registration #k+1:`),
      in the order the payload lists them. */
  lemma RegistrationsNumbered(data: Json, k: nat, j: nat)
    requires Truthy(data) && !IsError(data) && k < |Items(data)| && j < 6
    ensures 3 + 6 * k + j < |FormatClashPlayer(data)|
    ensures FormatClashPlayer(data)[3 + 6 * k + j] == RegistrationBlock(1 + k, Items(data)[k])[j]
  {
    var r := FormatClashPlayer(data);
    var b := Blocks(Items(data), RegistrationBlock, 1);
    BlocksAt(Items(data), RegistrationBlock, 1, 6, k, j);
    Seqs.TailAt(r, 3, b, 6 * k + j);
  }

  /** The block for team member number `i`. */
  function MemberBlock(i: int, x: Json): (r: seq<string>)
    ensures |r| == 4 && r[0] == "  Player #" + IntToString(i) + ":"
  {
    ["  Player #" + IntToString(i) + ":", "    Summoner ID: " + Field(x, "summonerId"),
     "    Position: " + Field(x, "position"), "    Role: " + Field(x, "role")]
  }

  function Players(data: Json): seq<Json> {
    Items(Get(data, "players", Arr([])))
  }

  function TeamHeader(data: Json): (r: seq<string>)
    ensures |r| == 10 && r[9] == "Team Members (" + IntToString(|Players(data)|) + "):"
  {
    ["CLASH TEAM INFORMATION", "======================",
     "Team ID: " + Field(data, "id"), "Tournament ID: " + Field(data, "tournamentId"),
     "Name: " + Field(data, "name"), "Abbreviation: " + Field(data, "abbreviation"),
     "Icon ID: " + Field(data, "iconId"), "Tier: " + Field(data, "tier"),
     "Captain: " + Field(data, "captain"),
     "Team Members (" + IntToString(|Players(data)|) + "):"]
  }

  /** `format_clash_team`. */
  function FormatClashTeam(data: Json): (r: seq<string>)
    ensures IsError(data) ==> r == [ErrorLine(data)]
    ensures !IsError(data) ==> (
      && |r| == 10 + 4 * |Players(data)|
      && r[9] == "Team Members (" + IntToString(|Players(data)|) + "):"
      && r[10..] == Blocks(Players(data), MemberBlock, 1))
  {
    if IsError(data) then [ErrorLine(data)]
    else
      var head := TeamHeader(data);
      var body := Blocks(Players(data), MemberBlock, 1);
      BlocksLength(Players(data), MemberBlock, 1, 4);
      assert (head + body)[10..] == body;
      head + body
  }

  /** `"CANCELLED" if phase.get('cancelled', False) else "ACTIVE"`. */
  function PhaseStatus(phase: Json): (r: string)
    ensures r == "CANCELLED" <==> Truthy(Get(phase, "cancelled", Bool(false)))
    ensures r == "ACTIVE" <==> !Truthy(Get(phase, "cancelled", Bool(false)))
  {
    if Truthy(Get(phase, "cancelled", Bool(false))) then "CANCELLED" else "ACTIVE"
  }

  /** The registration and start times of a phase, converted together. */
  function PhaseTimes(lib: Library, phase: Json): (string, string) {
    StampPair(lib, Get(phase, "registrationTime", Int(0)), Get(phase, "startTime", Int(0)))
  }

  /** The labels of a phase block: the indent of its heading and of its
      four fields, and the captions of the ID and the two times. The two
      formatters differ only in these. */
  datatype PhaseLabels = PhaseLabels(head: string, pad: string, id: string, registration: string, start: string)

  /** How `format_clash_tournaments` labels a phase nested in a tournament. */
  const Listed := PhaseLabels("    ", "      ", "ID: ", "Registration: ", "Start Time: ")
  /** How `format_clash_tournament` labels a phase of its schedule. */
  const Scheduled := PhaseLabels("", "  ", "Phase ID: ", "Registration Opens: ", "Tournament Start: ")

  /** Phase number `j` under the labels `l`. */
  function PhaseBlock(lib: Library, l: PhaseLabels, j: int, phase: Json): (r: seq<string>)
    ensures |r| == 5 && r[4] == l.pad + "Status: " + PhaseStatus(phase)
  {
    var times := PhaseTimes(lib, phase);
    [l.head + "Phase #" + IntToString(j) + ":", l.pad + l.id + Field(phase, "id"),
     l.pad + l.registration + times.0, l.pad + l.start + times.1,
     l.pad + "Status: " + PhaseStatus(phase)]
  }

  function PhaseRows(lib: Library, l: PhaseLabels): (int, Json) -> seq<string> {
    (j, p) => PhaseBlock(lib, l, j, p)
  }

  function Schedule(t: Json): seq<Json> {
    Items(Get(t, "schedule", Arr([])))
  }

  /** The block for tournament number `i`, its phases nested under it. */
  function TournamentBlock(lib: Library, i: int, t: Json): (r: seq<string>)
    ensures |r| == 6 + 5 * |Schedule(t)|
    ensures r[5] == "  Phases: " + IntToString(|Schedule(t)|)
  {
    var phases := Blocks(Schedule(t), PhaseRows(lib, Listed), 1);
    BlocksLength(Schedule(t), PhaseRows(lib, Listed), 1, 5);
    ["Tournament #" + IntToString(i) + ":", "  ID: " + Field(t, "id"),
     "  Theme ID: " + Field(t, "themeId"), "  Name Key: " + Field(t, "nameKey"),
     "  Secondary Name Key: " + Field(t, "nameKeySecondary"),
     "  Phases: " + IntToString(|Schedule(t)|)] + phases
  }

  function TournamentRows(lib: Library): (int, Json) -> seq<string> {
    (i, t) => TournamentBlock(lib, i, t)
  }

  /** `format_clash_tournaments`. */
  function FormatClashTournaments(lib: Library, data: Json): (r: seq<string>)
    ensures !Truthy(data) ==> r == ["No active or upcoming tournaments found."]
    ensures Truthy(data) && IsError(data) ==> r == [ErrorLine(data)]
    ensures Truthy(data) && !IsError(data) ==> (
      && |r| >= 3
      && r[2] == "Active/Upcoming Tournaments: " + IntToString(|Items(data)|)
      && r[3..] == Blocks(Items(data), TournamentRows(lib), 1))
  {
    if !Truthy(data) then ["No active or upcoming tournaments found."]
    else if IsError(data) then [ErrorLine(data)]
    else
      var head := ["CLASH TOURNAMENTS", "=================",
        "Active/Upcoming Tournaments: " + IntToString(|Items(data)|)];
      var body := Blocks(Items(data), TournamentRows(lib), 1);
      assert (head + body)[3..] == body;
      head + body
  }

  function DetailHeader(data: Json): (r: seq<string>)
    ensures |r| == 8 && r[6] == "Total Phases: " + IntToString(|Schedule(data)|)
  {
    ["CLASH TOURNAMENT DETAILS", "========================",
     "Tournament ID: " + Field(data, "id"), "Theme ID: " + Field(data, "themeId"),
     "Name Key: " + Field(data, "nameKey"), "Secondary Name Key: " + Field(data, "nameKeySecondary"),
     "Total Phases: " + IntToString(|Schedule(data)|), "TOURNAMENT SCHEDULE:"]
  }

  /** `format_clash_tournament`. */
  function FormatClashTournament(lib: Library, data: Json): (r: seq<string>)
    ensures IsError(data) ==> r == [ErrorLine(data)]
    ensures !IsError(data) ==> (
      && |r| == 8 + 5 * |Schedule(data)|
      && r[6] == "Total Phases: " + IntToString(|Schedule(data)|)
      && r[8..] == Blocks(Schedule(data), PhaseRows(lib, Scheduled), 1))
  {
    if IsError(data) then [ErrorLine(data)]
    else
      var head := DetailHeader(data);
      var body := Blocks(Schedule(data), PhaseRows(lib, Scheduled), 1);
      BlocksLength(Schedule(data), PhaseRows(lib, Scheduled), 1, 5);
      assert (head + body)[8..] == body;
      head + body
  }

  /** When either timestamp of a phase fails to convert, both of its time
      lines fall back to the raw epoch values, even the one that would have
      converted on its own. */
  lemma PhaseFallback(lib: Library, l: PhaseLabels, i: int, phase: Json)
    ensures var reg := Get(phase, "registrationTime", Int(0));
      var start := Get(phase, "startTime", Int(0));
      && PhaseBlock(lib, l, i, phase)[2] == l.pad + l.registration + PhaseTimes(lib, phase).0
      && PhaseBlock(lib, l, i, phase)[3] == l.pad + l.start + PhaseTimes(lib, phase).1
      && (TryStamp(lib, reg).None? || TryStamp(lib, start).None? ==>
        PhaseTimes(lib, phase) == ("Epoch: " + Show(reg), "Epoch: " + Show(start)))
  {
  }

  /** Phase `k` (from 0) of a tournament is the block at line `8 + 5k`,
      numbered `k + 1`: phases keep their schedule order. */
  lemma TournamentPhase(lib: Library, data: Json, k: nat, j: nat)
    requires !IsError(data) && k < |Schedule(data)| && j < 5
    ensures 8 + 5 * k + j < |FormatClashTournament(lib, data)|
    ensures FormatClashTournament(lib, data)[8 + 5 * k + j] == PhaseBlock(lib, Scheduled, k + 1, Schedule(data)[k])[j]
  {
    var rows := PhaseRows(lib, Scheduled);
    var b := Blocks(Schedule(data), rows, 1);
    BlocksAt(Schedule(data), rows, 1, 5, k, j);
    assert b[5 * k + j] == PhaseBlock(lib, Scheduled, k + 1, Schedule(data)[k])[j];
    var r := FormatClashTournament(lib, data);
    assert r[8..] == b;
    Seqs.TailAt(r, 8, b, 5 * k + j);
  }
}

=== FILE: client.dfy ===
/** The League MCP client: it asks a language model about a user's query,
    treats a reply that starts with `USE_TOOL:` as a tool call, parses the
    call's name and `key=value` arguments, coerces each argument, calls the
    tool through the MCP session and prints what comes back. The language
    model and the session are parameters. */
module Client {
  import opened Wrappers
  import opened Numerals
  import opened Text
  import opened Json

  // ---------------------------------------------------------------------
  // regular-expression building blocks, on ASCII

  /** The length of the run of `\w` characters `s` starts with. */
  function WordRun(s: string): (n: nat)
    ensures n <= |s|
    ensures forall k :: 0 <= k < n ==> IsWordChar(s[k])
    ensures n < |s| ==> !IsWordChar(s[n])
  {
    if |s| > 0 && IsWordChar(s[0]) then 1 + WordRun(s[1..]) else 0
  }

  /** The length of the run of `\s` characters `s` starts with. */
  function SpaceRun(s: string): (n: nat)
    ensures n <= |s|
    ensures forall k :: 0 <= k < n ==> IsSpace(s[k])
    ensures n < |s| ==> !IsSpace(s[n])
  {
    if |s| > 0 && IsSpace(s[0]) then 1 + SpaceRun(s[1..]) else 0
  }

  /** A non-empty run of `\w` characters. */
  predicate IsWord(w: string) {
    |w| > 0 && forall k :: 0 <= k < |w| ==> IsWordChar(w[k])
  }

  /** Python's `$` without `MULTILINE`: the end of the text, or just before
      a newline that ends it. */
  predicate AtEnd(s: string, j: nat) {
    j == |s| || (j + 1 == |s| && s[j] == '\n')
  }

  // ---------------------------------------------------------------------
  // one `key=value` argument: `(\w+)=([^,]+?)(?=,\s*\w+=|$)`

  /** The lookahead `,\s*\w+=` at the start of `s`: a comma, optional white
      space, a word, and `=`. */
  predicate NextParam(s: string) {
    |s| > 0 && s[0] == ',' &&
    var w := 1 + SpaceRun(s[1..]);
    var e := w + WordRun(s[w..]);
    e > w && e < |s| && s[e] == '='
  }

  /** The lookahead after a value ending at `j`. */
  predicate ValueMayEnd(s: string, j: nat)
    requires j <= |s|
  {
    AtEnd(s, j) || NextParam(s[j..])
  }

  /** The lazy `[^,]+?` followed by the lookahead: the value grows one
      non-comma character at a time and stops at the first place where the
      lookahead holds. `j` is the end of the value consumed so far. */
  function ValueEnd(s: string, j: nat): (r: Option<nat>)
    requires j <= |s|
    ensures r.Some? ==> j <= r.value <= |s| && ValueMayEnd(s, r.value)
    ensures r.Some? ==> forall k :: j <= k < r.value ==> s[k] != ','
    decreases |s| - j
  {
    if ValueMayEnd(s, j) then Some(j)
    else if j < |s| && s[j] != ',' then ValueEnd(s, j + 1)
    else None
  }

  /** The value is as short as it can be: the lookahead holds nowhere
      before its end. */
  lemma {:induction false} ValueEndFirst(s: string, j: nat)
    requires j <= |s| && ValueEnd(s, j).Some?
    ensures forall k :: j <= k < ValueEnd(s, j).value ==> !ValueMayEnd(s, k)
    decreases |s| - j
  {
    if !ValueMayEnd(s, j) {
      ValueEndFirst(s, j + 1);
    }
  }

  /** The argument the pattern matches at the start of `s`: its key, its
      value and where the match ends. */
  function MatchParam(s: string): (r: Option<(string, string, nat)>)
    ensures r.Some? ==> 0 < r.value.2 <= |s|
    ensures r.Some? ==> IsWord(r.value.0) && |r.value.1| > 0 && ',' !in r.value.1
    ensures r.Some? ==> s[..r.value.2] == r.value.0 + "=" + r.value.1
  {
    var e := WordRun(s);
    if e == 0 || e == |s| || s[e] != '=' || e + 1 == |s| || s[e + 1] == ',' then None
    else
      match ValueEnd(s, e + 2)
      case None => None
      case Some(j) =>
        assert forall k :: e + 1 <= k < j ==> s[k] != ',';
        assert s[..j] == s[..e] + "=" + s[e + 1..j];
        Some((s[..e], s[e + 1..j], j))
  }

  /** `re.findall` with that pattern: a match is collected and the scan goes
      on after it; where nothing matches, the scan moves one character on. */
  function FindParams(s: string): (r: seq<(string, string)>)
    ensures forall k :: 0 <= k < |r| ==> IsWord(r[k].0) && |r[k].1| > 0 && ',' !in r[k].1
    decreases |s|
  {
    if |s| == 0 then []
    else
      match MatchParam(s)
      case Some((key, value, end)) => [(key, value)] + FindParams(s[end..])
      case None => FindParams(s[1..])
  }

  /** On a text free of newlines a value runs to the first comma when a
      further `key=` follows it, and to the end when no comma is left. */
  lemma {:induction false} ValueToComma(s: string, j: nat)
    requires 0 < j <= |s| && '\n' !in s
    requires forall k :: j <= k < |s| ==> s[k] != ','
    ensures ValueEnd(s, j) == Some(|s|)
    decreases |s| - j
  {
    if j < |s| {
      assert !AtEnd(s, j);
      assert !NextParam(s[j..]);
      ValueToComma(s, j + 1);
    }
  }

  lemma {:induction false} ValueToNext(s: string, j: nat, c: nat)
    requires 0 < j <= c < |s|
    requires forall k :: j <= k < c ==> s[k] != ','
    requires NextParam(s[c..])
    ensures ValueEnd(s, j) == Some(c)
    decreases c - j
  {
    if j < c {
      assert s[j] != ',';
      assert !NextParam(s[j..]);
      ValueToNext(s, j + 1, c);
    }
  }

  // ---------------------------------------------------------------------
  // rendering arguments the way the prompt asks for them, and reading them
  // back

  /** A value the scan reads back as it stands: non-empty, free of commas
      and newlines. */
  predicate PlainValue(v: string) {
    |v| > 0 && ',' !in v && '\n' !in v
  }

  predicate WellFormedParams(ps: seq<(string, string)>) {
    forall k :: 0 <= k < |ps| ==> IsWord(ps[k].0) && PlainValue(ps[k].1)
  }

  function Assignment(p: (string, string)): string {
    p.0 + "=" + p.1
  }

  /** `key1=value1, key2=value2, ...`. */
  function RenderParams(ps: seq<(string, string)>): string
    decreases |ps|
  {
    if |ps| == 0 then ""
    else if |ps| == 1 then Assignment(ps[0])
    else Assignment(ps[0]) + ", " + RenderParams(ps[1..])
  }

  lemma RenderedStartsWithWord(ps: seq<(string, string)>)
    requires |ps| > 0 && WellFormedParams(ps)
    ensures var s := RenderParams(ps);
      WordRun(s) == |ps[0].0| && |ps[0].0| < |s| && s[|ps[0].0|] == '='
  {
    var s := RenderParams(ps);
    var a := Assignment(ps[0]);
    assert |ps| == 1 ==> s == a;
    assert |ps| > 1 ==> s == a + (", " + RenderParams(ps[1..]));
    assert s[..|a|] == a;
    assert forall k :: 0 <= k < |ps[0].0| ==> s[k] == ps[0].0[k];
    assert s[|ps[0].0|] == '=';
    WordRunIs(s, |ps[0].0|);
  }

  lemma WordRunIs(s: string, n: nat)
    requires n < |s| && !IsWordChar(s[n])
    requires forall k :: 0 <= k < n ==> IsWordChar(s[k])
    ensures WordRun(s) == n
    decreases n
  {
    if n > 0 {
      WordRunIs(s[1..], n - 1);
    }
  }

  lemma NewlineFreeRender(ps: seq<(string, string)>)
    requires WellFormedParams(ps)
    ensures '\n' !in RenderParams(ps)
    decreases |ps|
  {
    if |ps| > 0 {
      var a := Assignment(ps[0]);
      assert forall k :: 0 <= k < |ps[0].0| ==> IsWordChar(ps[0].0[k]);
      assert '\n' !in a;
      if |ps| > 1 {
        NewlineFreeRender(ps[1..]);
      }
    }
  }

  /** After a separator `", "` the scan skips the comma and the blank. */
  lemma SkipSeparator(t: string)
    ensures FindParams(", " + t) == FindParams(t)
  {
    var s := ", " + t;
    assert WordRun(s) == 0;
    assert s[1..] == " " + t;
    assert WordRun(" " + t) == 0;
    assert (" " + t)[1..] == t;
  }

  /** The pattern matches `key=value` at the start of `s` when the value's
      lazy scan ends right after `value`. */
  lemma MatchAssignment(key: string, v: string, s: string)
    requires IsWord(key) && |v| > 0 && v[0] != ','
    requires |key| + 1 + |v| <= |s| && s[..|key| + 1 + |v|] == key + "=" + v
    requires ValueEnd(s, |key| + 2) == Some(|key| + 1 + |v|)
    ensures MatchParam(s) == Some((key, v, |key| + 1 + |v|))
  {
    var e := |key|;
    AssignmentAt(key, v, s);
    assert forall k :: 0 <= k < e ==> IsWordChar(s[k]) by {
      forall k | 0 <= k < e ensures IsWordChar(s[k]) {
        assert s[k] == key[k];
      }
    }
    assert !IsWordChar(s[e]);
    WordRunIs(s, e);
    MatchParamAt(s, e, e + 1 + |v|);
  }

  /** `MatchParam` where the word, the `=` and the value's end are known. */
  lemma MatchParamAt(s: string, e: nat, j: nat)
    requires 0 < e && e + 1 < |s| && WordRun(s) == e && s[e] == '=' && s[e + 1] != ','
    requires ValueEnd(s, e + 2) == Some(j)
    ensures MatchParam(s) == Some((s[..e], s[e + 1..j], j))
  {
  }

  /** Where the pieces of `key=value` sit in a text that starts with it. */
  lemma AssignmentAt(key: string, v: string, s: string)
    requires |v| > 0
    requires |key| + 1 + |v| <= |s| && s[..|key| + 1 + |v|] == key + "=" + v
    ensures forall k :: 0 <= k < |key| ==> s[k] == key[k]
    ensures s[|key|] == '=' && s[|key| + 1] == v[0]
    ensures s[..|key|] == key && s[|key| + 1..|key| + 1 + |v|] == v
  {
    var p := key + "=" + v;
    var e := |key|;
    assert forall k :: 0 <= k < |p| ==> s[k] == s[..|p|][k];
    assert forall k :: 0 <= k < e ==> p[k] == key[k];
    assert p[e] == '=' && p[e + 1] == v[0];
    assert s[..e] == p[..e] == key;
    assert s[e + 1..|p|] == p[e + 1..] == v;
  }

  /** The characters of the value in a text that starts with
      `key=value`. */
  lemma ValueChars(key: string, v: string, s: string)
    requires |key| + 1 + |v| <= |s| && s[..|key| + 1 + |v|] == key + "=" + v
    requires ',' !in v
    ensures forall k :: |key| + 1 <= k < |key| + 1 + |v| ==> s[k] != ','
  {
    var p := key + "=" + v;
    forall k | |key| + 1 <= k < |p|
      ensures s[k] != ','
    {
      assert s[k] == s[..|p|][k] == p[k] == v[k - |key| - 1];
      assert v[k - |key| - 1] in v;
    }
  }

  /** A blank before a text that starts with no white space is a run of
      one. */
  lemma SpaceRunOfBlank(t: string)
    requires |t| > 0 && !IsSpace(t[0])
    ensures SpaceRun(" " + t) == 1
  {
    assert (" " + t)[1..] == t;
  }

  /** The separator before a further argument satisfies the lookahead. */
  lemma SeparatorLooksAhead(rest: string, e: nat)
    requires 0 < e < |rest| && WordRun(rest) == e && rest[e] == '='
    ensures NextParam(", " + rest)
  {
    assert !IsSpace(rest[0]) by {
      assert IsWordChar(rest[0]);
    }
    SeparatorParts(rest);
    SpaceRunOfBlank(rest);
    LookaheadAt(", " + rest, e);
  }

  lemma SeparatorParts(rest: string)
    ensures var t := ", " + rest;
      |t| == |rest| + 2 && t[0] == ',' && t[1..] == " " + rest && t[2..] == rest
  {
    var t := ", " + rest;
    assert t[1..] == " " + rest;
    assert t[2..] == rest;
  }

  /** The lookahead holds once its three parts are found in place. */
  lemma LookaheadAt(t: string, e: nat)
    requires 2 + e < |t| && 0 < e && t[0] == ','
    requires SpaceRun(t[1..]) == 1 && WordRun(t[2..]) == e && t[2 + e] == '='
    ensures NextParam(t)
  {
  }

  /** The last argument's value runs to the end of the text. */
  lemma LastParamMatched(ps: seq<(string, string)>)
    requires |ps| == 1 && WellFormedParams(ps)
    ensures MatchParam(RenderParams(ps)) ==
      Some((ps[0].0, ps[0].1, |RenderParams(ps)|))
  {
    var s := RenderParams(ps);
    var key := ps[0].0;
    NewlineFreeRender(ps);
    assert s == key + "=" + ps[0].1;
    assert s[..|s|] == s;
    ValueChars(key, ps[0].1, s);
    ValueToComma(s, |key| + 2);
    MatchAssignment(key, ps[0].1, s);
  }

  /** After the first of several arguments comes the separator and the
      rest. */
  lemma RenderTail(ps: seq<(string, string)>)
    requires |ps| > 1
    ensures var a := Assignment(ps[0]);
      |a| <= |RenderParams(ps)| && RenderParams(ps)[|a|..] == ", " + RenderParams(ps[1..])
  {
    var a := Assignment(ps[0]);
    assert RenderParams(ps) == a + (", " + RenderParams(ps[1..]));
  }

  /** A value followed by `, key=` ends before the comma. */
  lemma InnerParamMatched(ps: seq<(string, string)>)
    requires |ps| > 1 && WellFormedParams(ps)
    ensures MatchParam(RenderParams(ps)) == Some((ps[0].0, ps[0].1, |Assignment(ps[0])|))
  {
    var rest := RenderParams(ps[1..]);
    assert RenderParams(ps) == ps[0].0 + "=" + ps[0].1 + (", " + rest);
    RenderedStartsWithWord(ps[1..]);
    MatchBeforeNext(ps[0].0, ps[0].1, rest, |ps[1].0|, RenderParams(ps));
  }

  /** `key=value` followed by a separator and a further `key=` is matched
      up to the separator. */
  lemma MatchBeforeNext(key: string, v: string, rest: string, e: nat, s: string)
    requires IsWord(key) && PlainValue(v)
    requires 0 < e < |rest| && WordRun(rest) == e && rest[e] == '='
    requires s == key + "=" + v + (", " + rest)
    ensures MatchParam(s) == Some((key, v, |key| + 1 + |v|))
  {
    var n := |key| + 1 + |v|;
    assert s[..n] == key + "=" + v;
    assert s[n..] == ", " + rest;
    SeparatorLooksAhead(rest, e);
    ValueChars(key, v, s);
    ValueToNext(s, |key| + 2, n);
    assert v[0] in v;
    MatchAssignment(key, v, s);
  }

  /** A match at the start of the text is collected and the scan goes on
      after it. */
  lemma FindAfterMatch(s: string, key: string, v: string, n: nat)
    requires MatchParam(s) == Some((key, v, n))
    ensures n <= |s| && FindParams(s) == [(key, v)] + FindParams(s[n..])
  {
  }

  /** A single argument is read back. */
  lemma OneParamRead(ps: seq<(string, string)>)
    requires |ps| == 1 && WellFormedParams(ps)
    ensures FindParams(RenderParams(ps)) == ps
  {
    var s := RenderParams(ps);
    LastParamMatched(ps);
    FindAfterMatch(s, ps[0].0, ps[0].1, |s|);
    assert s[|s|..] == "";
  }

  /** The first of several arguments is read, then the rest as they are read
      on their own. */
  lemma FirstParamRead(ps: seq<(string, string)>)
    requires |ps| > 1 && WellFormedParams(ps)
    ensures FindParams(RenderParams(ps)) == [ps[0]] + FindParams(RenderParams(ps[1..]))
  {
    var s := RenderParams(ps);
    var rest := RenderParams(ps[1..]);
    RenderTail(ps);
    InnerParamMatched(ps);
    FindAfterMatch(s, ps[0].0, ps[0].1, |Assignment(ps[0])|);
    SkipSeparator(rest);
  }

  /** Arguments written as `key=value, key=value, ...` are read back one for
      one, in order. */
  lemma {:induction false} ParamsRoundTrip(ps: seq<(string, string)>)
    requires WellFormedParams(ps)
    ensures FindParams(RenderParams(ps)) == ps
    decreases |ps|
  {
    if |ps| == 1 {
      OneParamRead(ps);
    } else if |ps| > 1 {
      FirstParamRead(ps);
      ParamsRoundTrip(ps[1..]);
      assert ps == [ps[0]] + ps[1..];
    }
  }

  // ---------------------------------------------------------------------
  // argument coercion

  /** The value an argument is called with. `FloatArg` keeps the text that
      Python's `float` converts. */
  datatype Arg = BoolArg(b: bool) | IntArg(n: int) | FloatArg(text: string) | TextArg(s: string)

  predicate IsQuote(c: char) {
    c == '"' || c == '\''
  }

  /** `value.strip().strip('"\'')`. */
  function Unquote(v: string): string {
    StripBy(Strip(v), IsQuote)
  }

  /** `value.replace('.', '').replace('-', '').isdigit()`. */
  predicate FloatShaped(v: string) {
    var d := RemoveAll(RemoveAll(v, "."), "-");
    |d| > 0 && AllDigits(d)
  }

  /** Digits with at most one decimal point and at least one digit. */
  predicate DecimalBody(s: string) {
    match Partition(s, '.')
    case None => |s| > 0 && AllDigits(s)
    case Some((whole, frac)) => AllDigits(whole) && AllDigits(frac) && |whole| + |frac| > 0
  }

  /** The texts `float` accepts among those made of digits, `.` and `-`: an
      optional leading minus and a decimal body. */
  predicate FloatSyntax(v: string) {
    if |v| > 0 && v[0] == '-' then DecimalBody(v[1..]) else DecimalBody(v)
  }

  /** The conversion the client applies to a cleaned value: `true`/`false`
      in any case become a bool, integer literals an int, float literals a
      float, and everything else (including a float-shaped text `float`
      rejects, which the bare `except` keeps) the text itself. */
  function CoerceValue(v: string): (r: Arg)
    ensures r.BoolArg? <==> Lower(v) == "true" || Lower(v) == "false"
    ensures r.BoolArg? ==> (r.b <==> Lower(v) == "true")
    ensures r.IntArg? <==> !r.BoolArg? && IsIntLiteral(v)
    ensures r.IntArg? ==> r.n == ParseInt(v)
    ensures r.FloatArg? <==> !r.BoolArg? && !r.IntArg? && FloatShaped(v) && FloatSyntax(v)
    ensures r.FloatArg? ==> r.text == v
    ensures r.TextArg? ==> r.s == v
  {
    if Lower(v) == "true" || Lower(v) == "false" then BoolArg(Lower(v) == "true")
    else if IsIntLiteral(v) then IntArg(ParseInt(v))
    else if FloatShaped(v) && FloatSyntax(v) then FloatArg(v)
    else TextArg(v)
  }

  /** One raw `value` capture, as the client stores it. */
  function Coerce(raw: string): Arg {
    CoerceValue(Unquote(raw))
  }

  /** The keys of a list of matches. */
  function Keys(ps: seq<(string, string)>): set<string> {
    set k | 0 <= k < |ps| :: ps[k].0
  }

  /** `arguments[key] = ...` for each match in turn: a later argument with
      the same key replaces an earlier one, so each key keeps the value of
      its last match. */
  function Collect(ps: seq<(string, string)>): (r: map<string, Arg>)
    ensures r.Keys == Keys(ps)
    decreases |ps|
  {
    if |ps| == 0 then map[]
    else
      var m := Collect(ps[1..]);
      assert Keys(ps) == {ps[0].0} + Keys(ps[1..]) by {
        forall key | key in Keys(ps) ensures key in {ps[0].0} + Keys(ps[1..]) {
          var k :| 0 <= k < |ps| && ps[k].0 == key;
          if k > 0 {
            assert ps[1..][k - 1] == ps[k];
          }
        }
        forall key | key in Keys(ps[1..]) ensures key in Keys(ps) {
          var k :| 0 <= k < |ps[1..]| && ps[1..][k].0 == key;
          assert ps[k + 1] == ps[1..][k];
        }
      }
      if ps[0].0 in m then m else m[ps[0].0 := Coerce(ps[0].1)]
  }

  /** The argument map the client calls a tool with: one entry per key the
      scan finds, and none for an empty argument text. */
  function Arguments(paramsText: string): (r: map<string, Arg>)
    ensures r.Keys == Keys(FindParams(paramsText))
    ensures forall key :: key in r ==> IsWord(key)
  {
    if |paramsText| == 0 then map[] else Collect(FindParams(paramsText))
  }

  /** Each key ends up with the coerced value of its last match. */
  lemma {:induction false} CollectLastWins(ps: seq<(string, string)>, k: nat)
    requires k < |ps|
    requires forall i :: k < i < |ps| ==> ps[i].0 != ps[k].0
    ensures ps[k].0 in Collect(ps) && Collect(ps)[ps[k].0] == Coerce(ps[k].1)
    decreases |ps|
  {
    var rest := ps[1..];
    if k > 0 {
      forall i | k - 1 < i < |rest| ensures rest[i].0 != rest[k - 1].0 {
        assert rest[i] == ps[i + 1];
      }
      CollectLastWins(rest, k - 1);
      assert rest[k - 1] == ps[k];
    } else {
      assert ps[0].0 !in Keys(rest) by {
        forall i | 0 <= i < |rest| ensures rest[i].0 != ps[0].0 {
          assert rest[i] == ps[i + 1];
        }
      }
    }
  }

  /** A text with no blank or quote at either end, written plainly or in
      either kind of quotes, is unquoted back to itself. */
  lemma UnquoteQuoted(t: string, quote: string)
    requires |t| > 0 && !IsSpace(t[0]) && !IsSpace(t[|t| - 1])
    requires !IsQuote(t[0]) && !IsQuote(t[|t| - 1])
    requires quote == "" || quote == "\"" || quote == "'"
    ensures Unquote(quote + t + quote) == t
  {
    if quote == "" {
      assert quote + t + quote == t;
      StripByNoop(t, IsSpace);
      StripByNoop(t, IsQuote);
    } else {
      var c := quote[0];
      assert quote == [c];
      var q := [c] + t + [c];
      assert q[0] == c && q[|q| - 1] == c;
      StripByNoop(q, IsSpace);
      StripByWrapped(t, c, IsQuote);
    }
  }

  /** The text `str` prints for an integer is converted back to it. */
  lemma IntText(n: int)
    ensures CoerceValue(IntToString(n)) == IntArg(n)
  {
    IntRoundTrip(n);
    NotBoolWord(IntToString(n));
  }

  /** An integer written plainly or in either kind of quotes is called as
      that integer. */
  lemma IntArgument(n: int, quote: string)
    requires quote == "" || quote == "\"" || quote == "'"
    ensures Coerce(quote + IntToString(n) + quote) == IntArg(n)
  {
    NoSpaceInNumber(n);
    NoQuoteInNumber(n);
    UnquoteQuoted(IntToString(n), quote);
    IntText(n);
  }

  lemma NoSpaceInNumber(n: int)
    ensures var t := IntToString(n); !IsSpace(t[0]) && !IsSpace(t[|t| - 1])
  {
    var t := IntToString(n);
    assert forall k :: 0 <= k < |t| ==> t[k] == '-' || IsDigit(t[k]) by {
      if n < 0 {
        assert forall k :: 0 < k < |t| ==> t[k] == NatToString(-n)[k - 1];
      }
    }
  }

  lemma NoQuoteInNumber(n: int)
    ensures var t := IntToString(n); |t| > 0 && !IsQuote(t[0]) && !IsQuote(t[|t| - 1])
  {
    NumberAlphabet(n, '"');
    NumberAlphabet(n, '\'');
    var t := IntToString(n);
    assert |t| > 0 by {
      if n < 0 {
        assert t == "-" + NatToString(-n);
      }
    }
    assert t[0] in t && t[|t| - 1] in t;
  }

  /** An integer literal is not spelled `true` or `false`. */
  lemma NotBoolWord(t: string)
    requires IsIntLiteral(t)
    ensures Lower(t) != "true" && Lower(t) != "false"
  {
    if |t| > 0 {
      assert Lower(t)[0] == LowerChar(t[0]);
      assert t[0] == '-' || IsDigit(t[0]);
    }
  }

  /** `true` and `false`, in any mixture of cases and quoted or not, are
      called as booleans. */
  lemma BoolArgument(v: string)
    requires SameIgnoringCase(v, "true") || SameIgnoringCase(v, "false")
    ensures CoerceValue(v) == BoolArg(SameIgnoringCase(v, "true"))
  {
    LowerMatchesAnyCase(v, "true");
    LowerMatchesAnyCase(v, "false");
  }

  // ---------------------------------------------------------------------
  // the tool call

  const Marker := "USE_TOOL:"

  /** The text up to the first newline: what `.*` can reach. */
  function FirstLine(s: string): (r: string)
    ensures |r| <= |s| && r == s[..|r|] && '\n' !in r
    ensures |r| < |s| ==> s[|r|] == '\n'
  {
    match Partition(s, '\n')
    case Some((l, rest)) =>
      assert s[..|l|] == l && s[|l|] == '\n';
      l
    case None => s
  }

  lemma CallPrefix(call: string, w: nat, args: string)
    requires w + |args| + 2 <= |call| && call[w] == '(' && call[w + 1 + |args|] == ')'
    requires forall i :: 0 <= i < |args| ==> call[w + 1 + i] == args[i]
    ensures StartsWith(call, call[..w] + "(" + args + ")")
  {
    var p := call[..w] + "(" + args + ")";
    assert forall i :: 0 <= i < |p| ==> p[i] == call[i] by {
      forall i | 0 <= i < |p| ensures p[i] == call[i] {
        if i < w {
          assert p[i] == call[..w][i];
        } else if i == w {
        } else if i < w + 1 + |args| {
          assert p[i] == args[i - w - 1];
        }
      }
    }
    assert call[..|p|] == p;
  }

  /** `re.match(r"(\w+)\((.*)\)", call)`: a word, `(`, and then the longest
      stretch of the first line that is followed by `)`. */
  function MatchCall(call: string): (r: Option<(string, string)>)
    ensures r.Some? ==> IsWord(r.value.0) && '\n' !in r.value.1
    ensures r.Some? ==> StartsWith(call, r.value.0 + "(" + r.value.1 + ")")
  {
    var w := WordRun(call);
    if w == 0 || w == |call| || call[w] != '(' then None
    else
      var line := FirstLine(call[w + 1..]);
      match SplitLast(line, ')')
      case None => None
      case Some((args, tail)) =>
        assert line == args + [')'] + tail;
        assert forall i :: 0 <= i < |args| ==> call[w + 1 + i] == line[i];
        assert call[w + 1 + |args|] == line[|args|];
        CallPrefix(call, w, args);
        Some((call[..w], args))
  }

  /** What `_execute_tool_from_response` parses out of a reply: the tool's
      name and its argument text, or the text it could not parse. */
  function ParseCall(response: string): (r: Result<(string, string), string>)
    ensures r.Err? ==> r.error == Strip(RemoveAll(response, Marker))
  {
    var call := Strip(RemoveAll(response, Marker));
    match MatchCall(call)
    case Some(m) => Ok(m)
    case None => Err(call)
  }

  /** `name(args)`, the form the prompt asks the model to answer with. */
  function CallText(name: string, args: string): string {
    name + "(" + args + ")"
  }

  /** The marker and one blank in front of a call that does not itself hold
      the marker are taken off again. */
  lemma CleanCall(call: string)
    requires |call| > 0 && !IsSpace(call[0]) && !IsSpace(call[|call| - 1])
    requires forall i: nat :: !OccursAt(" " + call, Marker, i)
    ensures Strip(RemoveAll(Marker + (" " + call), Marker)) == call
  {
    var spaced := " " + call;
    RemoveAllLeading(Marker, spaced);
    RemoveAllAbsent(spaced, Marker);
    StripBlank(call);
  }

  /** One blank in front of a text that is already stripped goes again. */
  lemma StripBlank(t: string)
    requires |t| > 0 && !IsSpace(t[0]) && !IsSpace(t[|t| - 1])
    ensures Strip(" " + t) == t
  {
    assert " " + t == [' '] + t;
    StripByLed(t, ' ', IsSpace);
  }

  /** A written call matches with its own name and argument text. */
  lemma MatchWritten(name: string, args: string)
    requires IsWord(name) && '\n' !in args
    ensures MatchCall(CallText(name, args)) == Some((name, args))
  {
    var call := CallText(name, args);
    var w := |name|;
    assert forall k :: 0 <= k < w ==> call[k] == name[k];
    assert call[..w] == name && call[w] == '(';
    WordRunIs(call, w);
    var rest := call[w + 1..];
    assert rest == args + ")";
    assert '\n' !in rest;
    assert FirstLine(rest) == rest;
    SplitLastJoin(args, ')', "");
    assert args + [')'] + "" == rest;
    MatchCallAt(call, w, args, "");
  }

  /** `MatchCall` where the name's end and the split of the line are
      known. */
  lemma MatchCallAt(call: string, w: nat, args: string, tail: string)
    requires 0 < w < |call| && WordRun(call) == w && call[w] == '('
    requires SplitLast(FirstLine(call[w + 1..]), ')') == Some((args, tail))
    ensures MatchCall(call) == Some((call[..w], args))
  {
  }

  /** A call written as `USE_TOOL: name(args)` is parsed back into its name
      and its argument text, whatever brackets the arguments contain. */
  lemma CallRoundTrip(name: string, args: string)
    requires IsWord(name) && '\n' !in args
    requires forall i: nat :: !OccursAt(" " + CallText(name, args), Marker, i)
    ensures ParseCall(Marker + (" " + CallText(name, args))) == Ok((name, args))
  {
    var call := CallText(name, args);
    assert call[0] == name[0] && IsWordChar(name[0]);
    CleanCall(call);
    MatchWritten(name, args);
  }
}

=== FILE: client_session.dfy ===
/** The League MCP client around the parsed tool call: the tool catalog it
    shows the language model, the prompt, what it answers a query with, how
    it renders a tool's result and how it starts the server.
    The MCP session, the language model and the console are parameters. */
module ClientSession {
  import opened Wrappers
  import opened Text
  import opened Json
  import opened Client

  // ---------------------------------------------------------------------
  // the tool catalog

  /** What `list_tools` reports about one tool. */
  datatype ToolInfo = ToolInfo(name: string, description: Option<string>, inputSchema: Json)

  /** `f"{tool.description}"`: a missing description prints as `None`. */
  function DescriptionText(d: Option<string>): string {
    match d
    case Some(t) => t
    case None => "None"
  }

  /** The declared parameters: the entries of
      `inputSchema.get('properties', {})` when the schema is not empty. */
  function DeclaredParams(schema: Json): seq<(string, Json)> {
    if Truthy(schema) then Fields(Get(schema, "properties", Obj([]))) else []
  }

  /** `f"{name} ({info.get('type', 'any')})"`. */
  function ParamNote(p: (string, Json)): string {
    p.0 + " (" + Show(Get(p.1, "type", Str("any"))) + ")"
  }

  function ParamNotes(ps: seq<(string, Json)>): (r: seq<string>)
    ensures |r| == |ps| && forall k :: 0 <= k < |ps| ==> r[k] == ParamNote(ps[k])
  {
    seq(|ps|, k requires 0 <= k < |ps| => ParamNote(ps[k]))
  }

  /** `f"- {tool.name}: {tool.description}"`. */
  function ToolHeader(t: ToolInfo): string {
    "- " + t.name + ": " + DescriptionText(t.description)
  }

  /** One tool's line of the catalog: its header, followed by its
      parameters when it declares any. */
  function CatalogLine(t: ToolInfo): (r: string)
    ensures StartsWith(r, ToolHeader(t))
    ensures r == ToolHeader(t) <==> |DeclaredParams(t.inputSchema)| == 0
  {
    var ps := DeclaredParams(t.inputSchema);
    PrefixOf(ToolHeader(t), " [Parameters: " + Join(", ", ParamNotes(ps)) + "]");
    if |ps| == 0 then ToolHeader(t)
    else ToolHeader(t) + (" [Parameters: " + Join(", ", ParamNotes(ps)) + "]")
  }

  /** Every declared parameter is named, with its type, in the tool's
      line. */
  lemma CatalogLineNamesParams(t: ToolInfo, k: nat)
    requires k < |DeclaredParams(t.inputSchema)|
    ensures IsInfix(ParamNote(DeclaredParams(t.inputSchema)[k]), CatalogLine(t))
  {
    var notes := ParamNotes(DeclaredParams(t.inputSchema));
    JoinContains(", ", notes, k);
    InfixAfter(" [Parameters: ", Join(", ", notes), notes[k]);
    InfixBefore(" [Parameters: " + Join(", ", notes), "]", notes[k]);
    InfixAfter(ToolHeader(t), " [Parameters: " + Join(", ", notes) + "]", notes[k]);
  }

  const ToolsHeading := "Available League API tools:\n"
  const NoTools := "No League MCP tools available."

  function CatalogLines(ts: seq<ToolInfo>): (r: seq<string>)
    ensures |r| == |ts| && forall k :: 0 <= k < |ts| ==> r[k] == CatalogLine(ts[k])
  {
    seq(|ts|, k requires 0 <= k < |ts| => CatalogLine(ts[k]))
  }

  /** The tools context for a session whose tools are `ts`. */
  function Catalog(ts: seq<ToolInfo>): (r: string)
    ensures StartsWith(r, ToolsHeading)
  {
    PrefixOf(ToolsHeading, Join("\n", CatalogLines(ts)));
    ToolsHeading + Join("\n", CatalogLines(ts))
  }

  /** Every listed tool has its line, and so its name and description, in
      the catalog. */
  lemma CatalogListsEvery(ts: seq<ToolInfo>, k: nat)
    requires k < |ts|
    ensures IsInfix(CatalogLine(ts[k]), Catalog(ts))
    ensures IsInfix(ToolHeader(ts[k]), Catalog(ts))
  {
    var lines := CatalogLines(ts);
    JoinContains("\n", lines, k);
    InfixAfter(ToolsHeading, Join("\n", lines), lines[k]);
    InfixOfPrefix(ToolHeader(ts[k]), CatalogLine(ts[k]), Catalog(ts));
  }

  // ---------------------------------------------------------------------
  // the session and a tool's result

  /** One item of a tool result's `content`: it has a `text`, or a `data`
      (already as the text `str` gives it), or neither. */
  datatype Content = TextContent(text: string) | DataContent(data: string) | OtherContent

  /** What `call_tool` does: it returns a result or raises. `error` is the
      text reading `result.error` gives, or the message of the exception
      reading it raises; `repr` is `str(result)`. */
  datatype CallResult =
    | Returned(isError: bool, error: Result<string, string>, content: seq<Content>, repr: string)
    | Raised(reason: string)

  /** A connected session: what `list_tools` gives (a list or the message
      of its exception) and what `call_tool` does for a name and argument
      map. */
  datatype Session = Session(
    tools: Result<seq<ToolInfo>, string>,
    call: (string, map<string, Arg>) -> CallResult)

  predicate HasPart(c: Content) {
    !c.OtherContent?
  }

  function PartText(c: Content): string
    requires HasPart(c)
  {
    if c.TextContent? then c.text else c.data
  }

  /** The texts collected from a result's content, in order: the `text`
      of each item that has one, else its `data`. */
  function ContentParts(cs: seq<Content>): (r: seq<string>)
    ensures |r| == 0 <==> forall k :: 0 <= k < |cs| ==> !HasPart(cs[k])
    ensures forall k :: 0 <= k < |cs| && HasPart(cs[k]) ==> PartText(cs[k]) in r
    decreases |cs|
  {
    if |cs| == 0 then []
    else
      var rest := ContentParts(cs[1..]);
      assert forall k :: 1 <= k < |cs| ==> cs[k] == cs[1..][k - 1];
      if HasPart(cs[0]) then [PartText(cs[0])] + rest else rest
  }

  /** The texts keep the order of the items and come one per item that has
      one: collecting from a concatenation collects from the parts, and a
      single item gives its text exactly when it has one. */
  lemma {:induction false} ContentPartsOrder(a: seq<Content>, b: seq<Content>, c: Content)
    ensures ContentParts(a + b) == ContentParts(a) + ContentParts(b)
    ensures ContentParts([c]) == if HasPart(c) then [PartText(c)] else []
    decreases |a|
  {
    assert [c][1..] == [];
    if |a| == 0 {
      assert a + b == b;
    } else {
      assert (a + b)[1..] == a[1..] + b;
      ContentPartsOrder(a[1..], b, c);
    }
  }

  const ExecError := "Error executing League API tool: "
  const ApiError := "League API Error: "
  const Unparsed := "Could not parse tool call: "
  /** What `str` gives the `AttributeError` of calling a tool on no
      session. */
  const NoSession := "'NoneType' object has no attribute 'call_tool'"

  /** The answer a tool call gives: a raised exception and an error result
      are reported, and a successful result is its content parts joined by
      newlines, or `str(result)` when there are none. */
  function Outcome(r: CallResult): (s: string)
    ensures r.Raised? ==> StartsWith(s, ExecError)
    ensures r.Returned? && r.isError ==> StartsWith(s, ApiError) || StartsWith(s, ExecError)
    ensures r.Returned? && !r.isError && |ContentParts(r.content)| == 0 ==> s == r.repr
  {
    match r
    case Raised(reason) =>
      PrefixOf(ExecError, reason);
      ExecError + reason
    case Returned(isError, error, content, repr) =>
      if isError then
        match error
        case Ok(e) =>
          PrefixOf(ApiError, e);
          ApiError + e
        case Err(reason) =>
          PrefixOf(ExecError, reason);
          ExecError + reason
      else
        var parts := ContentParts(content);
        if |parts| == 0 then repr else Join("\n", parts)
  }

  /** Every text or data item of a successful result appears in the
      answer. */
  lemma OutcomeShowsParts(r: CallResult, k: nat)
    requires r.Returned? && !r.isError && k < |r.content| && HasPart(r.content[k])
    ensures IsInfix(PartText(r.content[k]), Outcome(r))
  {
    var parts := ContentParts(r.content);
    var j :| 0 <= j < |parts| && parts[j] == PartText(r.content[k]);
    JoinContains("\n", parts, j);
  }

  /** `_execute_tool_from_response`: parse the call, build the argument map
      and call the tool. */
  function Execute(session: Option<Session>, response: string): (r: string)
    ensures ParseCall(response).Err? ==> r == Unparsed + ParseCall(response).error
    ensures ParseCall(response).Ok? && session.None? ==> r == ExecError + NoSession
  {
    match ParseCall(response)
    case Err(call) => Unparsed + call
    case Ok((name, text)) =>
      if session.None? then ExecError + NoSession
      else Outcome(session.value.call(name, Arguments(text)))
  }

  /** A reply written as the prompt asks, `USE_TOOL: name(k1=v1, ...)`,
      calls the named tool with the written arguments, each key with the
      coerced value of its last occurrence. */
  lemma ExecuteWrittenCall(s: Session, name: string, ps: seq<(string, string)>)
    requires IsWord(name) && WellFormedParams(ps)
    requires forall i: nat :: !OccursAt(" " + CallText(name, RenderParams(ps)), Marker, i)
    ensures Execute(Some(s), Marker + (" " + CallText(name, RenderParams(ps)))) ==
      Outcome(s.call(name, Collect(ps)))
  {
    NewlineFreeRender(ps);
    CallRoundTrip(name, RenderParams(ps));
    ParamsRoundTrip(ps);
    if |ps| == 0 {
      assert RenderParams(ps) == "";
    }
  }

  // ---------------------------------------------------------------------
  // the prompt and the answer to a query

  /** The fixed text of a prompt: what comes before the tools context,
      and what comes after the query. */
  datatype PromptText = PromptText(intro: string, guide: string)

  /** The part of the guide before its first instruction. */
  const GuideLead := "\n\nIf this query can be answered using available League API tools:\n1. "

  /** The first instruction: answer with the marker of a tool call. */
  const RespondWith := "Respond with: " + Marker

  /** The rest of the guide: the call form, regions, games and examples. */
  const GuideRest := " <tool_name>(<param1>=<value1>, <param2>=<value2>, ...)\n2. Make sure parameter values are appropriate for the League API\n\nRegion options: americas, asia, europe (default: americas)\nGame options for shards/regions: lol (League of Legends), tft (Teamfight Tactics), val (VALORANT), lor (Legends of Runeterra)\n\nExamples:\n- \"look up Faker T1\" -> USE_TOOL: get_account_by_riot_id(game_name=\"Faker\", tag_line=\"T1\")\n- \"get account for PUUID abc123...\" -> USE_TOOL: get_account_by_puuid(puuid=\"abc123...\")\n- \"what region is this player in for LoL: [puuid]\" -> USE_TOOL: get_active_region(game=\"lol\", puuid=\"[puuid]\")\n- \"get active shard for VALORANT player [puuid]\" -> USE_TOOL: get_active_shard(game=\"val\", puuid=\"[puuid]\")\n\nIf the query cannot be answered with available tools, provide helpful League-related information or suggest what the user might need to provide.\n"

  /** The prompt text `process_query` writes. */
  const LeaguePrompt := PromptText(
    "You are a League of Legends AI assistant with access to Riot Games API tools. When a user asks about League accounts, player information, or Riot IDs, you should USE the tools to get actual results.\n\n",
    GuideLead + RespondWith + GuideRest)

  /** The prompt sent to the language model. */
  function Prompt(p: PromptText, context: string, query: string): string {
    p.intro + context + ("\n\nUser query: " + query + p.guide)
  }

  /** The prompt holds the whole tools context and the user's query. */
  lemma PromptCarries(p: PromptText, context: string, query: string)
    ensures IsInfix(context, Prompt(p, context, query))
    ensures IsInfix("User query: " + query, Prompt(p, context, query))
  {
    InfixOf(p.intro, context, "\n\nUser query: " + query + p.guide);
    var lead := p.intro + context + "\n\n";
    assert Prompt(p, context, query) == lead + ("User query: " + query) + p.guide;
    InfixOf(lead, "User query: " + query, p.guide);
  }

  /** A prompt whose guide holds the instruction to answer with the marker,
      as the guide of `LeaguePrompt` does by its definition, passes that
      instruction on to the model. */
  lemma PromptAsks(p: PromptText, context: string, query: string, lead: string, rest: string)
    requires p.guide == lead + RespondWith + rest
    ensures IsInfix(RespondWith, Prompt(p, context, query))
  {
    var head := p.intro + context + "\n\nUser query: " + query + lead;
    assert Prompt(p, context, query) == head + RespondWith + rest;
    InfixOf(head, RespondWith, rest);
  }

  /** What `generate_content_async` gives: the reply's text, or the message
      of the exception asking for it (or reading its text) raises. */
  datatype Reply = Replied(text: string) | ReplyFailed(reason: string)

  const QueryError := "Error processing query: "

  /** The tools context: the catalog of the session's tools, or the notice
      that there is no session; the message of `list_tools`'s exception
      when it raises. */
  function ToolsContext(session: Option<Session>): (r: Result<string, string>)
    ensures session.None? ==> r == Ok(NoTools)
    ensures session.Some? && session.value.tools.Ok? ==> r == Ok(Catalog(session.value.tools.value))
    ensures session.Some? && session.value.tools.Err? ==> r == Err(session.value.tools.error)
  {
    match session
    case None => Ok(NoTools)
    case Some(s) =>
      match s.tools
      case Ok(ts) => Ok(Catalog(ts))
      case Err(reason) => Err(reason)
  }

  /** `process_query`: build the prompt (the client's is `LeaguePrompt`),
      ask the model, and either run the tool call its stripped reply starts
      with or answer with that reply. */
  function ProcessQuery(p: PromptText, session: Option<Session>, model: string -> Reply, query: string): (r: string)
    ensures ToolsContext(session).Err? ==> r == QueryError + ToolsContext(session).error
    ensures ToolsContext(session).Ok? && model(Prompt(p, ToolsContext(session).value, query)).ReplyFailed? ==>
      r == QueryError + model(Prompt(p, ToolsContext(session).value, query)).reason
  {
    match ToolsContext(session)
    case Err(reason) => QueryError + reason
    case Ok(context) =>
      match model(Prompt(p, context, query))
      case ReplyFailed(reason) => QueryError + reason
      case Replied(text) =>
        var t := Strip(text);
        if StartsWith(t, Marker) then Execute(session, t) else t
  }

  /** A reply that is not a tool call is the answer, stripped of the white
      space around it. */
  lemma DirectAnswer(p: PromptText, session: Option<Session>, model: string -> Reply, query: string, context: string)
    requires ToolsContext(session) == Ok(context)
    requires model(Prompt(p, context, query)).Replied?
    requires !StartsWith(Strip(model(Prompt(p, context, query)).text), Marker)
    ensures ProcessQuery(p, session, model, query) == Strip(model(Prompt(p, context, query)).text)
    ensures Strip(ProcessQuery(p, session, model, query)) == ProcessQuery(p, session, model, query)
  {
    StripIdempotent(model(Prompt(p, context, query)).text, IsSpace);
  }

  /** A reply `USE_TOOL: name(k1=v1, ...)` to a prompt listing the
      session's tools is answered with the result of calling `name` with
      those arguments. */
  lemma ToolAnswer(p: PromptText, s: Session, model: string -> Reply, query: string, name: string,
                   ps: seq<(string, string)>)
    requires s.tools.Ok? && IsWord(name) && WellFormedParams(ps)
    requires forall i: nat :: !OccursAt(" " + CallText(name, RenderParams(ps)), Marker, i)
    requires model(Prompt(p, Catalog(s.tools.value), query)) ==
      Replied(Marker + (" " + CallText(name, RenderParams(ps))))
    ensures ProcessQuery(p, Some(s), model, query) == Outcome(s.call(name, Collect(ps)))
  {
    var reply := Marker + (" " + CallText(name, RenderParams(ps)));
    ReplyIsStripped(name, RenderParams(ps));
    PrefixOf(Marker, " " + CallText(name, RenderParams(ps)));
    ExecuteWrittenCall(s, name, ps);
  }

  /** A written call has no white space to strip. */
  lemma ReplyIsStripped(name: string, args: string)
    requires IsWord(name)
    ensures Strip(Marker + (" " + CallText(name, args))) == Marker + (" " + CallText(name, args))
  {
    var reply := Marker + (" " + CallText(name, args));
    assert reply[0] == Marker[0] == 'U';
    assert reply[|reply| - 1] == ')';
    StripByNoop(reply, IsSpace);
  }

  // ---------------------------------------------------------------------
  // starting the server

  /** How `connect_to_server` launches the server script. */
  datatype Launch = Launch(command: string, args: seq<string>)

  const BadScript := "Server script must be a .py or .js file"

  /** A `.py` script runs under `python`, a `.js` script under `node`, and
      any other path is refused. */
  function ServerLaunch(path: string): (r: Result<Launch, string>)
    ensures r.Ok? <==> EndsWith(path, ".py") || EndsWith(path, ".js")
    ensures r.Ok? ==> r.value.args == [path]
    ensures r.Ok? ==> (r.value.command == "python" <==> EndsWith(path, ".py"))
    ensures r.Err? ==> r.error == BadScript
  {
    if EndsWith(path, ".py") then Ok(Launch("python", [path]))
    else if EndsWith(path, ".js") then Ok(Launch("node", [path]))
    else Err(BadScript)
  }

  /** Any path ending in `.py` launches `python` on it. */
  lemma PythonScript(stem: string)
    ensures ServerLaunch(stem + ".py") == Ok(Launch("python", [stem + ".py"]))
  {
    SuffixOf(stem, ".py");
  }

  /** Any path ending in `.js` launches `node` on it. */
  lemma NodeScript(stem: string)
    ensures ServerLaunch(stem + ".js") == Ok(Launch("node", [stem + ".js"]))
  {
    SuffixOf(stem, ".js");
    assert ".js" != ".py";
    assert !EndsWith(stem + ".js", ".py") by {
      assert (stem + ".js")[|stem| + 1] == 'j';
    }
  }

  /** What `main` does with its command line: print the usage and exit
      with status 1 when no script is named, or else launch the named
      script (further arguments are ignored). */
  datatype Start = Usage(lines: seq<string>, status: int) | Launching(launch: Launch) | LaunchFailed(reason: string)

  const UsageLines := [
    "Usage: python client.py <path_to_league_server_script>",
    "Example: python client.py ../mcp-server/league.py"]

  function StartClient(argv: seq<string>): (r: Start)
    ensures r.Usage? <==> |argv| < 2
    ensures r.Usage? ==> r.lines == UsageLines && r.status == 1
    ensures r.LaunchFailed? ==> r.reason == BadScript
  {
    if |argv| < 2 then Usage(UsageLines, 1)
    else
      match ServerLaunch(argv[1])
      case Ok(launch) => Launching(launch)
      case Err(reason) => LaunchFailed(reason)
  }

  /** Only the first argument after the program name is the script; the
      rest of the command line does not change what starts. */
  lemma StartIgnoresExtra(argv: seq<string>, extra: seq<string>)
    requires |argv| >= 2
    ensures StartClient(argv + extra) == StartClient(argv)
    ensures StartClient(argv).Launching? <==> EndsWith(argv[1], ".py") || EndsWith(argv[1], ".js")
  {
    assert (argv + extra)[1] == argv[1];
  }
}

=== FILE: json.dfy ===
/** Parsed JSON as the server handles it after `response.json()`, with the
    Python operations the formatters apply to it: `d.get(k, default)`,
    `k in d`, truthiness, `len`, iteration and `str(v)` inside an f-string. */
module Json {
  import opened Wrappers
  import Numerals
  import Text

  /** A JSON value. Objects keep their keys in document order, as a Python
      dict does. A number with a fraction or exponent is a Python `float`:
      its value together with the text `str` prints for it. */
  datatype Json =
    | Null
    | Bool(b: bool)
    | Int(n: int)
    | Float(x: real, text: string)
    | Str(s: string)
    | Arr(items: seq<Json>)
    | Obj(fields: seq<(string, Json)>)

  /** The value stored under `key` in an object's fields. A key written
      twice keeps its last value, as `json.loads` does. */
  function Lookup(fields: seq<(string, Json)>, key: string): (r: Option<Json>)
    ensures r.Some? <==> exists i :: 0 <= i < |fields| && fields[i].0 == key
  {
    if |fields| == 0 then None
    else if fields[|fields| - 1].0 == key then Some(fields[|fields| - 1].1)
    else Lookup(fields[..|fields| - 1], key)
  }

  /** The value found is the one at the key's last position. */
  lemma {:induction false} LookupLast(fields: seq<(string, Json)>, key: string, i: nat)
    requires i < |fields| && fields[i].0 == key
    requires forall j :: i < j < |fields| ==> fields[j].0 != key
    ensures Lookup(fields, key) == Some(fields[i].1)
    decreases |fields|
  {
    if i < |fields| - 1 {
      LookupLast(fields[..|fields| - 1], key, i);
    }
  }

  /** `key in d` where `d` is a dict. */
  predicate Has(j: Json, key: string) {
    j.Obj? && Lookup(j.fields, key).Some?
  }

  /** `d.get(key, default)`: the stored value, or `default` when the key is
      absent. A value that is not an object has no keys. */
  function Get(j: Json, key: string, default: Json): (r: Json)
    ensures Has(j, key) ==> Some(r) == Lookup(j.fields, key)
    ensures !Has(j, key) ==> r == default
  {
    if j.Obj? then Lookup(j.fields, key).GetOr(default) else default
  }

  /** Python truthiness: `None`, `False`, `0`, `""`, `[]` and `{}` are false. */
  predicate Truthy(j: Json) {
    match j
    case Null => false
    case Bool(b) => b
    case Int(n) => n != 0
    case Float(x, _) => x != 0.0
    case Str(s) => |s| > 0
    case Arr(items) => |items| > 0
    case Obj(fields) => |fields| > 0
  }

  /** `str(v)`: what an f-string prints for the value. */
  function Show(j: Json): string
    decreases j, 0
  {
    match j
    case Null => "None"
    case Bool(b) => if b then "True" else "False"
    case Int(n) => Numerals.IntToString(n)
    case Float(_, text) => text
    case Str(s) => s
    case Arr(items) =>
      "[" + Text.Join(", ", seq(|items|, i requires 0 <= i < |items| => Repr(items[i]))) + "]"
    case Obj(fields) =>
      "{" + Text.Join(", ", seq(|fields|, i requires 0 <= i < |fields| =>
        "'" + fields[i].0 + "': " + Repr(fields[i].1))) + "}"
  }

  /** `repr(v)` as it appears inside a printed list or dict. A text is
      wrapped in single quotes as it stands: Python would also escape `\`
      and control characters, and would switch to double quotes for a
      text holding `'`. */
  function Repr(j: Json): string
    decreases j, 1
  {
    if j.Str? then "'" + j.s + "'" else Show(j)
  }

  /** The elements `for x in v` visits when `v` is a list. */
  function Items(j: Json): seq<Json> {
    if j.Arr? then j.items else []
  }

  /** The texts `str` gives the elements of a list. */
  function Texts(xs: seq<Json>): (r: seq<string>)
    ensures |r| == |xs| && forall i :: 0 <= i < |xs| ==> r[i] == Show(xs[i])
  {
    seq(|xs|, i requires 0 <= i < |xs| => Show(xs[i]))
  }

  /** `d.items()` when `d` is a dict. */
  function Fields(j: Json): seq<(string, Json)> {
    if j.Obj? then j.fields else []
  }

  /** The integer Python's integer arithmetic sees in a value: the number
      itself, or 0 and 1 for `False` and `True`. On any other value `//` and
      `%` either raise `TypeError` or yield a float, which the `d` format
      specification then rejects with `ValueError`. */
  function Num(j: Json): Option<int> {
    match j
    case Int(n) => Some(n)
    case Bool(b) => Some(if b then 1 else 0)
    case _ => None
  }

  /** The number `/` and comparisons see in a value; `None` where they raise
      `TypeError`. */
  function Real(j: Json): Option<real> {
    match j
    case Int(n) => Some(n as real)
    case Float(x, _) => Some(x)
    case Bool(b) => Some(if b then 1.0 else 0.0)
    case _ => None
  }

  /** The integer of a numeric value, `default` otherwise. */
  function NumOr(j: Json, default: int): int {
    Num(j).GetOr(default)
  }

  /** `f"{d.get(key, 'N/A')}"`. */
  function Field(j: Json, key: string): string {
    Show(Get(j, key, Str("N/A")))
  }

  /** `f"{d.get(key, default)}"` for a string default. */
  function FieldOr(j: Json, key: string, default: string): string {
    Show(Get(j, key, Str(default)))
  }

  /** A field reads as `N/A` exactly when it is missing or holds that text. */
  lemma FieldDefault(j: Json, key: string)
    ensures Field(j, key) == (if Has(j, key) then Show(Lookup(j.fields, key).value) else "N/A")
  {
  }
}

=== FILE: league_format.dfy ===
/** What the League-V4 tools print: a ladder (challenger, grandmaster,
    master or a league by ID) showing its ten highest entries, and a
    player's ranked entries. */
module LeagueFormat {
  import opened Numerals
  import opened Text
  import opened Json
  import opened Report
  import Seqs

  /** `'=' * n`. */
  function Rule(n: nat): (r: string)
    ensures |r| == n && forall k :: 0 <= k < n ==> r[k] == '='
  {
    seq(n, _ => '=')
  }

  /** The sort key `x.get('leaguePoints', 0)`. */
  function LeaguePoints(x: Json): real {
    Real(Get(x, "leaguePoints", Int(0))).GetOr(0.0)
  }

  /** The entries a ladder lists: by league points, highest first, ties in
      payload order, at most ten. */
  function TopEntries(entries: seq<Json>): seq<Json> {
    Seqs.Take(Seqs.SortByDescending(entries, LeaguePoints), 10)
  }

  /** The short flags of a ladder entry, in the order `HOT`, `VET`, `NEW`. */
  function LadderFlags(e: Json): (r: seq<string>)
    ensures |r| <= 3
    ensures "HOT" in r <==> Truthy(Get(e, "hotStreak", Bool(false)))
    ensures "VET" in r <==> Truthy(Get(e, "veteran", Bool(false)))
    ensures "NEW" in r <==> Truthy(Get(e, "freshBlood", Bool(false)))
  {
    (if Truthy(Get(e, "hotStreak", Bool(false))) then ["HOT"] else [])
    + (if Truthy(Get(e, "veteran", Bool(false))) then ["VET"] else [])
    + (if Truthy(Get(e, "freshBlood", Bool(false))) then ["NEW"] else [])
  }

  /** `" " + " ".join(flags) if flags else ""`. */
  function FlagSuffix(flags: seq<string>): (r: string)
    ensures |flags| == 0 <==> r == ""
  {
    if |flags| > 0 then " " + Join(" ", flags) else ""
  }

  /** `{wins}W/{losses}L` as the source prints the two counts. */
  function Record(e: Json): string {
    Show(Get(e, "wins", Int(0))) + "W/" + Show(Get(e, "losses", Int(0))) + "L"
  }

  /** The block for ladder entry number `i`. */
  function LadderBlock(lib: Library, i: int, e: Json): (r: seq<string>)
    ensures |r| == 3 && r[2] == "     PUUID: " + ShortId(e, "puuid")
  {
    ["#" + Numbered(i) + Field(e, "rank") + " "
       + Show(Get(e, "leaguePoints", Int(0))) + " LP - " + Record(e)
       + " (" + lib.fixed(EntryWinRate(e), 1) + "%)" + FlagSuffix(LadderFlags(e)),
     "     Summoner: " + Seqs.Take(Field(e, "summonerId"), 20) + "...",
     "     PUUID: " + ShortId(e, "puuid")]
  }

  function LadderRows(lib: Library): (int, Json) -> seq<string> {
    (i, e) => LadderBlock(lib, i, e)
  }

  function Entries(data: Json): seq<Json> {
    Items(Get(data, "entries", Arr([])))
  }

  function LadderHeader(data: Json): (r: seq<string>)
    ensures |r| == 7
  {
    var tier := Show(Get(data, "tier", Str("N/A")));
    [Upper(tier) + " LEAGUE", Rule(|tier| + 7),
     "League ID: " + Field(data, "leagueId"), "Name: " + Field(data, "name"),
     "Queue: " + Field(data, "queue"), "Total Players: " + IntToString(|Entries(data)|),
     "TOP PLAYERS:"]
  }

  /** `format_league_list`. */
  function FormatLeagueList(lib: Library, data: Json): (r: seq<string>)
    ensures IsError(data) ==> r == [ErrorLine(data)]
    ensures !IsError(data) ==> (
      && |r| == 7 + 3 * |TopEntries(Entries(data))|
      && |r[1]| == |r[0]|
      && (forall k :: 0 <= k < |r[1]| ==> r[1][k] == '=')
      && r[5] == "Total Players: " + IntToString(|Entries(data)|)
      && r[7..] == Blocks(TopEntries(Entries(data)), LadderRows(lib), 1))
  {
    if IsError(data) then [ErrorLine(data)]
    else
      var head := LadderHeader(data);
      var top := TopEntries(Entries(data));
      var body := Blocks(top, LadderRows(lib), 1);
      BlocksLength(top, LadderRows(lib), 1, 3);
      assert (head + body)[7..] == body;
      head + body
  }

  /** The ladder lists `min(n, 10)` entries, in descending order of league
      points, keeping payload order among equal points; every entry it
      leaves out has no more points than any entry it lists. */
  lemma TopEntriesAreHighest(entries: seq<Json>, x: Json)
    requires x in entries
    ensures |TopEntries(entries)| == if |entries| < 10 then |entries| else 10
    ensures forall i, j :: 0 <= i < j < |TopEntries(entries)| ==>
      LeaguePoints(TopEntries(entries)[i]) >= LeaguePoints(TopEntries(entries)[j])
    ensures x in TopEntries(entries) || forall y :: y in TopEntries(entries) ==> LeaguePoints(y) >= LeaguePoints(x)
  {
    Seqs.TopOfDescending(entries, LeaguePoints, 10, x);
  }

  /** The ranked-entry status flags, in the order the source tests them. */
  function EntryFlags(e: Json): (r: seq<string>)
    ensures |r| <= 4
    ensures "HOT STREAK" in r <==> Truthy(Get(e, "hotStreak", Bool(false)))
    ensures "VETERAN" in r <==> Truthy(Get(e, "veteran", Bool(false)))
    ensures "FRESH BLOOD" in r <==> Truthy(Get(e, "freshBlood", Bool(false)))
    ensures "INACTIVE" in r <==> Truthy(Get(e, "inactive", Bool(false)))
  {
    (if Truthy(Get(e, "hotStreak", Bool(false))) then ["HOT STREAK"] else [])
    + (if Truthy(Get(e, "veteran", Bool(false))) then ["VETERAN"] else [])
    + (if Truthy(Get(e, "freshBlood", Bool(false))) then ["FRESH BLOOD"] else [])
    + (if Truthy(Get(e, "inactive", Bool(false))) then ["INACTIVE"] else [])
  }

  /** The promotion-series line, present exactly when `miniSeries` is set. */
  function SeriesLines(e: Json): (r: seq<string>)
    ensures |r| == (if Truthy(Get(e, "miniSeries", Null)) then 1 else 0)
  {
    var ms := Get(e, "miniSeries", Null);
    if Truthy(ms) then
      ["  Promotion Series: " + FieldOr(ms, "progress", "") + " (Bo" + Show(Get(ms, "target", Int(0)))
       + ") - " + Show(Get(ms, "wins", Int(0))) + "W/" + Show(Get(ms, "losses", Int(0))) + "L"]
    else []
  }

  /** The status line, present exactly when at least one flag is set. */
  function StatusLines(e: Json): (r: seq<string>)
    ensures |r| == (if |EntryFlags(e)| > 0 then 1 else 0)
    ensures |r| == 1 ==> r[0] == "  Status: " + Join(" | ", EntryFlags(e))
  {
    if |EntryFlags(e)| > 0 then ["  Status: " + Join(" | ", EntryFlags(e))] else []
  }

  /** The block for ranked queue number `i`: six lines, then the optional
      promotion-series and status lines. */
  function QueueBlock(lib: Library, i: int, e: Json): (r: seq<string>)
    ensures |r| == 6 + |SeriesLines(e)| + |StatusLines(e)|
    ensures r[0] == "Queue #" + IntToString(i) + ": " + Field(e, "queueType")
    ensures r[6..] == SeriesLines(e) + StatusLines(e)
  {
    var head := ["Queue #" + IntToString(i) + ": " + Field(e, "queueType"),
      "  Rank: " + Field(e, "tier") + " " + Field(e, "rank") + " ("
        + Show(Get(e, "leaguePoints", Int(0))) + " LP)",
      "  Record: " + Record(e) + " (" + lib.fixed(EntryWinRate(e), 1) + "% WR)",
      "  League ID: " + Field(e, "leagueId"),
      "  Summoner: " + Seqs.Take(Field(e, "summonerId"), 30) + "...",
      "  PUUID: " + ShortId(e, "puuid")];
    assert (head + (SeriesLines(e) + StatusLines(e)))[6..] == SeriesLines(e) + StatusLines(e);
    head + (SeriesLines(e) + StatusLines(e))
  }

  function QueueRows(lib: Library): (int, Json) -> seq<string> {
    (i, e) => QueueBlock(lib, i, e)
  }

  /** `format_league_entries`. */
  function FormatLeagueEntries(lib: Library, data: Json): (r: seq<string>)
    ensures !Truthy(data) ==> r == ["No ranked entries found for this player."]
    ensures Truthy(data) && IsError(data) ==> r == [ErrorLine(data)]
    ensures Truthy(data) && !IsError(data) ==> (
      && |r| >= 3
      && r[2] == "Total Queues: " + IntToString(|Items(data)|)
      && r[3..] == Blocks(Items(data), QueueRows(lib), 1))
  {
    if !Truthy(data) then ["No ranked entries found for this player."]
    else if IsError(data) then [ErrorLine(data)]
    else
      var head := ["RANKED LEAGUE ENTRIES", "=====================",
        "Total Queues: " + IntToString(|Items(data)|)];
      var body := Blocks(Items(data), QueueRows(lib), 1);
      assert (head + body)[3..] == body;
      head + body
  }
}

=== FILE: match_format.dfy ===
/** What the Match-V5 tools print: a player's match history, the details of
    one match, and the key events of its timeline. */
module MatchFormat {
  import opened Wrappers
  import opened Numerals
  import opened Text
  import opened Json
  import opened Report
  import Seqs

  // ---------------------------------------------------------------------
  // match history

  /** `f"{puuid[:8]}..."`. */
  function ShortPuuid(puuid: string): string {
    Seqs.Take(puuid, 8) + "..."
  }

  /** One `{i:2d}. {id}` line per listed match ID, numbered from `first`. */
  function IdLines(ids: seq<Json>, first: int): (r: seq<string>)
    ensures |r| == |ids|
    ensures forall k :: 0 <= k < |ids| ==> r[k] == Numbered(first + k) + Show(ids[k])
  {
    seq(|ids|, k requires 0 <= k < |ids| => Numbered(first + k) + Show(ids[k]))
  }

  /** `format_match_ids`. */
  function FormatMatchIds(data: Json, puuid: string): (r: seq<string>)
    ensures !Truthy(data) ==> r == ["No matches found for PUUID: " + ShortPuuid(puuid)]
    ensures Truthy(data) && IsError(data) ==> r == [ErrorLine(data)]
    ensures Truthy(data) && !IsError(data) ==> (
      && |r| == 5 + |Seqs.Take(Items(data), 10)| + |MoreLines(|Items(data)|, 10, "matches")|
      && r[3] == "Total Matches: " + IntToString(|Items(data)|)
      && r[5..] == IdLines(Seqs.Take(Items(data), 10), 1) + MoreLines(|Items(data)|, 10, "matches"))
  {
    if !Truthy(data) then ["No matches found for PUUID: " + ShortPuuid(puuid)]
    else if IsError(data) then [ErrorLine(data)]
    else
      var ids := Items(data);
      var head := ["MATCH HISTORY", "=============", "PUUID: " + ShortPuuid(puuid),
        "Total Matches: " + IntToString(|ids|), "RECENT MATCH IDs:"];
      var rest := IdLines(Seqs.Take(ids, 10), 1) + MoreLines(|ids|, 10, "matches");
      assert (head + rest)[5..] == rest;
      head + rest
  }

  /** The history lists the first ten match IDs in the order received. */
  lemma MatchIdListed(data: Json, puuid: string, k: nat)
    requires Truthy(data) && !IsError(data) && k < |Items(data)| && k < 10
    ensures 5 + k < |FormatMatchIds(data, puuid)|
    ensures FormatMatchIds(data, puuid)[5 + k] == Numbered(k + 1) + Show(Items(data)[k])
  {
    var r := FormatMatchIds(data, puuid);
    var shown := Seqs.Take(Items(data), 10);
    var lines := IdLines(shown, 1);
    var more := MoreLines(|Items(data)|, 10, "matches");
    assert shown[k] == Items(data)[k];
    assert r[5..] == lines + more;
    assert r[5 + k] == r[5..][k] == lines[k];
  }

  /** Past ten matches the history closes with a line whose count makes up
      the rest; up to ten it has no such line. */
  lemma MatchIdsAccounted(data: Json, puuid: string)
    requires Truthy(data) && !IsError(data)
    ensures |Items(data)| <= 10 ==> |FormatMatchIds(data, puuid)| == 5 + |Items(data)|
    ensures |Items(data)| > 10 ==> |FormatMatchIds(data, puuid)| == 16
    ensures |Items(data)| > 10 ==> (var h := HiddenCount(FormatMatchIds(data, puuid)[15], "matches");
      h.Some? && 10 + h.value == |Items(data)|)
  {
    var r := FormatMatchIds(data, puuid);
    var ids := Items(data);
    if |ids| > 10 {
      var lines := IdLines(Seqs.Take(ids, 10), 1);
      var more := MoreLines(|ids|, 10, "matches");
      ShownPlusHidden(ids, 10, "matches");
      assert r[5..] == lines + more;
      assert r[15] == r[5..][10] == more[0];
    }
  }

  // ---------------------------------------------------------------------
  // match details

  /** `x.get('teamId') == id` for a value that may be missing. */
  predicate IsTeam(v: Json, id: int) {
    Real(v) == Some(id as real)
  }

  /** `team.get('win')`. */
  predicate Won(team: Json) {
    Truthy(Get(team, "win", Null))
  }

  /** `next((team['teamId'] for team in teams if team.get('win')), None)`. */
  function Winner(teams: seq<Json>): Option<Json> {
    match Seqs.FirstWhere(teams, Won)
    case Some(t) => Some(Get(t, "teamId", Null))
    case None => None
  }

  /** `'VICTORY' if winning_team == id else 'DEFEAT'`. */
  function Outcome(winner: Option<Json>, id: int): (r: string)
    ensures r == "VICTORY" <==> winner.Some? && IsTeam(winner.value, id)
  {
    if winner.Some? && IsTeam(winner.value, id) then "VICTORY" else "DEFEAT"
  }

  /** `a + b` on two payload values, as far as the model follows Python:
      integers add, other numbers add as floats, strings concatenate. */
  function Sum(lib: Library, a: Json, b: Json): string {
    if Num(a).Some? && Num(b).Some? then IntToString(Num(a).value + Num(b).value)
    else if Real(a).Some? && Real(b).Some? then lib.floatText(Real(a).value + Real(b).value)
    else Show(a) + Show(b)
  }

  /** The two lines for player number `i` of a team. */
  function PlayerBlock(lib: Library, i: int, p: Json): (r: seq<string>)
    ensures |r| == 2
  {
    ["  " + IntToString(i) + ". " + FieldOr(p, "championName", "Unknown") + " ("
       + Field(p, "teamPosition") + ") - " + Field(p, "riotIdGameName") + "#" + Field(p, "riotIdTagline"),
     "     KDA: " + Show(Get(p, "kills", Int(0))) + "/" + Show(Get(p, "deaths", Int(0))) + "/"
       + Show(Get(p, "assists", Int(0)))
       + " | CS: " + Sum(lib, Get(p, "totalMinionsKilled", Int(0)), Get(p, "neutralMinionsKilled", Int(0)))
       + " | Gold: " + Thousands(lib, Get(p, "goldEarned", Int(0)))
       + " | Damage: " + Thousands(lib, Get(p, "totalDamageDealtToChampions", Int(0)))]
  }

  function PlayerRows(lib: Library): (int, Json) -> seq<string> {
    (i, p) => PlayerBlock(lib, i, p)
  }

  /** `objectives.get(name, {}).get('kills', 0)`. */
  function Kills(objectives: Json, name: string): string {
    Show(Get(Get(objectives, name, Obj([])), "kills", Int(0)))
  }

  /** The objectives line of a team. */
  function ObjectiveLine(team: Json): (r: string)
    ensures StartsWith(r, "Blue Side: ") <==> IsTeam(Get(team, "teamId", Str("N/A")), 100)
  {
    var side := if IsTeam(Get(team, "teamId", Str("N/A")), 100) then "Blue Side" else "Red Side";
    var o := Get(team, "objectives", Obj([]));
    var rest := "Baron " + Kills(o, "baron") + " | Dragons " + Kills(o, "dragon")
      + " | Towers " + Kills(o, "tower") + " | Inhibitors " + Kills(o, "inhibitor")
      + " | Rift Herald " + Kills(o, "riftHerald");
    assert side + ": " + rest == (side + ": ") + rest;
    if side == "Blue Side" then
      assert StartsWith(side + ": " + rest, "Blue Side: ");
      side + ": " + rest
    else
      assert (side + ": " + rest)[..11] != "Blue Side: " by {
        assert (side + ": " + rest)[0] == 'R';
      }
      side + ": " + rest
  }

  /** One objectives line per team, in the order of `teams`. */
  function ObjectiveLines(teams: seq<Json>): (r: seq<string>)
    ensures |r| == |teams| && forall k :: 0 <= k < |teams| ==> r[k] == ObjectiveLine(teams[k])
  {
    seq(|teams|, k requires 0 <= k < |teams| => ObjectiveLine(teams[k]))
  }

  /** The creation time and the duration of a match, computed in one `try`:
      a duration of `gameDuration` seconds when `gameEndTimestamp` is set
      and of milliseconds before that, and both raw values when either
      computation raises. */
  function MatchTimes(lib: Library, info: Json): (r: (string, string))
    ensures var created := TryStamp(lib, Get(info, "gameCreation", Int(0)));
      var d := Get(info, "gameDuration", Int(0));
      && (created.None? || Num(d).None? ==>
        r == ("Epoch: " + Show(Get(info, "gameCreation", Int(0))), Show(d) + "s"))
      && (created.Some? && Num(d).Some? ==> r.0 == created.value)
      && (created.Some? && Num(d).Some? && Truthy(Get(info, "gameEndTimestamp", Int(0))) ==>
        r.1 == Clock(Num(d).value))
      && (created.Some? && Num(d).Some? && !Truthy(Get(info, "gameEndTimestamp", Int(0))) ==>
        r.1 == MsClock(Num(d).value))
  {
    var creation := Get(info, "gameCreation", Int(0));
    var d := Get(info, "gameDuration", Int(0));
    match (TryStamp(lib, creation), Num(d))
    case (Some(c), Some(n)) =>
      (c, if Truthy(Get(info, "gameEndTimestamp", Int(0))) then Clock(n) else MsClock(n))
    case _ => ("Epoch: " + Show(creation), Show(d) + "s")
  }

  function Info(data: Json): Json {
    Get(data, "info", Obj([]))
  }

  function Players(data: Json): seq<Json> {
    Items(Get(Info(data), "participants", Arr([])))
  }

  function Teams(data: Json): seq<Json> {
    Items(Get(Info(data), "teams", Arr([])))
  }

  function DetailHeader(lib: Library, data: Json): (r: seq<string>)
    ensures |r| == 13
    ensures r[10] == "Duration: " + MatchTimes(lib, Info(data)).1
    ensures r[11] == "Participants: " + IntToString(|Players(data)|)
  {
    var meta := Get(data, "metadata", Obj([]));
    var info := Info(data);
    var times := MatchTimes(lib, info);
    ["MATCH DETAILS", "=============", "Match ID: " + Field(meta, "matchId"),
     "Platform: " + Field(info, "platformId"), "Game Mode: " + Field(info, "gameMode"),
     "Game Type: " + Field(info, "gameType"), "Queue ID: " + Field(info, "queueId"),
     "Map ID: " + Field(info, "mapId"), "Version: " + Field(info, "gameVersion"),
     "Created: " + times.0, "Duration: " + times.1,
     "Participants: " + IntToString(|Players(data)|), "TEAM RESULTS:"]
  }

  /** A side: its result line, then its players. */
  function Side(lib: Library, title: string, data: Json, id: int): (r: seq<string>)
    ensures |r| == 1 + 2 * |TeamOf(Players(data), id)|
    ensures r[0] == title + Outcome(Winner(Teams(data)), id)
    ensures r[1..] == Blocks(TeamOf(Players(data), id), PlayerRows(lib), 1)
  {
    var body := Blocks(TeamOf(Players(data), id), PlayerRows(lib), 1);
    BlocksLength(TeamOf(Players(data), id), PlayerRows(lib), 1, 2);
    assert ([title + Outcome(Winner(Teams(data)), id)] + body)[1..] == body;
    [title + Outcome(Winner(Teams(data)), id)] + body
  }

  function BlueSide(lib: Library, data: Json): seq<string> {
    Side(lib, "TEAM 1 (Blue Side): ", data, 100)
  }

  function RedSide(lib: Library, data: Json): seq<string> {
    Side(lib, "TEAM 2 (Red Side): ", data, 200)
  }

  /** `format_match_detail`. */
  function FormatMatchDetail(lib: Library, data: Json): (r: seq<string>)
    ensures IsError(data) ==> r == [ErrorLine(data)]
    ensures !IsError(data) ==> (
      && |r| == 16 + 2 * |TeamOf(Players(data), 100)| + 2 * |TeamOf(Players(data), 200)| + |Teams(data)|
      && r[10] == "Duration: " + MatchTimes(lib, Info(data)).1
      && r[13..] == BlueSide(lib, data) + RedSide(lib, data) + ["OBJECTIVES:"] + ObjectiveLines(Teams(data)))
  {
    if IsError(data) then [ErrorLine(data)]
    else
      var head := DetailHeader(lib, data);
      var rest := BlueSide(lib, data) + RedSide(lib, data) + ["OBJECTIVES:"] + ObjectiveLines(Teams(data));
      assert (head + rest)[13..] == rest;
      head + rest
  }

  /** At most one side reads VICTORY, a side does exactly when the first
      team marked as the winner carries its team ID, and both read DEFEAT
      when no team is marked. */
  lemma OneVictor(data: Json)
    ensures !(Outcome(Winner(Teams(data)), 100) == "VICTORY" && Outcome(Winner(Teams(data)), 200) == "VICTORY")
    ensures forall i :: Seqs.IsFirst(Teams(data), Won, i) ==>
      (Outcome(Winner(Teams(data)), 100) == "VICTORY" <==> IsTeam(Get(Teams(data)[i], "teamId", Null), 100))
    ensures (forall i :: 0 <= i < |Teams(data)| ==> !Won(Teams(data)[i])) ==>
      Outcome(Winner(Teams(data)), 100) == "DEFEAT" && Outcome(Winner(Teams(data)), 200) == "DEFEAT"
  {
    Seqs.FirstWhereIsFirst(Teams(data), Won);
  }

  /** The two sides list only players of teams 100 and 200, each at most
      once, so together they never list more players than the match has. */
  lemma SidesWithinParticipants(data: Json)
    ensures |TeamOf(Players(data), 100)| + |TeamOf(Players(data), 200)| <= |Players(data)|
  {
    TwoTeams(Players(data), 100, 200);
  }

  /** The duration line reads back as the match length in whole seconds:
      `gameDuration` is in seconds once `gameEndTimestamp` is present and
      in milliseconds before that. */
  lemma DurationReadsBack(lib: Library, data: Json)
    requires TryStamp(lib, Get(Info(data), "gameCreation", Int(0))).Some?
    requires Get(Info(data), "gameDuration", Int(0)).Int?
    ensures var d := Get(Info(data), "gameDuration", Int(0)).n;
      var t := MatchTimes(lib, Info(data)).1;
      ReadClock(t) == Some(if Truthy(Get(Info(data), "gameEndTimestamp", Int(0))) then d else d / 1000)
  {
    var d := Get(Info(data), "gameDuration", Int(0)).n;
    ClockRoundTrip(d);
    MsClockRoundTrip(d);
  }

  // ---------------------------------------------------------------------
  // timeline

  /** An event of the four kinds the timeline reports, with the timestamp
      of the frame it was found in. */
  datatype KeyEvent = KeyEvent(timestamp: Json, data: Json)

  /** `event.get('type', '')`. */
  function Kind(e: Json): Json {
    Get(e, "type", Str(""))
  }

  /** `event_type in ['CHAMPION_KILL', 'ELITE_MONSTER_KILL', 'BUILDING_KILL',
      'CHAMPION_SPECIAL_KILL']`. */
  predicate IsKey(e: Json) {
    Kind(e) in [Str("CHAMPION_KILL"), Str("ELITE_MONSTER_KILL"), Str("BUILDING_KILL"), Str("CHAMPION_SPECIAL_KILL")]
  }

  function FrameTime(frame: Json): Json {
    Get(frame, "timestamp", Int(0))
  }

  function FrameList(frame: Json): seq<Json> {
    Items(Get(frame, "events", Arr([])))
  }

  /** The key events of one frame, in the frame's order. */
  function FrameEvents(frame: Json): (r: seq<KeyEvent>)
    ensures forall k :: 0 <= k < |r| ==>
      r[k].timestamp == FrameTime(frame) && IsKey(r[k].data) && r[k].data in FrameList(frame)
  {
    var es := Seqs.Filter(FrameList(frame), IsKey);
    seq(|es|, k requires 0 <= k < |es| => KeyEvent(FrameTime(frame), es[k]))
  }

  /** `important_events`, frame by frame. */
  function KeyEvents(frames: seq<Json>): seq<KeyEvent>
    decreases |frames|
  {
    if |frames| == 0 then [] else FrameEvents(frames[0]) + KeyEvents(frames[1..])
  }

  /** Within one frame, an event is collected exactly when it is of one of
      the four kinds, with the frame's timestamp. */
  lemma FrameEventsExactly(frame: Json, t: Json, e: Json)
    ensures KeyEvent(t, e) in FrameEvents(frame) <==> FrameTime(frame) == t && IsKey(e) && e in FrameList(frame)
  {
    var here := FrameEvents(frame);
    var es := Seqs.Filter(FrameList(frame), IsKey);
    assert KeyEvent(t, e) in here <==> FrameTime(frame) == t && e in es by {
      if KeyEvent(t, e) in here {
        var k :| 0 <= k < |here| && here[k] == KeyEvent(t, e);
        assert es[k] == e;
      }
      if FrameTime(frame) == t && e in es {
        var k :| 0 <= k < |es| && es[k] == e;
        assert here[k] == KeyEvent(t, e);
      }
    }
    if IsKey(e) && e in FrameList(frame) {
      var k :| 0 <= k < |FrameList(frame)| && FrameList(frame)[k] == e;
    }
  }

  /** An event is collected exactly when it is of one of the four kinds,
      and it is collected with the timestamp of its own frame. */
  lemma {:induction false} KeyEventsExactly(frames: seq<Json>, t: Json, e: Json)
    ensures KeyEvent(t, e) in KeyEvents(frames) <==>
      IsKey(e) && exists i :: 0 <= i < |frames| && FrameTime(frames[i]) == t && e in FrameList(frames[i])
    decreases |frames|
  {
    if |frames| > 0 {
      var rest := frames[1..];
      KeyEventsExactly(rest, t, e);
      FrameEventsExactly(frames[0], t, e);
      assert KeyEvents(frames) == FrameEvents(frames[0]) + KeyEvents(rest);
      if IsKey(e) && exists i :: 0 <= i < |frames| && FrameTime(frames[i]) == t && e in FrameList(frames[i]) {
        var i :| 0 <= i < |frames| && FrameTime(frames[i]) == t && e in FrameList(frames[i]);
        if i > 0 {
          assert rest[i - 1] == frames[i];
        }
      }
      if exists i :: 0 <= i < |rest| && FrameTime(rest[i]) == t && e in FrameList(rest[i]) {
        var i :| 0 <= i < |rest| && FrameTime(rest[i]) == t && e in FrameList(rest[i]);
        assert frames[i + 1] == rest[i];
      }
    }
  }

  /** The sort key `x['timestamp']`. */
  function EventTime(e: KeyEvent): real {
    Real(e.timestamp).GetOr(0.0)
  }

  /** The events the timeline shows: sorted by timestamp, ties in collection
      order, at most twenty. */
  function Shown(frames: seq<Json>): seq<KeyEvent> {
    Seqs.Take(Seqs.SortBy(KeyEvents(frames), EventTime), 20)
  }

  /** `', '.join(f'P{aid}' for aid in assist_ids)`. */
  function AssistList(ids: seq<Json>): string {
    Join(", ", seq(|ids|, k requires 0 <= k < |ids| => "P" + Show(ids[k])))
  }

  /** The line a champion kill, an elite monster kill or a building kill
      prints. */
  function EventLine(e: KeyEvent): string {
    var time := GameTime(NumOr(e.timestamp, 0));
    var d := e.data;
    var killer := Show(Get(d, "killerId", Int(0)));
    if Kind(d) == Str("CHAMPION_KILL") then
      var assists := Get(d, "assistingParticipantIds", Arr([]));
      time + " - Champion Kill: P" + killer + " killed P" + Show(Get(d, "victimId", Int(0)))
        + (if Truthy(assists) then " (Assists: " + AssistList(Items(assists)) + ")" else "")
    else if Kind(d) == Str("ELITE_MONSTER_KILL") then
      time + " - Elite Monster Kill: P" + killer + " killed " + FieldOr(d, "monsterType", "Unknown")
    else
      var lane := Get(d, "laneType", Str(""));
      time + " - Building Kill: P" + killer + " destroyed " + FieldOr(d, "buildingType", "Unknown")
        + (if Truthy(lane) then " in " + Show(lane) else "")
  }

  /** A key event that prints a line: every kind but the special kill. */
  predicate Prints(e: KeyEvent) {
    IsKey(e.data) && Kind(e.data) != Str("CHAMPION_SPECIAL_KILL")
  }

  /** The lines an event prints: none for a special kill. */
  function EventLines(e: KeyEvent): (r: seq<string>)
    ensures |r| == (if Prints(e) then 1 else 0)
  {
    if Prints(e) then [EventLine(e)] else []
  }

  /** The lines of the shown events, in order. */
  function EventsText(es: seq<KeyEvent>): (r: seq<string>)
    ensures |r| <= |es|
    decreases |es|
  {
    if |es| == 0 then [] else EventLines(es[0]) + EventsText(es[1..])
  }

  /** Every shown event but a special kill contributes exactly one line. */
  lemma {:induction false} EventsTextCount(es: seq<KeyEvent>)
    ensures |EventsText(es)| == |Seqs.Filter(es, Prints)|
    decreases |es|
  {
    if |es| > 0 {
      EventsTextCount(es[1..]);
      assert es == [es[0]] + es[1..];
      Seqs.FilterAppend([es[0]], es[1..], Prints);
      assert Seqs.Filter([es[0]], Prints) == if Prints(es[0]) then [es[0]] else [];
    }
  }

  /** `f"{frame_interval / 1000}s"`. */
  function IntervalText(lib: Library, v: Json): string {
    match Real(v)
    case Some(x) => lib.floatText(x / 1000.0) + "s"
    case None => Show(v) + "s"
  }

  function Frames(data: Json): seq<Json> {
    Items(Get(Get(data, "info", Obj([])), "frames", Arr([])))
  }

  function TimelineHeader(lib: Library, data: Json): (r: seq<string>)
    ensures |r| == 6 && r[4] == "Total Frames: " + IntToString(|Frames(data)|)
  {
    ["MATCH TIMELINE", "==============",
     "Match ID: " + Field(Get(data, "metadata", Obj([])), "matchId"),
     "Frame Interval: " + IntervalText(lib, Get(Get(data, "info", Obj([])), "frameInterval", Int(60000))),
     "Total Frames: " + IntToString(|Frames(data)|), "KEY EVENTS:"]
  }

  /** `format_match_timeline`. */
  function FormatMatchTimeline(lib: Library, data: Json): (r: seq<string>)
    ensures IsError(data) ==> r == [ErrorLine(data)]
    ensures !IsError(data) ==> (
      && |r| >= 6
      && r[4] == "Total Frames: " + IntToString(|Frames(data)|)
      && r[6..] == EventsText(Shown(Frames(data))) + MoreLines(|KeyEvents(Frames(data))|, 20, "events"))
  {
    if IsError(data) then [ErrorLine(data)]
    else
      var head := TimelineHeader(lib, data);
      var rest := EventsText(Shown(Frames(data))) + MoreLines(|KeyEvents(Frames(data))|, 20, "events");
      assert (head + rest)[6..] == rest;
      head + rest
  }

  /** The shown events are the twenty earliest key events, in timestamp
      order: an event left out is no earlier than any event shown, and
      events at the same time keep the order they were collected in. */
  lemma ShownEarliest(frames: seq<Json>, x: KeyEvent)
    requires x in KeyEvents(frames)
    ensures |Shown(frames)| == if |KeyEvents(frames)| < 20 then |KeyEvents(frames)| else 20
    ensures Seqs.SortedBy(Shown(frames), EventTime)
    ensures x in Shown(frames) || forall y :: y in Shown(frames) ==> EventTime(y) <= EventTime(x)
    ensures forall t :: (Seqs.WithKey(Seqs.SortBy(KeyEvents(frames), EventTime), EventTime, t)
                         == Seqs.WithKey(KeyEvents(frames), EventTime, t))
  {
    Seqs.TopOfAscending(KeyEvents(frames), EventTime, 20, x);
  }

  /** Past twenty key events the timeline closes with a line whose count
      makes up the rest. */
  lemma TimelineAccounted(frames: seq<Json>)
    requires |KeyEvents(frames)| > 20
    ensures var h := HiddenCount(MoreLines(|KeyEvents(frames)|, 20, "events")[0], "events");
      h.Some? && 20 + h.value == |KeyEvents(frames)|
  {
    ShownPlusHidden(KeyEvents(frames), 20, "events");
  }
}

=== FILE: numerals.dfy ===
/** Decimal rendering and parsing of integers, as Python's `str(n)`,
    `int(s)` and the `d`, `02d` and `,` format specifications do it. */
module Numerals {
  import opened Wrappers

  predicate IsDigit(c: char) { '0' <= c <= '9' }

  predicate AllDigits(s: string) {
    forall i :: 0 <= i < |s| ==> IsDigit(s[i])
  }

  function DigitChar(d: nat): (c: char)
    requires d < 10
    ensures IsDigit(c)
  {
    (48 + d) as char
  }

  function DigitValue(c: char): (d: nat)
    requires IsDigit(c)
    ensures d < 10
  {
    c as int - 48
  }

  function Pow10(k: nat): (p: nat)
    ensures p >= 1
  {
    if k == 0 then 1 else 10 * Pow10(k - 1)
  }

  /** The digits of `n` without leading zeros: `str(n)` for `n >= 0`. */
  function NatToString(n: nat): (s: string)
    ensures |s| >= 1 && AllDigits(s)
    ensures s[0] == '0' <==> n == 0
  {
    if n < 10 then [DigitChar(n)] else NatToString(n / 10) + [DigitChar(n % 10)]
  }

  /** The number a digit string denotes (leading zeros allowed, as `int("007")`). */
  function DigitsValue(s: string): nat
    requires AllDigits(s)
  {
    if |s| == 0 then 0 else DigitsValue(s[..|s| - 1]) * 10 + DigitValue(s[|s| - 1])
  }

  /** `str(n)` for any integer. */
  function IntToString(n: int): string {
    if n < 0 then "-" + NatToString(-n) else NatToString(n)
  }

  /** The strings the client converts with `int(...)`: all digits, or `-`
      followed by all digits. */
  predicate IsIntLiteral(s: string) {
    (|s| > 0 && AllDigits(s)) || (|s| > 1 && s[0] == '-' && AllDigits(s[1..]))
  }

  function ParseInt(s: string): int
    requires IsIntLiteral(s)
  {
    if |s| > 0 && AllDigits(s) then DigitsValue(s) as int else 0 - DigitsValue(s[1..])
  }

  /** A literal `str` could have produced: no leading zero and no `-0`. */
  predicate IsCanonical(s: string) {
    IsIntLiteral(s) &&
    (if s[0] == '-' then s[1] != '0' else (s[0] == '0' ==> |s| == 1))
  }

  lemma {:induction false} NatRoundTrip(n: nat)
    ensures DigitsValue(NatToString(n)) == n
  {
    if n >= 10 {
      var s := NatToString(n / 10);
      NatRoundTrip(n / 10);
      var t := s + [DigitChar(n % 10)];
      assert t[..|t| - 1] == s;
    }
  }

  /** Parsing what `str` printed gives the number back. */
  lemma IntRoundTrip(n: int)
    ensures IsIntLiteral(IntToString(n)) && IsCanonical(IntToString(n))
    ensures ParseInt(IntToString(n)) == n
  {
    if n < 0 {
      var s := IntToString(n);
      assert s[1..] == NatToString(-n);
      NatRoundTrip(-n);
    } else {
      NatRoundTrip(n);
    }
  }

  /** `str(n)` is made of digits and a leading minus sign only. */
  lemma NumberAlphabet(n: int, c: char)
    requires c != '-' && !IsDigit(c)
    ensures c !in IntToString(n)
  {
    var s := IntToString(n);
    if n < 0 {
      assert s == "-" + NatToString(-n);
      assert forall k :: 0 < k < |s| ==> s[k] == NatToString(-n)[k - 1];
    }
    assert forall k :: 0 <= k < |s| ==> s[k] == '-' || IsDigit(s[k]);
  }

  lemma {:induction false} DigitsValuePositive(s: string)
    requires |s| > 0 && AllDigits(s) && s[0] != '0'
    ensures DigitsValue(s) >= Pow10(|s| - 1)
  {
    if |s| > 1 {
      var p := s[..|s| - 1];
      assert p[0] == s[0];
      DigitsValuePositive(p);
    }
  }

  lemma {:induction false} NatPrintsBack(s: string)
    requires |s| > 0 && AllDigits(s) && (s[0] == '0' ==> |s| == 1)
    ensures NatToString(DigitsValue(s)) == s
  {
    if |s| > 1 {
      var p := s[..|s| - 1];
      assert p[0] == s[0];
      NatPrintsBack(p);
      DigitsValuePositive(p);
      var v := DigitsValue(s);
      assert v / 10 == DigitsValue(p) && v % 10 == DigitValue(s[|s| - 1]);
      assert v >= 10;
      assert s == p + [s[|s| - 1]];
    }
  }

  /** Printing a canonical literal's value gives the literal back: `str` and
      `int` are inverse on canonical literals. */
  lemma CanonicalPrintsBack(s: string)
    requires IsCanonical(s)
    ensures IntToString(ParseInt(s)) == s
  {
    if |s| > 0 && AllDigits(s) {
      NatPrintsBack(s);
    } else {
      var t := s[1..];
      assert t[0] == s[1];
      NatPrintsBack(t);
      DigitsValuePositive(t);
      assert s == "-" + t;
    }
  }

  /** `f"{n:02d}"`: at least two characters, zero-filled after the sign. */
  function Pad2(n: int): (s: string)
    ensures 0 <= n < 100 ==> |s| == 2 && AllDigits(s) && DigitsValue(s) == n
  {
    if 0 <= n < 10 then
      NatRoundTrip(n);
      "0" + NatToString(n)
    else
      IntRoundTrip(n);
      IntToString(n)
  }

  /** `f"{s:>w}"`-style right alignment in a field of `width` spaces, as the
      `2d` and `3d` format specifications do. */
  function PadLeft(s: string, width: nat): (r: string)
    ensures |r| == if |s| >= width then |s| else width
    ensures r[|r| - |s|..] == s
    ensures forall k :: 0 <= k < |r| - |s| ==> r[k] == ' '
  {
    if |s| >= width then s else seq(width - |s|, _ => ' ') + s
  }

  /** Three digits, zero-filled: one group of `f"{n:,}"`. */
  function Pad3(d: nat): (s: string)
    requires d < 1000
    ensures |s| == 3 && AllDigits(s)
  {
    if d < 10 then "00" + NatToString(d)
    else if d < 100 then
      assert NatToString(d) == NatToString(d / 10) + [DigitChar(d % 10)];
      "0" + NatToString(d)
    else
      assert NatToString(d) == NatToString(d / 10) + [DigitChar(d % 10)];
      assert NatToString(d / 10) == NatToString(d / 100) + [DigitChar(d / 10 % 10)];
      NatToString(d)
  }

  function GroupedNat(n: nat): string {
    if n < 1000 then NatToString(n) else GroupedNat(n / 1000) + "," + Pad3(n % 1000)
  }

  /** `f"{n:,}"`: decimal digits in groups of three separated by commas. */
  function Grouped(n: int): string {
    if n < 0 then "-" + GroupedNat(-n) else GroupedNat(n)
  }

  /** The string with every `,` removed. */
  function Ungroup(s: string): string {
    if |s| == 0 then ""
    else (if s[0] == ',' then "" else [s[0]]) + Ungroup(s[1..])
  }

  lemma {:induction false} UngroupAppend(a: string, b: string)
    ensures Ungroup(a + b) == Ungroup(a) + Ungroup(b)
  {
    if |a| > 0 {
      assert (a + b)[1..] == a[1..] + b;
      UngroupAppend(a[1..], b);
    } else {
      assert a + b == b;
    }
  }

  lemma {:induction false} UngroupDigits(s: string)
    requires AllDigits(s)
    ensures Ungroup(s) == s
  {
    if |s| > 0 {
      UngroupDigits(s[1..]);
      assert s == [s[0]] + s[1..];
    }
  }

  lemma ShiftDigit(va: int, p: int, vb: int, d: int)
    ensures (va * p + vb) * 10 + d == va * (10 * p) + (vb * 10 + d)
  {
    assert (va * p) * 10 == va * (10 * p);
  }

  lemma {:induction false} DigitsValueAppend(a: string, b: string)
    requires AllDigits(a) && AllDigits(b)
    ensures AllDigits(a + b)
    ensures DigitsValue(a + b) == DigitsValue(a) * Pow10(|b|) + DigitsValue(b)
  {
    if |b| > 0 {
      var b' := b[..|b| - 1];
      var d := DigitValue(b[|b| - 1]);
      assert (a + b)[..|a + b| - 1] == a + b';
      assert (a + b)[|a + b| - 1] == b[|b| - 1];
      DigitsValueAppend(a, b');
      var va, vb, p := DigitsValue(a), DigitsValue(b'), Pow10(|b'|);
      assert DigitsValue(a + b) == DigitsValue(a + b') * 10 + d;
      assert DigitsValue(a + b') == va * p + vb;
      assert DigitsValue(b) == vb * 10 + d;
      assert Pow10(|b|) == 10 * p;
      ShiftDigit(va, p, vb, d);
    } else {
      assert a + b == a;
    }
  }

  lemma {:induction false} DigitsValueLeadingZeros(z: string, s: string)
    requires forall i :: 0 <= i < |z| ==> z[i] == '0'
    requires AllDigits(s)
    ensures AllDigits(z + s) && DigitsValue(z + s) == DigitsValue(s)
  {
    DigitsValueAppend(z, s);
    ZerosValue(z);
  }

  lemma {:induction false} ZerosValue(z: string)
    requires forall i :: 0 <= i < |z| ==> z[i] == '0'
    ensures AllDigits(z) && DigitsValue(z) == 0
  {
    if |z| > 0 {
      ZerosValue(z[..|z| - 1]);
    }
  }

  lemma Pad3Value(d: nat)
    requires d < 1000
    ensures DigitsValue(Pad3(d)) == d
  {
    NatRoundTrip(d);
    if d < 10 {
      DigitsValueLeadingZeros("00", NatToString(d));
    } else if d < 100 {
      DigitsValueLeadingZeros("0", NatToString(d));
    }
  }

  lemma {:induction false} GroupedNatValue(n: nat)
    ensures AllDigits(Ungroup(GroupedNat(n)))
    ensures DigitsValue(Ungroup(GroupedNat(n))) == n
  {
    if n < 1000 {
      UngroupDigits(NatToString(n));
      NatRoundTrip(n);
    } else {
      var head := GroupedNat(n / 1000);
      var tail := Pad3(n % 1000);
      GroupedNatValue(n / 1000);
      UngroupComma(head, tail);
      Pad3Value(n % 1000);
      DigitsValueAppend(Ungroup(head), tail);
      assert Pow10(3) == 1000;
      assert n == (n / 1000) * 1000 + n % 1000;
    }
  }

  lemma UngroupComma(head: string, tail: string)
    requires AllDigits(tail)
    ensures Ungroup(head + "," + tail) == Ungroup(head) + tail
  {
    var comma := ",";
    assert comma[0] == ',' && comma[1..] == "";
    assert Ungroup(comma) == "";
    UngroupAppend(head, comma);
    assert Ungroup(head + comma) == Ungroup(head);
    UngroupAppend(head + comma, tail);
    UngroupDigits(tail);
  }

  /** Dropping the thousands separators from `f"{n:,}"` leaves digits that
      denote `n` again, with the sign kept in front. */
  lemma GroupedRoundTrip(n: int)
    ensures n >= 0 ==> AllDigits(Ungroup(Grouped(n))) && DigitsValue(Ungroup(Grouped(n))) == n
    ensures n < 0 ==> Ungroup(Grouped(n)) == "-" + Ungroup(GroupedNat(-n))
    ensures n < 0 ==> AllDigits(Ungroup(GroupedNat(-n))) && DigitsValue(Ungroup(GroupedNat(-n))) == -n
  {
    if n < 0 {
      GroupedNatValue(-n);
      UngroupAppend("-", GroupedNat(-n));
    } else {
      GroupedNatValue(n);
    }
  }
}

=== FILE: regions.dfy ===
/** The regional routing of the server: the platforms the League tools
    accept, the routing regions of the Match-V5 API, and the two argument
    guards that answer a call without making a request. */
module Regions {
  import opened Wrappers
  import opened Text

  /** The platform regions, in the order the rejection message lists them. */
  const LolRegions: seq<string> :=
    ["na1", "euw1", "eun1", "kr", "jp1", "br1", "la1", "la2", "oc1", "tr1", "ru"]

  /** The routing regions the Match-V5 API is served from. */
  const MatchRoutingRegions: seq<string> := ["americas", "asia", "europe", "sea"]

  /** Which routing region serves the matches of each platform. */
  const PlatformToRouting: map<string, string> := map[
    "na1" := "americas", "br1" := "americas", "la1" := "americas", "la2" := "americas",
    "kr" := "asia", "jp1" := "asia",
    "euw1" := "europe", "eun1" := "europe", "tr1" := "europe", "ru" := "europe",
    "oc1" := "sea"]

  /** `get_routing_region`: the table entry, `americas` for any other name.
      Whatever the argument, the answer is a routing region. */
  function RoutingRegion(platform: string): (r: string)
    ensures r in MatchRoutingRegions
    ensures platform in PlatformToRouting ==> r == PlatformToRouting[platform]
    ensures platform !in PlatformToRouting ==> r == "americas"
  {
    if platform in PlatformToRouting then PlatformToRouting[platform] else "americas"
  }

  /** The routing table covers exactly the accepted platforms, so a tool
      that checks its region first never reaches the `americas` fallback. */
  lemma RoutingCoversPlatforms()
    ensures forall p :: p in PlatformToRouting <==> p in LolRegions
  {
  }

  /** Every routing region serves at least one platform. */
  lemma EveryRoutingRegionUsed(g: string)
    requires g in MatchRoutingRegions
    ensures exists p :: p in LolRegions && RoutingRegion(p) == g
  {
    var p := if g == "americas" then "na1" else if g == "asia" then "kr" else if g == "europe" then "euw1" else "oc1";
    assert p in LolRegions && RoutingRegion(p) == g;
  }

  /** The answer to a call naming an unknown platform. */
  function InvalidRegion(region: string): string {
    "Error: Invalid region '" + region + "'. Valid regions: " + Join(", ", LolRegions)
  }

  /** The region guard of every platform tool: `None` lets the call through. */
  function CheckRegion(region: string): (r: Option<string>)
    ensures r.None? <==> region in LolRegions
    ensures r.Some? ==> r.value == InvalidRegion(region)
  {
    if region in LolRegions then None else Some(InvalidRegion(region))
  }

  lemma QuotedFirst(region: string, list: string)
    ensures StartsWith("Error: Invalid region '" + region + "'. Valid regions: " + list,
                       "Error: Invalid region '" + region + "'")
  {
    var s := "Error: Invalid region '" + region + "'. Valid regions: " + list;
    var p := "Error: Invalid region '" + region + "'";
    assert |p| == 24 + |region|;
    assert s[..|p|] == p by {
      assert forall k :: 0 <= k < 23 + |region| ==> s[k] == p[k];
      assert s[23 + |region|] == '\'';
    }
  }

  /** The rejection quotes the region it was given. */
  lemma InvalidRegionQuotes(region: string)
    ensures StartsWith(InvalidRegion(region), "Error: Invalid region '" + region + "'")
  {
    QuotedFirst(region, Join(", ", LolRegions));
  }

  /** The rejection names every region the guard accepts. */
  lemma InvalidRegionListsAll(region: string)
    ensures forall k :: 0 <= k < |LolRegions| ==> IsInfix(LolRegions[k], InvalidRegion(region))
  {
    JoinListed("Error: Invalid region '" + region + "'. Valid regions: ", ", ", LolRegions);
  }

  /** The challenge levels a leaderboard can be asked for. */
  const Levels: seq<string> := ["MASTER", "GRANDMASTER", "CHALLENGER"]

  /** The answer to a leaderboard call naming an unknown level. */
  function InvalidLevel(level: string): string {
    "Error: Invalid level '" + level + "'. Valid levels: MASTER, GRANDMASTER, CHALLENGER"
  }

  /** The level guard of the leaderboard tool: the level is compared after
      upper-casing, and the rejection quotes it as given. */
  function CheckLevel(level: string): (r: Option<string>)
    ensures r.None? <==> Upper(level) in Levels
    ensures r.Some? ==> r.value == InvalidLevel(level)
  {
    if Upper(level) in Levels then None else Some(InvalidLevel(level))
  }

  /** A level passes the guard exactly when it spells one of the three
      levels in any mixture of cases. */
  lemma LevelAnyCase(level: string)
    ensures CheckLevel(level).None? <==> exists k :: 0 <= k < |Levels| && SameIgnoringCase(level, Levels[k])
  {
    forall k | 0 <= k < |Levels| ensures Upper(level) == Levels[k] <==> SameIgnoringCase(level, Levels[k]) {
      assert Upper(Levels[k]) == Levels[k];
      UpperMatchesAnyCase(level, Levels[k]);
    }
  }
}

=== FILE: report.dfy ===
/** The conventions every formatter of the server follows: the error line,
    `N/A` defaults, `m:ss` clocks, timestamps converted inside a `try`,
    numbered and capped listings, and team membership by `teamId`. A
    formatter's answer is modelled as its non-blank lines. */
module Report {
  import opened Wrappers
  import opened Numerals
  import opened Text
  import opened Json
  import Seqs

  /** The parts of the Python runtime the model takes as given. */
  datatype Library = Library(
    /** `datetime.fromtimestamp(ms / 1000).strftime('%Y-%m-%d %H:%M:%S UTC')`
        for a time in milliseconds; `None` where it raises `ValueError`. */
    dateTime: real -> Option<string>,
    /** The same conversion with the format `'%Y-%m-%d'`. */
    day: real -> Option<string>,
    /** `f"{x:.{n}f}"`. */
    fixed: (real, nat) -> string,
    /** `f"{x:,.0f}"`: the number converted to the nearest float, rounded
        to a whole number and printed with its thousands grouped. */
    groupedWhole: real -> string,
    /** `f"{x:,}"` for a float. */
    groupedFloat: real -> string,
    /** `str(x)` for a float. */
    floatText: real -> string)

  /** A payload the formatter treats as an error report. */
  predicate IsError(data: Json) {
    Has(data, "error")
  }

  /** `f"Error: {data['error']}"`. */
  function ErrorLine(data: Json): (r: string)
    ensures StartsWith(r, "Error: ")
    ensures IsError(data) ==> r == "Error: " + Show(Lookup(data.fields, "error").value)
  {
    "Error: " + Show(Get(data, "error", Null))
  }

  /** The tool's answer: the formatter's lines joined by newlines. */
  function Unlines(lines: seq<string>): string {
    Join("\n", lines)
  }

  // ---------------------------------------------------------------------
  // numbers in f-strings

  /** `f"{i:2d}. "`: the number of a listing entry. */
  function Numbered(i: int): string {
    PadLeft(IntToString(i), 2) + ". "
  }

  /** `f"{v:,}"`: an integer with its thousands grouped, a boolean as the
      integer 0 or 1, a float through the library. On a text, `null`, a
      list or an object Python raises; the model prints the value as `str`
      does. */
  function Thousands(lib: Library, v: Json): string {
    match v
    case Int(n) => Grouped(n)
    case Bool(b) => Grouped(if b then 1 else 0)
    case Float(x, _) => lib.groupedFloat(x)
    case _ => Show(v)
  }

  /** `f"{v:,.0f}"`. Python formats an integer or a boolean with `f` by
      converting it to a float first, so every number, integral or not,
      goes through the library's float formatting. */
  function WholeThousands(lib: Library, v: Json): string {
    match Real(v)
    case Some(x) => lib.groupedWhole(x)
    case None => Show(v)
  }

  /** `f"{v:.{n}f}"`. */
  function Fixed(lib: Library, v: Json, n: nat): string {
    match Real(v)
    case Some(x) => lib.fixed(x, n)
    case None => Show(v)
  }

  /** `x.get(key)[:8] + '...' if x.get(key) else 'N/A'`: a shortened PUUID. */
  function ShortId(x: Json, key: string): (r: string)
    ensures !Truthy(Get(x, key, Null)) ==> r == "N/A"
    ensures Truthy(Get(x, key, Null)) ==> EndsWith(r, "...") && |r| <= 11
    ensures Truthy(Get(x, key, Null)) ==> StartsWith(Show(Get(x, key, Null)), r[..|r| - 3])
    ensures Truthy(Get(x, key, Null)) ==>
      |r| - 3 == if |Show(Get(x, key, Null))| < 8 then |Show(Get(x, key, Null))| else 8
  {
    var v := Get(x, key, Null);
    if Truthy(v) then Seqs.Take(Show(v), 8) + "..." else "N/A"
  }

  /** `(wins / (wins + losses) * 100) if (wins + losses) > 0 else 0`. */
  function WinRate(wins: real, losses: real): (r: real)
    ensures wins + losses <= 0.0 ==> r == 0.0
    ensures wins + losses > 0.0 ==> r * (wins + losses) == 100.0 * wins
    ensures 0.0 <= wins && 0.0 <= losses ==> 0.0 <= r <= 100.0
  {
    if wins + losses > 0.0 then wins / (wins + losses) * 100.0 else 0.0
  }

  /** The win rate of a ranked entry's `wins` and `losses` fields. */
  function EntryWinRate(entry: Json): real {
    WinRate(Real(Get(entry, "wins", Int(0))).GetOr(0.0), Real(Get(entry, "losses", Int(0))).GetOr(0.0))
  }

  // ---------------------------------------------------------------------
  // clocks

  /** `f"{n // 60}:{n % 60:02d}"`: a length in seconds as minutes and seconds. */
  function Clock(n: int): string {
    IntToString(n / 60) + ":" + Pad2(n % 60)
  }

  /** `f"{ms // 60000}:{(ms % 60000) // 1000:02d}"`: a length in milliseconds. */
  function MsClock(ms: int): string {
    IntToString(ms / 60000) + ":" + Pad2((ms % 60000) / 1000)
  }

  /** Reads a `m:ss` clock back as seconds. */
  function ReadClock(s: string): Option<int> {
    var parts := Split(s, ':');
    if |parts| == 2 && IsIntLiteral(parts[0]) && |parts[1]| == 2 && AllDigits(parts[1])
      && DigitsValue(parts[1]) < 60
    then Some(ParseInt(parts[0]) * 60 + DigitsValue(parts[1]))
    else None
  }

  lemma NoColonInNumber(n: int)
    ensures ':' !in IntToString(n)
  {
    var s := IntToString(n);
    if n < 0 {
      assert s == "-" + NatToString(-n);
      assert forall k :: 0 < k < |s| ==> s[k] == NatToString(-n)[k - 1];
    }
    assert forall k :: 0 <= k < |s| ==> s[k] == '-' || IsDigit(s[k]);
  }

  lemma ClockParts(m: int, sec: nat)
    requires sec < 60
    ensures ReadClock(IntToString(m) + ":" + Pad2(sec)) == Some(m * 60 + sec)
  {
    var a := IntToString(m);
    var b := Pad2(sec);
    NoColonInNumber(m);
    assert ':' !in b;
    assert Join(":", [a, b]) == a + ":" + b;
    SplitJoin([a, b], ':');
    IntRoundTrip(m);
  }

  /** A clock reads back as the length it shows, for every length: the
      seconds field is always two digits below 60. */
  lemma ClockRoundTrip(n: int)
    ensures ReadClock(Clock(n)) == Some(n)
  {
    ClockParts(n / 60, n % 60);
  }

  /** A millisecond clock reads back as the whole seconds of the length. */
  lemma MsClockRoundTrip(ms: int)
    ensures ReadClock(MsClock(ms)) == Some(ms / 1000)
  {
    var q := ms / 60000;
    var r := ms % 60000;
    ClockParts(q, r / 1000);
    assert ms == q * 60000 + r;
    assert r == (r / 1000) * 1000 + r % 1000;
    assert ms == (q * 60 + r / 1000) * 1000 + r % 1000;
  }

  /** `f"{ts // 60000:02d}:{(ts % 60000) // 1000:02d}"`: a game time. */
  function GameTime(ts: int): string {
    Pad2(ts / 60000) + ":" + Pad2((ts % 60000) / 1000)
  }

  /** Within the first hundred minutes a game time is `MM:SS`, and its two
      fields give back the whole seconds of the time. */
  lemma GameTimeReadsBack(ts: int)
    requires 0 <= ts < 6000000
    ensures var r := GameTime(ts);
      |r| == 5 && r[2] == ':' && AllDigits(r[..2]) && AllDigits(r[3..])
      && DigitsValue(r[..2]) * 60 + DigitsValue(r[3..]) == ts / 1000
  {
    var m := ts / 60000;
    var q := ts % 60000;
    var s := q / 1000;
    var r := GameTime(ts);
    assert r[..2] == Pad2(m) && r[3..] == Pad2(s);
    assert ts == m * 60000 + q;
    assert q == s * 1000 + q % 1000;
    assert ts == (m * 60 + s) * 1000 + q % 1000;
  }

  // ---------------------------------------------------------------------
  // timestamps

  /** `fmt(t) if t else 'N/A'` evaluated inside a `try`: `None` when the
      conversion raises. A value that is neither a number nor false makes
      `t / 1000` raise `TypeError`. */
  function TryStamp(lib: Library, t: Json): (r: Option<string>)
    ensures !Truthy(t) ==> r == Some("N/A")
    ensures Truthy(t) && Real(t).None? ==> r.None?
    ensures Truthy(t) && Real(t).Some? ==> r == lib.dateTime(Real(t).value)
  {
    if !Truthy(t) then Some("N/A")
    else match Real(t)
      case Some(x) => lib.dateTime(x)
      case None => None
  }

  /** Two timestamps converted in one `try` block: when either conversion
      raises, both print as `Epoch: <raw value>`. */
  function StampPair(lib: Library, a: Json, b: Json): (r: (string, string))
    ensures TryStamp(lib, a).Some? && TryStamp(lib, b).Some? ==>
      r == (TryStamp(lib, a).value, TryStamp(lib, b).value)
    ensures TryStamp(lib, a).None? || TryStamp(lib, b).None? ==>
      r == ("Epoch: " + Show(a), "Epoch: " + Show(b))
  {
    match (TryStamp(lib, a), TryStamp(lib, b))
    case (Some(x), Some(y)) => (x, y)
    case _ => ("Epoch: " + Show(a), "Epoch: " + Show(b))
  }

  // ---------------------------------------------------------------------
  // capped listings

  /** The `... and N more <noun>` line closing a listing capped at `cap`. */
  function MoreLines(total: nat, cap: nat, noun: string): (r: seq<string>)
    ensures |r| <= 1
    ensures |r| == 1 <==> total > cap
    ensures total > cap ==> r[0] == "... and " + IntToString(total - cap) + " more " + noun
  {
    if total > cap then ["... and " + IntToString(total - cap) + " more " + noun] else []
  }

  /** Reads the hidden count back out of a `... and N more <noun>` line. */
  function HiddenCount(line: string, noun: string): Option<int> {
    var head := "... and ";
    var tail := " more " + noun;
    if |head| + |tail| <= |line| && StartsWith(line, head) && EndsWith(line, tail)
      && IsIntLiteral(line[|head|..|line| - |tail|])
    then Some(ParseInt(line[|head|..|line| - |tail|]))
    else None
  }

  /** The entries listed and the count the closing line announces add up
      to the whole sequence: nothing is lost or counted twice. */
  lemma ShownPlusHidden<T>(s: seq<T>, cap: nat, noun: string)
    requires |s| > cap
    ensures var h := HiddenCount(MoreLines(|s|, cap, noun)[0], noun);
      h.Some? && |Seqs.Take(s, cap)| + h.value == |s|
  {
    var n := IntToString(|s| - cap);
    var line := "... and " + n + " more " + noun;
    assert line[|"... and "|..|line| - |" more " + noun|] == n;
    assert StartsWith(line, "... and ");
    assert EndsWith(line, " more " + noun);
    IntRoundTrip(|s| - cap);
  }

  /** The lines `for i, x in enumerate(xs, first)` appends, one block per
      entry. */
  function Blocks(xs: seq<Json>, block: (int, Json) -> seq<string>, first: int): seq<string>
    decreases |xs|
  {
    if |xs| == 0 then [] else block(first, xs[0]) + Blocks(xs[1..], block, first + 1)
  }

  lemma {:induction false} BlocksLength(xs: seq<Json>, block: (int, Json) -> seq<string>, first: int, w: nat)
    requires forall i, x :: |block(i, x)| == w
    ensures |Blocks(xs, block, first)| == w * |xs|
    decreases |xs|
  {
    if |xs| > 0 {
      BlocksLength(xs[1..], block, first + 1, w);
      assert w * |xs| == w + w * (|xs| - 1);
    }
  }

  /** With blocks of one fixed width, the `j`th line of entry `k` sits at
      `w * k + j`: entries appear in order, each under its own number. */
  lemma {:induction false} BlocksAt(xs: seq<Json>, block: (int, Json) -> seq<string>, first: int, w: nat, k: nat, j: nat)
    requires forall i, x :: |block(i, x)| == w
    requires k < |xs| && j < w
    ensures w * k + j < |Blocks(xs, block, first)|
    ensures Blocks(xs, block, first)[w * k + j] == block(first + k, xs[k])[j]
    decreases |xs|
  {
    BlocksLength(xs, block, first, w);
    assert w * k + j < w * |xs| by {
      assert w * k + w <= w * |xs| by {
        assert w * (|xs| - k) >= w * 1;
        assert w * |xs| == w * k + w * (|xs| - k);
      }
    }
    if k > 0 {
      BlocksAt(xs[1..], block, first + 1, w, k - 1, j);
      assert xs[1..][k - 1] == xs[k];
      assert w * k + j == w + (w * (k - 1) + j);
    }
  }

  /** Every line of every entry's block is in the listing. */
  lemma {:induction false} BlocksContain(xs: seq<Json>, block: (int, Json) -> seq<string>, first: int, k: nat, line: string)
    requires k < |xs| && line in block(first + k, xs[k])
    ensures line in Blocks(xs, block, first)
    decreases |xs|
  {
    if k > 0 {
      assert xs[1..][k - 1] == xs[k];
      BlocksContain(xs[1..], block, first + 1, k - 1, line);
    }
  }

  /** A property every line of every block has holds of every line of the
      listing. */
  lemma {:induction false} BlocksAll(xs: seq<Json>, block: (int, Json) -> seq<string>, first: int, p: string -> bool)
    requires forall i, x, k :: 0 <= k < |block(i, x)| ==> p(block(i, x)[k])
    ensures forall k :: 0 <= k < |Blocks(xs, block, first)| ==> p(Blocks(xs, block, first)[k])
    decreases |xs|
  {
    if |xs| > 0 {
      BlocksAll(xs[1..], block, first + 1, p);
      var b := block(first, xs[0]);
      var rest := Blocks(xs[1..], block, first + 1);
      assert Blocks(xs, block, first) == b + rest;
      forall k | 0 <= k < |b + rest| ensures p((b + rest)[k]) {
        if k >= |b| {
          assert (b + rest)[k] == rest[k - |b|];
        }
      }
    }
  }

  // ---------------------------------------------------------------------
  // teams

  /** `x.get('teamId') == id`, with Python's numeric equality. */
  predicate OnTeam(x: Json, id: int) {
    Real(Get(x, "teamId", Null)) == Some(id as real)
  }

  /** `[x for x in xs if x.get('teamId') == id]`. */
  function TeamOf(xs: seq<Json>, id: int): (r: seq<Json>)
    ensures |r| <= |xs|
    ensures forall i :: 0 <= i < |r| ==> OnTeam(r[i], id)
    ensures forall i :: 0 <= i < |xs| && OnTeam(xs[i], id) ==> xs[i] in r
    ensures forall x :: x in r ==> x in xs
  {
    Seqs.Filter(xs, x => OnTeam(x, id))
  }

  /** The entries whose `teamId` is not `id`. */
  function NotTeamOf(xs: seq<Json>, id: int): (r: seq<Json>)
    ensures |r| <= |xs|
    ensures forall i :: 0 <= i < |r| ==> !OnTeam(r[i], id)
    ensures forall i :: 0 <= i < |xs| && !OnTeam(xs[i], id) ==> xs[i] in r
    ensures forall x :: x in r ==> x in xs
  {
    Seqs.Filter(xs, x => !OnTeam(x, id))
  }

  /** Both team filters keep the entries in list order and each as often as
      it occurs: filtering a concatenation filters the parts, and a single
      entry is kept exactly when it is (or is not) on the team. */
  lemma TeamOfOrder(a: seq<Json>, b: seq<Json>, x: Json, id: int)
    ensures TeamOf(a + b, id) == TeamOf(a, id) + TeamOf(b, id)
    ensures NotTeamOf(a + b, id) == NotTeamOf(a, id) + NotTeamOf(b, id)
    ensures TeamOf([x], id) == if OnTeam(x, id) then [x] else []
    ensures NotTeamOf([x], id) == if OnTeam(x, id) then [] else [x]
  {
    Seqs.FilterAppend(a, b, y => OnTeam(y, id));
    Seqs.FilterAppend(a, b, y => !OnTeam(y, id));
    Seqs.FilterSingle(x, y => OnTeam(y, id));
    Seqs.FilterSingle(x, y => !OnTeam(y, id));
  }

  /** Splitting on one team id sends every entry to exactly one side. */
  lemma TeamSplit(xs: seq<Json>, id: int)
    ensures |TeamOf(xs, id)| + |NotTeamOf(xs, id)| == |xs|
    ensures multiset(TeamOf(xs, id)) + multiset(NotTeamOf(xs, id)) == multiset(xs)
  {
    Seqs.FilterComplement(xs, x => OnTeam(x, id), x => !OnTeam(x, id));
  }

  /** No entry is on two different teams, so the two team filters of a
      match never share an entry and together hold at most every entry. */
  lemma {:induction false} TwoTeams(xs: seq<Json>, a: int, b: int)
    requires a != b
    ensures |TeamOf(xs, a)| + |TeamOf(xs, b)| <= |xs|
  {
    if |xs| > 0 {
      TwoTeams(xs[1..], a, b);
      assert xs == [xs[0]] + xs[1..];
      Seqs.FilterAppend([xs[0]], xs[1..], x => OnTeam(x, a));
      Seqs.FilterAppend([xs[0]], xs[1..], x => OnTeam(x, b));
    }
  }
}

=== FILE: riot_request.dfy ===
/** `make_riot_request` and the query string of the Match-V5 ID search.
    The HTTP client is a parameter: a function from the request the server
    sends to what came back. */
module RiotRequest {
  import opened Wrappers
  import opened Numerals
  import opened Text
  import opened Json

  const UserAgent: string := "league-mcp-server/1.0"

  /** `RIOT_API_BASE.format(region=region)`: the region names the host. */
  function BaseUrl(region: string): (r: string)
    ensures StartsWith(r, "https://") && EndsWith(r, ".api.riotgames.com")
    ensures |r| == |region| + 26 && r[8..|r| - 18] == region
  {
    var r := "https://" + region + ".api.riotgames.com";
    assert r[8..|r| - 18] == region;
    r
  }

  /** A GET request: the URL, the headers in the order the source builds
      them, and the timeout in seconds. */
  datatype Request = Request(url: string, headers: seq<(string, string)>, timeout: real)

  /** What the HTTP client hands back: a response with its status code, its
      body text and the body decoded as JSON (or the text of the decoding
      exception); or the text of the exception a failed transfer raised. */
  datatype Reply =
    | Response(status: int, text: string, body: Result<Json, string>)
    | Raised(reason: string)

  type Client = Request -> Reply

  function Headers(key: string): seq<(string, string)> {
    [("User-Agent", UserAgent), ("X-Riot-Token", key), ("Accept", "application/json")]
  }

  /** `{"error": msg}`, the shape every formatter recognises as a failure. */
  function ErrorObject(msg: string): (r: Json)
    ensures r.Obj? && Truthy(r) && Lookup(r.fields, "error") == Some(Str(msg))
  {
    Obj([("error", Str(msg))])
  }

  const NoKey: string := "RIOT_API_KEY environment variable not set"

  /** The statuses `raise_for_status` lets through. */
  predicate Success(status: int) {
    200 <= status < 300
  }

  /** A key is configured: `RIOT_API_KEY` is set and not empty. */
  predicate HasKey(apiKey: Option<string>) {
    apiKey.Some? && apiKey.value != ""
  }

  /** What became of a request that was sent. */
  function Outcome(reply: Reply): (r: Json)
    ensures reply.Raised? ==> r == ErrorObject("Request failed: " + reply.reason)
    ensures reply.Response? && !Success(reply.status) ==>
      r == ErrorObject("HTTP " + IntToString(reply.status) + ": " + reply.text)
    ensures reply.Response? && Success(reply.status) && reply.body.Err? ==>
      r == ErrorObject("Request failed: " + reply.body.error)
    ensures reply.Response? && Success(reply.status) && reply.body.Ok? ==> r == reply.body.value
  {
    match reply
    case Raised(reason) => ErrorObject("Request failed: " + reason)
    case Response(status, text, body) =>
      if !Success(status) then ErrorObject("HTTP " + IntToString(status) + ": " + text)
      else
        match body
        case Err(e) => ErrorObject("Request failed: " + e)
        case Ok(j) => j
  }

  /** `make_riot_request`: the payload the tool goes on with, and the
      requests sent on the way. Without a key nothing is sent; with one,
      exactly one request goes out, carrying the key in `X-Riot-Token`. */
  function MakeRiotRequest(apiKey: Option<string>, url: string, client: Client): (r: (Json, seq<Request>))
    ensures !HasKey(apiKey) <==> |r.1| == 0
    ensures !HasKey(apiKey) ==> r.0 == ErrorObject(NoKey)
    ensures HasKey(apiKey) ==> r.1 == [Request(url, Headers(apiKey.value), 30.0)]
    ensures HasKey(apiKey) ==> r.0 == Outcome(client(Request(url, Headers(apiKey.value), 30.0)))
  {
    if !HasKey(apiKey) then (ErrorObject(NoKey), [])
    else
      var request := Request(url, Headers(apiKey.value), 30.0);
      (Outcome(client(request)), [request])
  }

  /** The payload is either the decoded body of a successful response to
      the one request sent, or an error report: no failure passes as data. */
  lemma PayloadOrError(apiKey: Option<string>, url: string, client: Client)
    ensures var r := MakeRiotRequest(apiKey, url, client);
      || Lookup(Fields(r.0), "error").Some?
      || (&& HasKey(apiKey)
          && var reply := client(r.1[0]);
          && reply.Response? && Success(reply.status) && reply.body.Ok? && r.0 == reply.body.value)
  {
  }

  /** An HTTP error report names the status code: it can be read back from
      the message whatever the response body says. */
  function ReportedStatus(msg: string): Option<int> {
    if !StartsWith(msg, "HTTP ") then None
    else
      match Partition(msg[5..], ':')
      case None => None
      case Some(p) => if IsIntLiteral(p.0) then Some(ParseInt(p.0)) else None
  }

  lemma StatusReadsBack(status: int, text: string)
    requires !Success(status)
    ensures ReportedStatus(Outcome(Response(status, text, Err(""))).fields[0].1.s) == Some(status)
  {
    var code := IntToString(status);
    var msg := "HTTP " + code + ": " + text;
    assert msg[5..] == code + [':'] + (" " + text);
    NumberAlphabet(status, ':');
    PartitionJoin(code, ':', " " + text);
    IntRoundTrip(status);
  }

  // ---------------------------------------------------------------------
  // the match ID search

  /** The optional arguments of `get_match_ids_by_puuid`. */
  datatype MatchQuery = MatchQuery(
    startTime: Option<int>, endTime: Option<int>, queue: Option<int>,
    matchType: Option<string>, start: int, count: int)

  /** The arguments a call leaves at their defaults. */
  const DefaultQuery: MatchQuery := MatchQuery(None, None, None, None, 0, 20)

  /** `if x:` on an optional integer: absent and zero are both false. */
  function Given(x: Option<int>): (r: Option<int>)
    ensures r.Some? <==> x.Some? && x.value != 0
    ensures r.Some? ==> r == x
  {
    if x.Some? && x.value != 0 then x else None
  }

  /** `if match_type:` on an optional string: absent and empty are both false. */
  function GivenText(x: Option<string>): (r: Option<string>)
    ensures r.Some? <==> x.Some? && x.value != ""
    ensures r.Some? ==> r == x
  {
    if x.Some? && x.value != "" then x else None
  }

  /** The search as the server sends it: a false filter is no filter. */
  function Effective(q: MatchQuery): MatchQuery {
    MatchQuery(Given(q.startTime), Given(q.endTime), Given(q.queue), GivenText(q.matchType), q.start, q.count)
  }

  function Param(key: string, value: string): string {
    key + "=" + value
  }

  function IntParam(key: string, x: Option<int>): (r: seq<string>)
    ensures |r| == (if Given(x).Some? then 1 else 0)
  {
    if Given(x).Some? then [Param(key, IntToString(x.value))] else []
  }

  /** The query parameters, in the fixed order the source appends them. */
  function QueryParams(q: MatchQuery): (r: seq<string>)
    ensures |r| <= 6
  {
    IntParam("startTime", q.startTime) + IntParam("endTime", q.endTime) + IntParam("queue", q.queue)
    + (if GivenText(q.matchType).Some? then [Param("type", q.matchType.value)] else [])
    + (if q.start != 0 then [Param("start", IntToString(q.start))] else [])
    + (if q.count != 20 then [Param("count", IntToString(q.count))] else [])
  }

  /** `"?" + "&".join(params)` when there are parameters, nothing otherwise. */
  function QueryString(q: MatchQuery): (r: string)
    ensures r == "" <==> Effective(q) == DefaultQuery
    ensures r != "" ==> r[0] == '?'
  {
    if |QueryParams(q)| > 0 then "?" + Join("&", QueryParams(q)) else ""
  }

  /** The parameter names in the order the source appends them. */
  const ParamOrder: seq<string> := ["startTime", "endTime", "queue", "type", "start", "count"]

  /** The place of a name in that order; past its end for any other name. */
  function Rank(key: string): (n: nat)
    ensures n <= |ParamOrder|
    ensures n < |ParamOrder| ==> ParamOrder[n] == key
  {
    if key == "startTime" then 0
    else if key == "endTime" then 1
    else if key == "queue" then 2
    else if key == "type" then 3
    else if key == "start" then 4
    else if key == "count" then 5
    else 6
  }

  /** The name of a `key=value` piece: the text before its first `=`. */
  function KeyOf(piece: string): string {
    match Partition(piece, '=')
    case Some(kv) => kv.0
    case None => piece
  }

  /** The places in the order of the names of `pieces`. */
  function Ranks(pieces: seq<string>): (r: seq<nat>)
    ensures |r| == |pieces|
  {
    seq(|pieces|, i requires 0 <= i < |pieces| => Rank(KeyOf(pieces[i])))
  }

  /** Each place is later than the one before it. */
  predicate Increasing(r: seq<nat>) {
    forall i, j :: 0 <= i < j < |r| ==> r[i] < r[j]
  }

  /** Every place is one of the first `k`. */
  predicate Below(r: seq<nat>, k: nat) {
    forall i :: 0 <= i < |r| ==> r[i] < k
  }

  lemma RanksAppend(a: seq<string>, b: seq<string>)
    ensures Ranks(a + b) == Ranks(a) + Ranks(b)
  {
    assert forall i :: 0 <= i < |a| ==> (a + b)[i] == a[i];
    assert forall i :: |a| <= i < |a + b| ==> (a + b)[i] == b[i - |a|];
  }

  /** A piece written for a parameter of the order is named by it. */
  lemma ParamKey(key: string, value: string)
    requires Rank(key) < |ParamOrder|
    ensures Rank(KeyOf(Param(key, value))) == Rank(key)
  {
    assert '=' !in key by {
      assert key == ParamOrder[Rank(key)];
      assert forall n :: 0 <= n < |ParamOrder| ==> '=' !in ParamOrder[n];
    }
    assert Param(key, value) == key + ['='] + value;
    PartitionJoin(key, '=', value);
  }

  /** No place, or just the place `k`. */
  predicate AtMost(r: seq<nat>, k: nat) {
    r == [] || r == [k]
  }

  /** The places of the six names. */
  lemma NameRanks()
    ensures Rank("startTime") == 0 && Rank("endTime") == 1 && Rank("queue") == 2
    ensures Rank("type") == 3 && Rank("start") == 4 && Rank("count") == 5
  {
  }

  /** A single piece for a parameter of the order has that parameter's
      place. */
  lemma SingleRank(key: string, value: string)
    requires Rank(key) < |ParamOrder|
    ensures Ranks([Param(key, value)]) == [Rank(key)]
  {
    ParamKey(key, value);
    assert [Param(key, value)][1..] == [];
  }

  /** Appending no place or the place `k` to places below `k` keeps them
      increasing. */
  lemma IncreasingExtend(r: seq<nat>, t: seq<nat>, k: nat)
    requires Increasing(r) && Below(r, k) && AtMost(t, k)
    ensures Increasing(r + t) && Below(r + t, k + 1)
  {
    var u := r + t;
    assert forall i :: 0 <= i < |r| ==> u[i] == r[i];
    assert |t| == 1 ==> u[|r|] == k;
  }

  /** Six optional places for the six parameters, one after the other. */
  lemma OrderSix(a: seq<nat>, b: seq<nat>, c: seq<nat>, t: seq<nat>, s: seq<nat>, k: seq<nat>)
    requires AtMost(a, 0) && AtMost(b, 1) && AtMost(c, 2)
    requires AtMost(t, 3) && AtMost(s, 4) && AtMost(k, 5)
    ensures Increasing(a + b + c + t + s + k) && Below(a + b + c + t + s + k, 6)
  {
    assert [] + a == a;
    IncreasingExtend([], a, 0);
    IncreasingExtend(a, b, 1);
    IncreasingExtend(a + b, c, 2);
    IncreasingExtend(a + b + c, t, 3);
    IncreasingExtend(a + b + c + t, s, 4);
    IncreasingExtend(a + b + c + t + s, k, 5);
  }

  /** The places of six runs of pieces, one after the other. */
  lemma RanksSix(a: seq<string>, b: seq<string>, c: seq<string>, t: seq<string>, s: seq<string>, k: seq<string>)
    ensures Ranks(a + b + c + t + s + k) == Ranks(a) + Ranks(b) + Ranks(c) + Ranks(t) + Ranks(s) + Ranks(k)
  {
    RanksAppend(a + b + c + t + s, k);
    RanksAppend(a + b + c + t, s);
    RanksAppend(a + b + c, t);
    RanksAppend(a + b, c);
    RanksAppend(a, b);
  }

  /** No piece, or a single one for a parameter of the order. */
  lemma OptionalRank(present: bool, key: string, value: string, k: nat)
    requires Rank(key) == k < |ParamOrder|
    ensures AtMost(Ranks(if present then [Param(key, value)] else []), k)
  {
    if present {
      SingleRank(key, value);
    }
  }

  /** The query parameters come in the fixed order startTime, endTime,
      queue, type, start, count, each at most once, and no other name
      appears. */
  lemma QueryParamsOrdered(q: MatchQuery)
    ensures Increasing(Ranks(QueryParams(q))) && Below(Ranks(QueryParams(q)), |ParamOrder|)
  {
    var a := IntParam("startTime", q.startTime);
    var b := IntParam("endTime", q.endTime);
    var c := IntParam("queue", q.queue);
    var t := if GivenText(q.matchType).Some? then [Param("type", q.matchType.GetOr(""))] else [];
    var s := if q.start != 0 then [Param("start", IntToString(q.start))] else [];
    var k := if q.count != 20 then [Param("count", IntToString(q.count))] else [];
    assert QueryParams(q) == a + b + c + t + s + k;
    RanksSix(a, b, c, t, s, k);
    NameRanks();
    OptionalRank(Given(q.startTime).Some?, "startTime", IntToString(q.startTime.GetOr(0)), 0);
    OptionalRank(Given(q.endTime).Some?, "endTime", IntToString(q.endTime.GetOr(0)), 1);
    OptionalRank(Given(q.queue).Some?, "queue", IntToString(q.queue.GetOr(0)), 2);
    OptionalRank(GivenText(q.matchType).Some?, "type", q.matchType.GetOr(""), 3);
    OptionalRank(q.start != 0, "start", IntToString(q.start), 4);
    OptionalRank(q.count != 20, "count", IntToString(q.count), 5);
    OrderSix(Ranks(a), Ranks(b), Ranks(c), Ranks(t), Ranks(s), Ranks(k));
  }

  /** The search parameters a query string asks for, read the way a server
      reads them: each `key=value` piece, in order, split at its first `=`. */
  function ReadQuery(s: string): MatchQuery {
    if |s| > 0 && s[0] == '?' then ReadParams(DefaultQuery, Split(s[1..], '&')) else DefaultQuery
  }

  function ReadParams(q: MatchQuery, pieces: seq<string>): MatchQuery
    decreases |pieces|
  {
    if |pieces| == 0 then q else ReadParams(ReadParam(q, pieces[0]), pieces[1..])
  }

  function ReadParam(q: MatchQuery, piece: string): MatchQuery {
    match Partition(piece, '=')
    case None => q
    case Some(kv) =>
      if kv.0 == "type" then q.(matchType := Some(kv.1))
      else if IsIntLiteral(kv.1) then SetNumber(q, kv.0, ParseInt(kv.1))
      else q
  }

  function SetNumber(q: MatchQuery, key: string, n: int): MatchQuery {
    if key == "startTime" then q.(startTime := Some(n))
    else if key == "endTime" then q.(endTime := Some(n))
    else if key == "queue" then q.(queue := Some(n))
    else if key == "start" then q.(start := n)
    else if key == "count" then q.(count := n)
    else q
  }

  lemma {:induction false} ReadParamsAppend(q: MatchQuery, a: seq<string>, b: seq<string>)
    ensures ReadParams(q, a + b) == ReadParams(ReadParams(q, a), b)
    decreases |a|
  {
    if |a| > 0 {
      assert (a + b)[1..] == a[1..] + b;
      ReadParamsAppend(ReadParam(q, a[0]), a[1..], b);
    } else {
      assert a + b == b;
    }
  }

  lemma ReadOne(q: MatchQuery, piece: string)
    ensures ReadParams(q, [piece]) == ReadParam(q, piece)
  {
    assert [piece][1..] == [];
  }

  lemma ReadNumberParam(q: MatchQuery, key: string, n: int)
    requires '=' !in key && key != "type"
    ensures ReadParams(q, [Param(key, IntToString(n))]) == SetNumber(q, key, n)
  {
    ReadOne(q, Param(key, IntToString(n)));
    PartitionJoin(key, '=', IntToString(n));
    IntRoundTrip(n);
  }

  lemma ReadIntParam(q: MatchQuery, key: string, x: Option<int>)
    requires '=' !in key && key != "type"
    ensures ReadParams(q, IntParam(key, x)) == if Given(x).Some? then SetNumber(q, key, x.value) else q
  {
    if Given(x).Some? {
      ReadNumberParam(q, key, x.value);
    }
  }

  /** Every piece of the query is free of `&`, given a match type free of it. */
  lemma ParamsPlain(q: MatchQuery)
    requires q.matchType.Some? ==> '&' !in q.matchType.value
    ensures forall k :: 0 <= k < |QueryParams(q)| ==> '&' !in QueryParams(q)[k]
  {
    var n := [q.startTime.GetOr(0), q.endTime.GetOr(0), q.queue.GetOr(0), q.start, q.count];
    forall k | 0 <= k < |n| ensures '&' !in IntToString(n[k]) {
      NumberAlphabet(n[k], '&');
    }
    assert '&' !in IntToString(n[0]) && '&' !in IntToString(n[1]) && '&' !in IntToString(n[2]);
    assert '&' !in IntToString(n[3]) && '&' !in IntToString(n[4]);
  }

  lemma ReadStartTime(q: MatchQuery, x: Option<int>)
    requires q.startTime.None?
    ensures ReadParams(q, IntParam("startTime", x)) == q.(startTime := Given(x))
  {
    ReadIntParam(q, "startTime", x);
  }

  lemma ReadEndTime(q: MatchQuery, x: Option<int>)
    requires q.endTime.None?
    ensures ReadParams(q, IntParam("endTime", x)) == q.(endTime := Given(x))
  {
    ReadIntParam(q, "endTime", x);
  }

  lemma ReadQueue(q: MatchQuery, x: Option<int>)
    requires q.queue.None?
    ensures ReadParams(q, IntParam("queue", x)) == q.(queue := Given(x))
  {
    ReadIntParam(q, "queue", x);
  }

  lemma ReadType(q: MatchQuery, x: Option<string>)
    requires q.matchType.None?
    ensures ReadParams(q, if GivenText(x).Some? then [Param("type", x.value)] else []) == q.(matchType := GivenText(x))
  {
    if GivenText(x).Some? {
      ReadOne(q, Param("type", x.value));
      PartitionJoin("type", '=', x.value);
    }
  }

  lemma ReadStart(q: MatchQuery, n: int)
    requires q.start == 0
    ensures ReadParams(q, if n != 0 then [Param("start", IntToString(n))] else []) == q.(start := n)
  {
    if n != 0 {
      ReadNumberParam(q, "start", n);
    }
  }

  lemma ReadCount(q: MatchQuery, n: int)
    requires q.count == 20
    ensures ReadParams(q, if n != 20 then [Param("count", IntToString(n))] else []) == q.(count := n)
  {
    if n != 20 {
      ReadNumberParam(q, "count", n);
    }
  }

  /** Reading the parameters one by one rebuilds the effective search. */
  lemma ReadAllParams(q: MatchQuery)
    ensures ReadParams(DefaultQuery, QueryParams(q)) == Effective(q)
  {
    var a := IntParam("startTime", q.startTime);
    var b := IntParam("endTime", q.endTime);
    var c := IntParam("queue", q.queue);
    var t := if GivenText(q.matchType).Some? then [Param("type", q.matchType.value)] else [];
    var s := if q.start != 0 then [Param("start", IntToString(q.start))] else [];
    var k := if q.count != 20 then [Param("count", IntToString(q.count))] else [];
    assert QueryParams(q) == a + b + c + t + s + k;
    ReadParamsAppend(DefaultQuery, a + b + c + t + s, k);
    ReadParamsAppend(DefaultQuery, a + b + c + t, s);
    ReadParamsAppend(DefaultQuery, a + b + c, t);
    ReadParamsAppend(DefaultQuery, a + b, c);
    ReadParamsAppend(DefaultQuery, a, b);
    var q1 := DefaultQuery.(startTime := Given(q.startTime));
    ReadStartTime(DefaultQuery, q.startTime);
    var q2 := q1.(endTime := Given(q.endTime));
    ReadEndTime(q1, q.endTime);
    var q3 := q2.(queue := Given(q.queue));
    ReadQueue(q2, q.queue);
    var q4 := q3.(matchType := GivenText(q.matchType));
    ReadType(q3, q.matchType);
    var q5 := q4.(start := q.start);
    ReadStart(q4, q.start);
    ReadCount(q5, q.count);
  }

  /** The query string carries the search exactly: reading it back gives
      every filter the call set, in its own field, and the defaults for the
      rest. A match type containing `&` would be cut short, since the
      source does not escape the values. */
  lemma QueryRoundTrip(q: MatchQuery)
    requires q.matchType.Some? ==> '&' !in q.matchType.value
    ensures ReadQuery(QueryString(q)) == Effective(q)
  {
    var ps := QueryParams(q);
    if |ps| > 0 {
      ParamsPlain(q);
      SplitJoin(ps, '&');
      assert ("?" + Join("&", ps))[1..] == Join("&", ps);
      ReadAllParams(q);
    }
  }
}

=== FILE: seqs.dfy ===
/** Sequence operations the formatters use: slicing to a cap, filtering, and
    Python's stable `sorted(xs, key=...)` with and without `reverse=True`. */
module Seqs {
  import opened Wrappers

  /** `s[:n]`. */
  function Take<T>(s: seq<T>, n: nat): (r: seq<T>)
    ensures |r| == if |s| < n then |s| else n
    ensures r == s[..|r|]
  {
    if |s| <= n then s else s[..n]
  }

  /** Indexing into a suffix is indexing into the whole. */
  lemma TailAt<T>(r: seq<T>, n: nat, b: seq<T>, i: nat)
    requires n <= |r| && r[n..] == b && i < |b|
    ensures n + i < |r| && r[n + i] == b[i]
  {
  }

  /** `[x for x in s if p(x)]`. */
  function Filter<T>(s: seq<T>, p: T -> bool): (r: seq<T>)
    ensures |r| <= |s|
    ensures forall i :: 0 <= i < |r| ==> p(r[i])
    ensures forall i :: 0 <= i < |s| && p(s[i]) ==> s[i] in r
    ensures forall x :: x in r ==> x in s
  {
    if |s| == 0 then []
    else
      var rest := Filter(s[1..], p);
      assert forall i :: 1 <= i < |s| ==> s[i] == s[1..][i - 1];
      if p(s[0]) then [s[0]] + rest else rest
  }

  lemma {:induction false} FilterAppend<T>(a: seq<T>, b: seq<T>, p: T -> bool)
    ensures Filter(a + b, p) == Filter(a, p) + Filter(b, p)
  {
    if |a| == 0 {
      assert a + b == b;
    } else {
      assert (a + b)[1..] == a[1..] + b;
      FilterAppend(a[1..], b, p);
    }
  }

  /** A single element is kept exactly when it passes. */
  lemma FilterSingle<T>(x: T, p: T -> bool)
    ensures Filter([x], p) == if p(x) then [x] else []
  {
    assert [x][1..] == [];
  }

  /** Filtering on a predicate and on its negation splits the sequence: every
      element lands on exactly one side. */
  lemma {:induction false} FilterComplement<T>(s: seq<T>, p: T -> bool, q: T -> bool)
    requires forall x :: q(x) == !p(x)
    ensures |Filter(s, p)| + |Filter(s, q)| == |s|
    ensures multiset(Filter(s, p)) + multiset(Filter(s, q)) == multiset(s)
  {
    if |s| > 0 {
      FilterComplement(s[1..], p, q);
      assert s == [s[0]] + s[1..];
    }
  }

  /** `next((x for x in s if p(x)), None)`. */
  function FirstWhere<T>(s: seq<T>, p: T -> bool): Option<T>
    decreases |s|
  {
    if |s| == 0 then None
    else if p(s[0]) then Some(s[0])
    else FirstWhere(s[1..], p)
  }

  /** `s[i]` is the first element of `s` satisfying `p`. */
  predicate IsFirst<T>(s: seq<T>, p: T -> bool, i: int) {
    0 <= i < |s| && p(s[i]) && forall j :: 0 <= j < i ==> !p(s[j])
  }

  /** `FirstWhere` finds nothing exactly when no element satisfies `p`, and
      otherwise finds the first element that does. */
  lemma {:induction false} FirstWhereIsFirst<T>(s: seq<T>, p: T -> bool)
    ensures FirstWhere(s, p).None? <==> forall i :: 0 <= i < |s| ==> !p(s[i])
    ensures forall i :: IsFirst(s, p, i) ==> FirstWhere(s, p) == Some(s[i])
    decreases |s|
  {
    if |s| > 0 {
      FirstWhereIsFirst(s[1..], p);
      assert forall i :: 1 <= i < |s| ==> s[i] == s[1..][i - 1];
      if !p(s[0]) {
        forall i | IsFirst(s, p, i) ensures FirstWhere(s, p) == Some(s[i]) {
          assert IsFirst(s[1..], p, i - 1) by {
            forall j | 0 <= j < i - 1 ensures !p(s[1..][j]) {
              assert s[1..][j] == s[j + 1];
            }
          }
        }
      }
    }
  }

  // ---------------------------------------------------------------------
  // stable sort

  predicate SortedBy<T>(s: seq<T>, key: T -> real) {
    forall i, j :: 0 <= i < j < |s| ==> key(s[i]) <= key(s[j])
  }

  /** The elements of `s` whose key is `k`, in their order in `s`. Two
      arrangements with the same `WithKey` for every `k` keep every group of
      equal keys in the same relative order. */
  function WithKey<T>(s: seq<T>, key: T -> real, k: real): seq<T> {
    if |s| == 0 then []
    else (if key(s[0]) == k then [s[0]] else []) + WithKey(s[1..], key, k)
  }

  function Insert<T>(x: T, s: seq<T>, key: T -> real): (r: seq<T>)
    requires SortedBy(s, key)
    ensures SortedBy(r, key)
    ensures |r| == |s| + 1
    ensures forall y :: y in r ==> y == x || y in s
  {
    if |s| == 0 || key(x) <= key(s[0]) then [x] + s
    else
      var t := Insert(x, s[1..], key);
      assert forall y :: y in t ==> key(s[0]) <= key(y);
      [s[0]] + t
  }

  lemma {:induction false} InsertMultiset<T>(x: T, s: seq<T>, key: T -> real)
    requires SortedBy(s, key)
    ensures multiset(Insert(x, s, key)) == multiset(s) + multiset{x}
  {
    if |s| > 0 && key(x) > key(s[0]) {
      SortedTail(s, key);
      InsertMultiset(x, s[1..], key);
      assert s == [s[0]] + s[1..];
    }
  }

  /** Inserting `x` puts it ahead of every element with an equal key. */
  lemma {:induction false} InsertWithKey<T>(x: T, s: seq<T>, key: T -> real, k: real)
    requires SortedBy(s, key)
    ensures WithKey(Insert(x, s, key), key, k) == (if key(x) == k then [x] else []) + WithKey(s, key, k)
  {
    var r := Insert(x, s, key);
    if |s| == 0 || key(x) <= key(s[0]) {
      assert r[1..] == s;
    } else {
      SortedTail(s, key);
      InsertWithKey(x, s[1..], key, k);
      assert r[1..] == Insert(x, s[1..], key);
    }
  }

  /** `sorted(s, key=key)`: ascending by key, and stable. */
  function SortBy<T>(s: seq<T>, key: T -> real): (r: seq<T>)
    ensures SortedBy(r, key)
    ensures |r| == |s|
    ensures multiset(r) == multiset(s)
    ensures forall k :: WithKey(r, key, k) == WithKey(s, key, k)
  {
    if |s| == 0 then []
    else
      var t := SortBy(s[1..], key);
      var r := Insert(s[0], t, key);
      InsertMultiset(s[0], t, key);
      assert s == [s[0]] + s[1..];
      forall k ensures WithKey(r, key, k) == WithKey(s, key, k) {
        InsertWithKey(s[0], t, key, k);
      }
      r
  }

  function Negated<T>(key: T -> real): T -> real {
    x => -key(x)
  }

  lemma {:induction false} WithKeyNegated<T>(s: seq<T>, key: T -> real, k: real)
    ensures WithKey(s, Negated(key), -k) == WithKey(s, key, k)
  {
    if |s| > 0 {
      WithKeyNegated(s[1..], key, k);
    }
  }

  /** `sorted(s, key=key, reverse=True)`: descending by key, and still stable,
      as Python documents for `reverse=True`. */
  function SortByDescending<T>(s: seq<T>, key: T -> real): (r: seq<T>)
    ensures forall i, j :: 0 <= i < j < |r| ==> key(r[i]) >= key(r[j])
    ensures |r| == |s|
    ensures multiset(r) == multiset(s)
    ensures forall k :: WithKey(r, key, k) == WithKey(s, key, k)
  {
    var r := SortBy(s, Negated(key));
    assert forall i :: 0 <= i < |r| ==> Negated(key)(r[i]) == -key(r[i]);
    forall k ensures WithKey(r, key, k) == WithKey(s, key, k) {
      WithKeyNegated(r, key, k);
      WithKeyNegated(s, key, k);
    }
    r
  }

  /** An ascending sort cut at `cap` keeps the lowest keys: an element it
      leaves out ranks no lower than any element it keeps. */
  lemma TopOfAscending<T>(s: seq<T>, key: T -> real, cap: nat, x: T)
    requires x in s
    ensures var top := Take(SortBy(s, key), cap);
      x in top || forall y :: y in top ==> key(y) <= key(x)
  {
    var ranked := SortBy(s, key);
    var top := Take(ranked, cap);
    assert x in multiset(ranked);
    var j :| 0 <= j < |ranked| && ranked[j] == x;
    if j >= |top| {
      forall y | y in top ensures key(y) <= key(x) {
        var i :| 0 <= i < |top| && top[i] == y;
        assert ranked[i] == y;
      }
    } else {
      assert top[j] == x;
    }
  }

  /** A descending sort cut at `cap` keeps the highest keys: an element it
      leaves out ranks no higher than any element it keeps. */
  lemma TopOfDescending<T>(s: seq<T>, key: T -> real, cap: nat, x: T)
    requires x in s
    ensures var top := Take(SortByDescending(s, key), cap);
      x in top || forall y :: y in top ==> key(y) >= key(x)
  {
    var ranked := SortByDescending(s, key);
    var top := Take(ranked, cap);
    assert x in multiset(ranked);
    var j :| 0 <= j < |ranked| && ranked[j] == x;
    if j >= |top| {
      forall y | y in top ensures key(y) >= key(x) {
        var i :| 0 <= i < |top| && top[i] == y;
        assert ranked[i] == y;
      }
    } else {
      assert top[j] == x;
    }
  }

  // ---------------------------------------------------------------------
  // the sort contract has exactly one solution

  lemma {:induction false} WithKeyHas<T>(s: seq<T>, key: T -> real, i: nat)
    requires i < |s|
    ensures s[i] in WithKey(s, key, key(s[i]))
  {
    if i > 0 {
      WithKeyHas(s[1..], key, i - 1);
    }
  }

  lemma WithKeyAllEmpty<T>(s: seq<T>, key: T -> real)
    ensures (forall k :: WithKey(s, key, k) == []) ==> |s| == 0
  {
    if |s| > 0 {
      WithKeyHas(s, key, 0);
    }
  }

  lemma {:induction false} WithKeyMembers<T>(s: seq<T>, key: T -> real, k: real, x: T)
    requires x in WithKey(s, key, k)
    ensures x in s && key(x) == k
  {
    if |s| > 0 {
      if !(key(s[0]) == k && x == s[0]) {
        WithKeyMembers(s[1..], key, k, x);
      }
    }
  }

  lemma WithKeyOfMinimum<T>(s: seq<T>, key: T -> real)
    requires |s| > 0 && SortedBy(s, key)
    ensures WithKey(s, key, key(s[0])) == [s[0]] + WithKey(s[1..], key, key(s[0]))
    ensures forall k :: k != key(s[0]) ==> WithKey(s, key, k) == WithKey(s[1..], key, k)
  {
  }

  lemma SortedTail<T>(s: seq<T>, key: T -> real)
    requires |s| > 0 && SortedBy(s, key)
    ensures SortedBy(s[1..], key)
  {
    assert forall i :: 0 <= i < |s| - 1 ==> s[1..][i] == s[i + 1];
  }

  /** Two sorted sequences that agree on every group of equal keys are equal:
      sortedness and stability pin down the result of `SortBy`, so it is
      Python's `sorted`, whatever algorithm computes it. */
  lemma {:induction false} StableSortUnique<T>(a: seq<T>, b: seq<T>, key: T -> real)
    requires SortedBy(a, key) && SortedBy(b, key)
    requires forall k :: WithKey(a, key, k) == WithKey(b, key, k)
    ensures a == b
  {
    if |a| == 0 || |b| == 0 {
      assert forall k :: WithKey(a, key, k) == [] && WithKey(b, key, k) == [];
      WithKeyAllEmpty(a, key);
      WithKeyAllEmpty(b, key);
    } else {
      WithKeyHas(a, key, 0);
      WithKeyHas(b, key, 0);
      WithKeyMembers(b, key, key(a[0]), a[0]);
      WithKeyMembers(a, key, key(b[0]), b[0]);
      var ia :| 0 <= ia < |a| && a[ia] == b[0];
      var ib :| 0 <= ib < |b| && b[ib] == a[0];
      assert key(a[0]) <= key(a[ia]) && key(b[0]) <= key(b[ib]);
      var m := key(a[0]);
      assert key(b[0]) == m;
      WithKeyOfMinimum(a, key);
      WithKeyOfMinimum(b, key);
      assert a[0] == WithKey(a, key, m)[0] == WithKey(b, key, m)[0] == b[0];
      forall k ensures WithKey(a[1..], key, k) == WithKey(b[1..], key, k) {
        if k == m {
          var x := WithKey(a[1..], key, k);
          var y := WithKey(b[1..], key, k);
          assert [a[0]] + x == [b[0]] + y;
          assert ([a[0]] + x)[1..] == x && ([b[0]] + y)[1..] == y;
        }
      }
      SortedTail(a, key);
      SortedTail(b, key);
      StableSortUnique(a[1..], b[1..], key);
      assert a == [a[0]] + a[1..] && b == [b[0]] + b[1..];
    }
  }
}

=== FILE: spectator_format.dfy ===
/** What the Spectator-V5 tools print: a player's live game, and the list of
    featured games. */
module SpectatorFormat {
  import opened Numerals
  import opened Json
  import opened Report

  /** The participants or bans of one side, one `  - Champion ID: <id>` line
      each, or the `none` line when the side has none. */
  function SideLines(xs: seq<Json>, none: string): (r: seq<string>)
    ensures |xs| == 0 ==> r == [none]
    ensures |xs| > 0 ==> |r| == |xs|
    ensures |xs| > 0 ==> forall i :: 0 <= i < |xs| ==> r[i] == "  - Champion ID: " + Field(xs[i], "championId")
  {
    if |xs| == 0 then [none]
    else seq(|xs|, i requires 0 <= i < |xs| => "  - Champion ID: " + Field(xs[i], "championId"))
  }

  /** One team's section: title, player count, players, bans. */
  function TeamSection(title: string, players: seq<Json>, bans: seq<Json>): (r: seq<string>)
    ensures |r| >= 5 && r[0] == title && r[1] == "Players: " + IntToString(|players|)
  {
    [title, "Players: " + IntToString(|players|)] + SideLines(players, "  No players found")
      + ["Bans:"] + SideLines(bans, "  No bans")
  }

  function Participants(data: Json): seq<Json> {
    Items(Get(data, "participants", Arr([])))
  }

  function Bans(data: Json): seq<Json> {
    Items(Get(data, "bannedChampions", Arr([])))
  }

  /** `format_active_game`. Participants and bans with `teamId` 100 go to
      the blue side and every other one to the red side. */
  function FormatActiveGame(data: Json): (r: seq<string>)
    ensures IsError(data) ==> r == [ErrorLine(data)]
    ensures !IsError(data) ==> |r| >= 8 && r[7] == "Duration: " + Clock(NumOr(Get(data, "gameLength", Int(0)), 0))
    ensures !IsError(data) ==>
      r[8..] == TeamSection("TEAM 1 (Blue Side):", TeamOf(Participants(data), 100), TeamOf(Bans(data), 100))
        + TeamSection("TEAM 2 (Red Side):", NotTeamOf(Participants(data), 100), NotTeamOf(Bans(data), 100))
  {
    if IsError(data) then [ErrorLine(data)]
    else
      var ps := Participants(data);
      var bans := Bans(data);
      var head := GameHeader(data);
      var sides := TeamSection("TEAM 1 (Blue Side):", TeamOf(ps, 100), TeamOf(bans, 100))
        + TeamSection("TEAM 2 (Red Side):", NotTeamOf(ps, 100), NotTeamOf(bans, 100));
      assert (head + sides)[8..] == sides;
      head + sides
  }

  function GameHeader(data: Json): (r: seq<string>)
    ensures |r| == 8 && r[7] == "Duration: " + Clock(NumOr(Get(data, "gameLength", Int(0)), 0))
  {
    ["ACTIVE GAME INFORMATION", "=======================",
     "Game ID: " + Field(data, "gameId"), "Game Type: " + Field(data, "gameType"),
     "Game Mode: " + Field(data, "gameMode"), "Map ID: " + Field(data, "mapId"),
     "Queue ID: " + Field(data, "gameQueueConfigId"),
     "Duration: " + Clock(NumOr(Get(data, "gameLength", Int(0)), 0))]
  }

  /** The two sides of a live game share out all participants: the two
      `Players:` counts add up to the number of participants, and each
      participant is listed on exactly one side. */
  lemma ActiveGameSides(data: Json)
    requires !IsError(data)
    ensures |TeamOf(Participants(data), 100)| + |NotTeamOf(Participants(data), 100)| == |Participants(data)|
    ensures multiset(TeamOf(Participants(data), 100)) + multiset(NotTeamOf(Participants(data), 100))
      == multiset(Participants(data))
    ensures multiset(TeamOf(Bans(data), 100)) + multiset(NotTeamOf(Bans(data), 100)) == multiset(Bans(data))
  {
    TeamSplit(Participants(data), 100);
    TeamSplit(Bans(data), 100);
  }

  /** The block for featured game number `i`. */
  function GameBlock(i: int, game: Json): (r: seq<string>)
    ensures |r| == 8
  {
    var ps := Items(Get(game, "participants", Arr([])));
    ["Game #" + IntToString(i) + ":", "  Game ID: " + Field(game, "gameId"),
     "  Mode: " + Field(game, "gameMode"), "  Type: " + Field(game, "gameType"),
     "  Map ID: " + Field(game, "mapId"), "  Queue ID: " + Field(game, "gameQueueConfigId"),
     "  Duration: " + Clock(NumOr(Get(game, "gameLength", Int(0)), 0)),
     "  Players: " + IntToString(|TeamOf(ps, 100)|) + " vs " + IntToString(|TeamOf(ps, 200)|)]
  }

  function Games(data: Json): seq<Json> {
    Items(Get(data, "gameList", Arr([])))
  }

  /** `format_featured_games`. */
  function FormatFeaturedGames(data: Json): (r: seq<string>)
    ensures IsError(data) ==> r == [ErrorLine(data)]
    ensures !IsError(data) && !Truthy(Get(data, "gameList", Arr([]))) ==>
      r == ["No featured games currently available."]
    ensures !IsError(data) && Truthy(Get(data, "gameList", Arr([]))) ==> (
      && |r| == 4 + 8 * |Games(data)|
      && r[2] == "Refresh Interval: " + Show(Get(data, "clientRefreshInterval", Str("N/A"))) + " seconds"
      && r[3] == "Total Games: " + IntToString(|Games(data)|)
      && r[4..] == Blocks(Games(data), GameBlock, 1))
  {
    if IsError(data) then [ErrorLine(data)]
    else if !Truthy(Get(data, "gameList", Arr([]))) then ["No featured games currently available."]
    else
      var games := Games(data);
      var head := ["FEATURED GAMES", "==============",
        "Refresh Interval: " + Show(Get(data, "clientRefreshInterval", Str("N/A"))) + " seconds",
        "Total Games: " + IntToString(|games|)];
      var body := Blocks(games, GameBlock, 1);
      BlocksLength(games, GameBlock, 1, 8);
      head + body
  }

  /** A featured game's `Players: a vs b` counts only the participants of
      teams 100 and 200; together they never exceed the participant list. */
  lemma FeaturedPlayersCounted(game: Json)
    ensures var ps := Items(Get(game, "participants", Arr([])));
      |TeamOf(ps, 100)| + |TeamOf(ps, 200)| <= |ps|
  {
    TwoTeams(Items(Get(game, "participants", Arr([]))), 100, 200);
  }
}

=== FILE: status_format.dfy ===
/** What the LoL-Status-V4 tool prints: a platform, its locales, and its
    active maintenances and incidents. */
module StatusFormat {
  import opened Wrappers
  import opened Numerals
  import opened Text
  import opened Json
  import opened Report
  import Seqs

  /** `t.get('locale') == 'en_US'`. */
  predicate IsEnglish(t: Json) {
    Get(t, "locale", Null) == Str("en_US")
  }

  /** `t.get('content', 'No title')`. */
  function Content(t: Json): string {
    FieldOr(t, "content", "No title")
  }

  /** `next((t.get('content', 'No title') for t in ts if English), 'No title')`. */
  function EnglishTitle(ts: seq<Json>): string {
    match Seqs.FirstWhere(ts, IsEnglish)
    case Some(t) => Content(t)
    case None => "No title"
  }

  /** The title is the content of the first English title, and `No title`
      when no title is English. */
  lemma EnglishTitleIsFirst(ts: seq<Json>)
    ensures (forall i :: 0 <= i < |ts| ==> !IsEnglish(ts[i])) ==> EnglishTitle(ts) == "No title"
    ensures forall i :: Seqs.IsFirst(ts, IsEnglish, i) ==> EnglishTitle(ts) == Content(ts[i])
  {
    Seqs.FirstWhereIsFirst(ts, IsEnglish);
  }

  function Title(x: Json): string {
    EnglishTitle(Items(Get(x, "titles", Arr([]))))
  }

  /** `', '.join(x.get('platforms', []))`. */
  function Platforms(x: Json): string {
    Join(", ", Texts(Items(Get(x, "platforms", Arr([])))))
  }

  /** The block for issue number `i`: its title, the upper-cased value of
      `field` after `caption`, its platforms and its creation time.
      Maintenances and incidents differ only in the caption and the field. */
  function IssueBlock(caption: string, field: string, i: int, x: Json): (r: seq<string>)
    ensures |r| == 4 && r[1] == caption + Upper(Field(x, field))
  {
    [IntToString(i) + ". " + Title(x), caption + Upper(Field(x, field)),
     "   Platforms: " + Platforms(x), "   Created: " + Field(x, "created_at")]
  }

  /** The block for maintenance number `i`. */
  function MaintenanceBlock(i: int, m: Json): (r: seq<string>)
    ensures |r| == 4 && r[1] == "   Status: " + Upper(Field(m, "maintenance_status"))
  {
    IssueBlock("   Status: ", "maintenance_status", i, m)
  }

  /** The block for incident number `i`. */
  function IncidentBlock(i: int, x: Json): (r: seq<string>)
    ensures |r| == 4 && r[1] == "   Severity: " + Upper(Field(x, "incident_severity"))
  {
    IssueBlock("   Severity: ", "incident_severity", i, x)
  }

  /** A platform is operational when it has neither maintenances nor
      incidents. */
  predicate Operational(data: Json) {
    !Truthy(Get(data, "maintenances", Arr([]))) && !Truthy(Get(data, "incidents", Arr([])))
  }

  function StatusHeader(data: Json): (r: seq<string>)
    ensures |r| == 5
    ensures r[4] == "Current Status: OPERATIONAL" <==> Operational(data)
  {
    ["PLATFORM STATUS", "===============",
     "Platform: " + Field(data, "name") + " (" + Field(data, "id") + ")",
     "Supported Locales: " + Join(", ", Texts(Items(Get(data, "locales", Arr([]))))),
     "Current Status: " + (if Operational(data) then "OPERATIONAL" else "ISSUES DETECTED")]
  }

  /** A section opened by `title (n):`, present only when `v` is truthy. */
  function Section(title: string, v: Json, block: (int, Json) -> seq<string>): (r: seq<string>)
    ensures !Truthy(v) <==> r == []
  {
    if Truthy(v) then [title + " (" + IntToString(|Items(v)|) + "):"] + Blocks(Items(v), block, 1)
    else []
  }

  function Maintenances(data: Json): seq<string> {
    Section("ACTIVE MAINTENANCES", Get(data, "maintenances", Arr([])), MaintenanceBlock)
  }

  function Incidents(data: Json): seq<string> {
    Section("ACTIVE INCIDENTS", Get(data, "incidents", Arr([])), IncidentBlock)
  }

  const Quiet := "No active maintenances or incidents"

  /** `format_platform_status`. */
  function FormatPlatformStatus(data: Json): (r: seq<string>)
    ensures IsError(data) ==> r == [ErrorLine(data)]
    ensures !IsError(data) ==> (
      && |r| >= 5
      && (r[4] == "Current Status: OPERATIONAL" <==> Operational(data))
      && r[5..] == Maintenances(data) + Incidents(data) + (if Operational(data) then [Quiet] else []))
  {
    if IsError(data) then [ErrorLine(data)]
    else
      var head := StatusHeader(data);
      var rest := Maintenances(data) + Incidents(data) + (if Operational(data) then [Quiet] else []);
      assert (head + rest)[5..] == rest;
      head + rest
  }

  /** A line that cannot be the closing `No active ...` line. */
  predicate NotQuiet(line: string) {
    |line| > 0 && line[0] != 'N'
  }

  lemma NumberNotQuiet(i: int, rest: string)
    ensures NotQuiet(IntToString(i) + rest)
  {
    if i < 0 {
      assert (IntToString(i) + rest)[0] == '-';
    } else {
      assert (IntToString(i) + rest)[0] == NatToString(i)[0];
      assert IsDigit(NatToString(i)[0]);
    }
  }

  lemma SectionNotQuiet(title: string, v: Json, block: (int, Json) -> seq<string>)
    requires NotQuiet(title)
    requires forall i, x, k :: 0 <= k < |block(i, x)| ==> NotQuiet(block(i, x)[k])
    ensures forall k :: 0 <= k < |Section(title, v, block)| ==> NotQuiet(Section(title, v, block)[k])
  {
    if Truthy(v) {
      var head := title + " (" + IntToString(|Items(v)|) + "):";
      assert head[0] == title[0];
      var body := Blocks(Items(v), block, 1);
      BlocksAll(Items(v), block, 1, NotQuiet);
      assert forall k :: 0 < k < |[head] + body| ==> ([head] + body)[k] == body[k - 1];
    }
  }

  lemma BlockLinesNotQuiet()
    ensures forall i, x, k :: 0 <= k < |MaintenanceBlock(i, x)| ==> NotQuiet(MaintenanceBlock(i, x)[k])
    ensures forall i, x, k :: 0 <= k < |IncidentBlock(i, x)| ==> NotQuiet(IncidentBlock(i, x)[k])
  {
    forall i, x ensures NotQuiet(MaintenanceBlock(i, x)[0]) && NotQuiet(IncidentBlock(i, x)[0]) {
      NumberNotQuiet(i, ". " + Title(x));
    }
  }

  lemma MaintenancesNotQuiet(data: Json)
    ensures forall k :: 0 <= k < |Maintenances(data)| ==> NotQuiet(Maintenances(data)[k])
  {
    BlockLinesNotQuiet();
    SectionNotQuiet("ACTIVE MAINTENANCES", Get(data, "maintenances", Arr([])), MaintenanceBlock);
  }

  lemma IncidentsNotQuiet(data: Json)
    ensures forall k :: 0 <= k < |Incidents(data)| ==> NotQuiet(Incidents(data)[k])
  {
    BlockLinesNotQuiet();
    SectionNotQuiet("ACTIVE INCIDENTS", Get(data, "incidents", Arr([])), IncidentBlock);
  }

  lemma ConcatNotQuiet(m: seq<string>, n: seq<string>)
    requires forall k :: 0 <= k < |m| ==> NotQuiet(m[k])
    requires forall k :: 0 <= k < |n| ==> NotQuiet(n[k])
    ensures forall k :: 0 <= k < |m + n| ==> NotQuiet((m + n)[k])
  {
    forall k | 0 <= k < |m + n| ensures NotQuiet((m + n)[k]) {
      if k >= |m| {
        assert (m + n)[k] == n[k - |m|];
      }
    }
  }

  lemma SectionsNotQuiet(data: Json)
    ensures var s := Maintenances(data) + Incidents(data);
      forall k :: 0 <= k < |s| ==> NotQuiet(s[k])
  {
    MaintenancesNotQuiet(data);
    IncidentsNotQuiet(data);
    ConcatNotQuiet(Maintenances(data), Incidents(data));
  }

  lemma HeaderNotQuiet(data: Json)
    ensures Quiet !in StatusHeader(data)
  {
    var h := StatusHeader(data);
    assert h[2][0] == 'P' && h[3][0] == 'S' && h[4][0] == 'C';
  }

  /** The status reads OPERATIONAL exactly when the answer holds the
      `No active maintenances or incidents` line. */
  lemma OperationalIffQuiet(data: Json)
    requires !IsError(data)
    ensures var r := FormatPlatformStatus(data);
      (r[4] == "Current Status: OPERATIONAL") <==> Quiet in r
  {
    var r := FormatPlatformStatus(data);
    var s := Maintenances(data) + Incidents(data);
    var head := StatusHeader(data);
    assert r == head + r[5..];
    if Operational(data) {
      assert r[|r| - 1] == Quiet;
    } else {
      SectionsNotQuiet(data);
      assert r == head + s;
      HeaderNotQuiet(data);
      assert Quiet !in s;
    }
  }
}

=== FILE: summoner_format.dfy ===
/** What the Summoner-V4 and Champion-V3 tools print: a summoner profile and
    the free champion rotation. */
module SummonerFormat {
  import opened Wrappers
  import opened Numerals
  import opened Text
  import opened Json
  import opened Report

  /** The `Last Modified:` value of a summoner: `N/A` for a missing, false
      or `'N/A'` revision date, the converted date otherwise, and
      `Epoch: <raw>` when the conversion raises. */
  function RevisionText(lib: Library, v: Json): (r: string)
    ensures !Truthy(v) || v == Str("N/A") ==> r == "N/A"
    ensures Truthy(v) && v != Str("N/A") && Real(v).None? ==> r == "Epoch: " + Show(v)
    ensures Truthy(v) && v != Str("N/A") && Real(v).Some? ==>
      r == lib.dateTime(Real(v).value).GetOr("Epoch: " + Show(v))
  {
    if Truthy(v) && v != Str("N/A") then
      match Real(v)
      case Some(x) => lib.dateTime(x).GetOr("Epoch: " + Show(v))
      case None => "Epoch: " + Show(v)
    else "N/A"
  }

  /** `format_summoner`. */
  function FormatSummoner(lib: Library, data: Json): (r: seq<string>)
    ensures IsError(data) ==> r == [ErrorLine(data)]
    ensures !IsError(data) ==> (
      && |r| == 8
      && r[0] == "SUMMONER INFORMATION" && r[1] == "===================="
      && r[2] == "Summoner ID: " + Field(data, "id")
      && r[3] == "Account ID: " + Field(data, "accountId")
      && r[4] == "PUUID: " + Field(data, "puuid")
      && r[5] == "Profile Icon ID: " + Field(data, "profileIconId")
      && r[6] == "Summoner Level: " + Field(data, "summonerLevel")
      && r[7] == "Last Modified: " + RevisionText(lib, Get(data, "revisionDate", Int(0))))
  {
    if IsError(data) then [ErrorLine(data)]
    else
      ["SUMMONER INFORMATION", "====================",
       "Summoner ID: " + Field(data, "id"), "Account ID: " + Field(data, "accountId"),
       "PUUID: " + Field(data, "puuid"), "Profile Icon ID: " + Field(data, "profileIconId"),
       "Summoner Level: " + Field(data, "summonerLevel"),
       "Last Modified: " + RevisionText(lib, Get(data, "revisionDate", Int(0)))]
  }

  /** `', '.join(map(str, ids)) if ids else 'None'`. */
  function IdList(ids: Json): string {
    if Truthy(ids) then Join(", ", Texts(Items(ids))) else "None"
  }

  /** Reads an ID list line back into the IDs' texts. */
  function ReadIdList(line: string): seq<string> {
    if line == "None" then []
    else
      var parts := Split(line, ',');
      seq(|parts|, i requires 0 <= i < |parts| => Strip(parts[i]))
  }

  /** A piece an ID list can hold unambiguously: non-empty, free of commas,
      and without surrounding white space. */
  predicate Plain(t: string) {
    |t| > 0 && ',' !in t && !IsSpace(t[0]) && !IsSpace(t[|t| - 1])
  }

  /** `int` values print as plain pieces other than `None`. */
  lemma NumberText(n: int)
    ensures Plain(IntToString(n)) && IntToString(n) != "None"
  {
    var t := IntToString(n);
    if n < 0 {
      assert t == "-" + NatToString(-n);
      assert forall k :: 0 < k < |t| ==> t[k] == NatToString(-n)[k - 1];
    }
    assert forall k :: 0 <= k < |t| ==> t[k] == '-' || IsDigit(t[k]);
    assert t[0] != 'N';
  }

  lemma {:induction false} JoinNotNone(xs: seq<string>)
    requires |xs| > 0 && forall k :: 0 <= k < |xs| ==> Plain(xs[k]) && xs[k] != "None"
    ensures Join(", ", xs) != "None"
  {
    var j := Join(", ", xs);
    if |xs| == 1 {
      assert j == xs[0];
    } else {
      var rest := Join(", ", xs[1..]);
      assert j == xs[0] + ", " + rest;
      assert j[|xs[0]|] == ',';
      assert ',' in j;
      assert ',' !in "None";
    }
  }

  lemma StripPlain(t: string)
    requires Plain(t)
    ensures Strip(t) == t && Strip(" " + t) == t
  {
    StripByNoop(t, IsSpace);
    assert " " + t == [' '] + t;
    StripByLed(t, ' ', IsSpace);
  }

  /** The pieces a `", "`-joined line splits into at its commas. */
  function Pieces(xs: seq<string>): (ys: seq<string>)
    requires |xs| > 0
    ensures |ys| == |xs| && ys[0] == xs[0]
    ensures forall k :: 0 < k < |ys| ==> ys[k] == " " + xs[k]
  {
    [xs[0]] + Spaced(xs[1..])
  }

  lemma PiecesPlain(xs: seq<string>)
    requires |xs| > 0 && forall k :: 0 <= k < |xs| ==> Plain(xs[k])
    ensures forall k :: 0 <= k < |xs| ==> ',' !in Pieces(xs)[k] && Strip(Pieces(xs)[k]) == xs[k]
  {
    var ys := Pieces(xs);
    forall k | 0 <= k < |xs| ensures ',' !in ys[k] && Strip(ys[k]) == xs[k] {
      StripPlain(xs[k]);
      if k > 0 {
        assert ys[k] == " " + xs[k];
        assert ' ' != ',';
      }
    }
  }

  /** Plain pieces joined with `", "` are read back one for one. */
  lemma ReadJoinBack(xs: seq<string>)
    requires |xs| > 0 && forall k :: 0 <= k < |xs| ==> Plain(xs[k]) && xs[k] != "None"
    ensures ReadIdList(Join(", ", xs)) == xs
  {
    var ys := Pieces(xs);
    JoinCommaSpace(xs);
    JoinNotNone(xs);
    PiecesPlain(xs);
    assert [','] == ",";
    SplitJoin(ys, ',');
    assert Split(Join(", ", xs), ',') == ys;
  }

  /** A list of champion IDs read back from its line is the list of IDs:
      no ID is lost, merged with a neighbour or reordered. */
  lemma IdListRoundTrip(ids: Json)
    requires ids.Arr? && forall i :: 0 <= i < |ids.items| ==> ids.items[i].Int?
    ensures ReadIdList(IdList(ids)) == Texts(ids.items)
  {
    var xs := Texts(ids.items);
    if |xs| > 0 {
      forall k | 0 <= k < |xs| ensures Plain(xs[k]) && xs[k] != "None" {
        NumberText(ids.items[k].n);
      }
      ReadJoinBack(xs);
    }
  }

  /** `format_champion_rotation`. */
  function FormatChampionRotation(data: Json): (r: seq<string>)
    ensures IsError(data) ==> r == [ErrorLine(data)]
    ensures !IsError(data) ==> (
      && |r| == 7
      && r[3] == "Free Champions (All Players): "
        + IntToString(|Items(Get(data, "freeChampionIds", Arr([])))|) + " champions"
      && r[4] == IdList(Get(data, "freeChampionIds", Arr([])))
      && r[5] == "Free Champions (New Players): "
        + IntToString(|Items(Get(data, "freeChampionIdsForNewPlayers", Arr([])))|) + " champions"
      && r[6] == IdList(Get(data, "freeChampionIdsForNewPlayers", Arr([]))))
  {
    if IsError(data) then [ErrorLine(data)]
    else
      var free := Get(data, "freeChampionIds", Arr([]));
      var newcomers := Get(data, "freeChampionIdsForNewPlayers", Arr([]));
      ["CHAMPION ROTATION", "=================",
       "Max New Player Level: " + Field(data, "maxNewPlayerLevel"),
       "Free Champions (All Players): " + IntToString(|Items(free)|) + " champions", IdList(free),
       "Free Champions (New Players): " + IntToString(|Items(newcomers)|) + " champions", IdList(newcomers)]
  }
}

=== FILE: text.dfy ===
/** The Python `str` methods the system relies on, over ASCII: `join`,
    `split`, `strip`, `lower`, `upper`, `startswith`, `endswith` and
    `replace(pat, "")`. */
module Text {
  import opened Wrappers

  /** `str.isspace` on ASCII: space, `\t \n \v \f \r` and the four
      information separators 0x1C..0x1F. */
  predicate IsSpace(c: char) {
    c == ' ' || (9 <= c as int <= 13) || (28 <= c as int <= 31)
  }

  /** `\w` on ASCII: letters, digits and underscore. */
  predicate IsWordChar(c: char) {
    ('a' <= c <= 'z') || ('A' <= c <= 'Z') || ('0' <= c <= '9') || c == '_'
  }

  predicate StartsWith(s: string, p: string) {
    |p| <= |s| && s[..|p|] == p
  }

  predicate EndsWith(s: string, p: string) {
    |p| <= |s| && s[|s| - |p|..] == p
  }

  /** `p` occurs in `s` at position `i`. */
  predicate OccursAt(s: string, p: string, i: nat) {
    i + |p| <= |s| && s[i..i + |p|] == p
  }

  /** `p in s` for strings. */
  predicate IsInfix(p: string, s: string) {
    exists i: nat :: i <= |s| && OccursAt(s, p, i)
  }

  // ---------------------------------------------------------------------
  // join / split

  /** `sep.join(xs)`. */
  function Join(sep: string, xs: seq<string>): string {
    if |xs| == 0 then ""
    else if |xs| == 1 then xs[0]
    else xs[0] + sep + Join(sep, xs[1..])
  }

  /** `s.split(sep)` for a one-character separator. */
  function Split(s: string, sep: char): (parts: seq<string>)
    ensures |parts| >= 1
    ensures forall k :: 0 <= k < |parts| ==> sep !in parts[k]
  {
    if |s| == 0 then [""]
    else
      var rest := Split(s[1..], sep);
      if s[0] == sep then [""] + rest
      else [[s[0]] + rest[0]] + rest[1..]
  }

  lemma {:induction false} SplitPrefix(a: string, sep: char, rest: string)
    requires sep !in a
    ensures Split(a + [sep] + rest, sep) == [a] + Split(rest, sep)
  {
    if |a| == 0 {
      assert a + [sep] + rest == [sep] + rest;
      assert ([sep] + rest)[1..] == rest;
    } else {
      assert (a + [sep] + rest)[1..] == a[1..] + [sep] + rest;
      SplitPrefix(a[1..], sep, rest);
      assert [a[0]] + a[1..] == a;
    }
  }

  lemma {:induction false} SplitNoSep(a: string, sep: char)
    requires sep !in a
    ensures Split(a, sep) == [a]
  {
    if |a| > 0 {
      SplitNoSep(a[1..], sep);
      assert [a[0]] + a[1..] == a;
    }
  }

  /** Splitting a join on its one-character separator gives the pieces back,
      provided no piece contains the separator. */
  lemma {:induction false} SplitJoin(xs: seq<string>, sep: char)
    requires |xs| >= 1
    requires forall k :: 0 <= k < |xs| ==> sep !in xs[k]
    ensures Split(Join([sep], xs), sep) == xs
  {
    if |xs| == 1 {
      SplitNoSep(xs[0], sep);
    } else {
      SplitJoin(xs[1..], sep);
      SplitPrefix(xs[0], sep, Join([sep], xs[1..]));
      assert [xs[0]] + xs[1..] == xs;
    }
  }

  /** Each piece with a space in front. */
  function Spaced(xs: seq<string>): (r: seq<string>)
    ensures |r| == |xs| && forall k :: 0 <= k < |xs| ==> r[k] == " " + xs[k]
  {
    seq(|xs|, k requires 0 <= k < |xs| => " " + xs[k])
  }

  lemma {:induction false} JoinSpaced(xs: seq<string>)
    requires |xs| >= 1
    ensures Join(",", Spaced(xs)) == " " + Join(", ", xs)
  {
    if |xs| > 1 {
      JoinSpaced(xs[1..]);
      assert Spaced(xs)[1..] == Spaced(xs[1..]);
    }
  }

  /** `", ".join(xs)` is the `","` join of the pieces with every piece but
      the first preceded by a space. */
  lemma {:induction false} JoinCommaSpace(xs: seq<string>)
    requires |xs| >= 1
    ensures Join(", ", xs) == Join(",", [xs[0]] + Spaced(xs[1..]))
  {
    var ys := [xs[0]] + Spaced(xs[1..]);
    if |xs| > 1 {
      var j := Join(", ", xs[1..]);
      JoinSpaced(xs[1..]);
      assert ys[1..] == Spaced(xs[1..]);
      assert Join(",", ys) == xs[0] + "," + (" " + j);
      assert Join(", ", xs) == xs[0] + ", " + j;
      assert xs[0] + "," + (" " + j) == xs[0] + ", " + j;
    } else {
      assert ys == [xs[0]];
    }
  }

  /** Every piece of a join occurs in it: `', '.join(xs)` names every `x`. */
  lemma {:induction false} JoinContains(sep: string, xs: seq<string>, k: nat)
    requires k < |xs|
    ensures IsInfix(xs[k], Join(sep, xs))
  {
    var j := Join(sep, xs);
    if |xs| == 1 {
      assert OccursAt(j, xs[0], 0);
    } else if k == 0 {
      assert j[0..|xs[0]|] == xs[0];
      assert OccursAt(j, xs[0], 0);
    } else {
      JoinContains(sep, xs[1..], k - 1);
      var t := Join(sep, xs[1..]);
      var i: nat :| i <= |t| && OccursAt(t, xs[k], i);
      var off := |xs[0] + sep|;
      assert j == (xs[0] + sep) + t;
      assert j[off + i..off + i + |xs[k]|] == t[i..i + |xs[k]|];
      assert OccursAt(j, xs[k], off + i);
    }
  }

  lemma PrefixOf(a: string, b: string)
    ensures StartsWith(a + b, a)
  {
    assert (a + b)[..|a|] == a;
  }

  lemma InfixOf(a: string, b: string, c: string)
    ensures IsInfix(b, a + b + c)
  {
    assert (a + b + c)[|a|..|a| + |b|] == b;
    assert OccursAt(a + b + c, b, |a|);
  }

  /** An occurrence survives putting text in front. */
  lemma InfixAfter(h: string, t: string, p: string)
    requires IsInfix(p, t)
    ensures IsInfix(p, h + t)
  {
    var i: nat :| i <= |t| && OccursAt(t, p, i);
    assert (h + t)[|h| + i..|h| + i + |p|] == t[i..i + |p|];
    assert OccursAt(h + t, p, |h| + i);
  }

  /** An occurrence survives putting text behind. */
  lemma InfixBefore(t: string, c: string, p: string)
    requires IsInfix(p, t)
    ensures IsInfix(p, t + c)
  {
    var i: nat :| i <= |t| && OccursAt(t, p, i);
    assert (t + c)[i..i + |p|] == t[i..i + |p|];
    assert OccursAt(t + c, p, i);
  }

  /** The start of an occurring text occurs as well. */
  lemma InfixOfPrefix(h: string, x: string, s: string)
    requires StartsWith(x, h) && IsInfix(x, s)
    ensures IsInfix(h, s)
  {
    var i: nat :| i <= |s| && OccursAt(s, x, i);
    assert s[i..i + |h|] == s[i..i + |x|][..|h|];
    assert OccursAt(s, h, i);
  }

  lemma SuffixOf(a: string, b: string)
    ensures EndsWith(a + b, b)
  {
    assert (a + b)[|a|..] == b;
  }

  /** `s.partition(c)` when `c` occurs: the text before the first `c` and
      the text after it. */
  function Partition(s: string, c: char): (r: Option<(string, string)>)
    ensures r.Some? ==> s == r.value.0 + [c] + r.value.1 && c !in r.value.0
    ensures r.None? <==> c !in s
  {
    if |s| == 0 then None
    else if s[0] == c then
      assert s == "" + [c] + s[1..];
      Some(("", s[1..]))
    else
      match Partition(s[1..], c)
      case None => None
      case Some(p) =>
        assert s == [s[0]] + s[1..];
        Some(([s[0]] + p.0, p.1))
  }

  lemma {:induction false} PartitionJoin(a: string, c: char, b: string)
    requires c !in a
    ensures Partition(a + [c] + b, c) == Some((a, b))
  {
    if |a| == 0 {
      assert a + [c] + b == [c] + b;
      assert ([c] + b)[1..] == b;
    } else {
      assert (a + [c] + b)[1..] == a[1..] + [c] + b;
      PartitionJoin(a[1..], c, b);
      assert [a[0]] + a[1..] == a;
    }
  }

  /** Every piece of a join occurs in any text that ends with the join. */
  lemma JoinListed(head: string, sep: string, xs: seq<string>)
    ensures forall k :: 0 <= k < |xs| ==> IsInfix(xs[k], head + Join(sep, xs))
  {
    forall k | 0 <= k < |xs| ensures IsInfix(xs[k], head + Join(sep, xs)) {
      JoinContains(sep, xs, k);
      InfixAfter(head, Join(sep, xs), xs[k]);
    }
  }

  /** Splits `s` at the last occurrence of `c`, as `s.rpartition(c)` does
      when `c` occurs. */
  function SplitLast(s: string, c: char): (r: Option<(string, string)>)
    ensures r.Some? ==> s == r.value.0 + [c] + r.value.1 && c !in r.value.1
    ensures r.None? <==> c !in s
  {
    if |s| == 0 then None
    else if s[|s| - 1] == c then
      assert s == s[..|s| - 1] + [c] + "";
      Some((s[..|s| - 1], ""))
    else
      var init := s[..|s| - 1];
      assert s == init + [s[|s| - 1]];
      match SplitLast(init, c)
      case Some((a, b)) => Some((a, b + [s[|s| - 1]]))
      case None => None
  }

  /** A separator followed by text free of it is found again by `SplitLast`. */
  lemma {:induction false} SplitLastJoin(a: string, c: char, b: string)
    requires c !in b
    ensures SplitLast(a + [c] + b, c) == Some((a, b))
    decreases |b|
  {
    var s := a + [c] + b;
    if |b| == 0 {
      assert s[..|s| - 1] == a;
    } else {
      var b' := b[..|b| - 1];
      assert s[..|s| - 1] == a + [c] + b';
      assert c !in b';
      SplitLastJoin(a, c, b');
      assert b' + [b[|b| - 1]] == b;
    }
  }

  // ---------------------------------------------------------------------
  // strip

  /** Where `lstrip` stops when it starts at `i`: the first kept character
      from `i` on, or the end. */
  function LeadEnd(s: string, drop: char -> bool, i: nat): (n: nat)
    requires i <= |s|
    ensures i <= n <= |s|
    ensures forall k :: i <= k < n ==> drop(s[k])
    ensures n < |s| ==> !drop(s[n])
    decreases |s| - i
  {
    if i < |s| && drop(s[i]) then LeadEnd(s, drop, i + 1) else i
  }

  /** Where `rstrip` of `s[lo..j]` stops: one past the last kept character,
      or `lo`. */
  function TrailStart(s: string, drop: char -> bool, lo: nat, j: nat): (e: nat)
    requires lo <= j <= |s|
    ensures lo <= e <= j
    ensures forall k :: e <= k < j ==> drop(s[k])
    ensures e > lo ==> !drop(s[e - 1])
    decreases j - lo
  {
    if j > lo && drop(s[j - 1]) then TrailStart(s, drop, lo, j - 1) else j
  }

  /** How many characters `lstrip` removes. */
  function LeadCount(s: string, drop: char -> bool): nat {
    LeadEnd(s, drop, 0)
  }

  /** `s.strip(chars)`, with the character set given as a predicate: the
      infix left once the characters satisfying `drop` are removed from
      both ends. */
  function StripBy(s: string, drop: char -> bool): (r: string)
    ensures |r| <= |s|
    ensures |r| > 0 ==> !drop(r[0]) && !drop(r[|r| - 1])
    ensures LeadCount(s, drop) + |r| <= |s|
    ensures r == s[LeadCount(s, drop)..LeadCount(s, drop) + |r|]
    ensures forall k :: 0 <= k < LeadCount(s, drop) ==> drop(s[k])
    ensures forall k :: LeadCount(s, drop) + |r| <= k < |s| ==> drop(s[k])
  {
    var i := LeadEnd(s, drop, 0);
    s[i..TrailStart(s, drop, i, |s|)]
  }

  /** `s.strip()`. */
  function Strip(s: string): string {
    StripBy(s, IsSpace)
  }

  /** Nothing is stripped from a text whose ends are kept. */
  lemma StripByNoop(s: string, drop: char -> bool)
    requires |s| == 0 || (!drop(s[0]) && !drop(s[|s| - 1]))
    ensures StripBy(s, drop) == s
  {
    assert LeadEnd(s, drop, 0) == 0;
    assert TrailStart(s, drop, 0, |s|) == |s|;
  }

  /** One dropped character in front of a text whose ends are kept goes. */
  lemma StripByLed(t: string, c: char, drop: char -> bool)
    requires drop(c) && |t| > 0 && !drop(t[0]) && !drop(t[|t| - 1])
    ensures StripBy([c] + t, drop) == t
  {
    var q := [c] + t;
    assert LeadEnd(q, drop, 1) == 1;
    assert LeadEnd(q, drop, 0) == 1;
    assert TrailStart(q, drop, 1, |q|) == |q|;
    assert q[1..|q|] == t;
  }

  /** Stripping a text wrapped in one dropped character on each side gives
      back the text, when its own ends are kept. */
  lemma StripByWrapped(t: string, c: char, drop: char -> bool)
    requires drop(c) && |t| > 0 && !drop(t[0]) && !drop(t[|t| - 1])
    ensures StripBy([c] + t + [c], drop) == t
  {
    var q := [c] + t + [c];
    assert LeadEnd(q, drop, 1) == 1;
    assert LeadEnd(q, drop, 0) == 1;
    assert TrailStart(q, drop, 1, |q| - 1) == |q| - 1;
    assert TrailStart(q, drop, 1, |q|) == |q| - 1;
    assert q[1..|q| - 1] == t;
  }

  /** A stripped text has no white space at either end. */
  lemma StripEnds(t: string)
    ensures var q := Strip(t); |q| > 0 ==> !IsSpace(q[0]) && !IsSpace(q[|q| - 1])
  {
  }

  /** Stripping twice is stripping once. */
  lemma StripIdempotent(s: string, drop: char -> bool)
    ensures StripBy(StripBy(s, drop), drop) == StripBy(s, drop)
  {
    StripByNoop(StripBy(s, drop), drop);
  }

  // ---------------------------------------------------------------------
  // case mapping

  function LowerChar(c: char): char {
    if 'A' <= c <= 'Z' then (c as int + 32) as char else c
  }

  function UpperChar(c: char): char {
    if 'a' <= c <= 'z' then (c as int - 32) as char else c
  }

  /** `s.lower()` on ASCII letters. */
  function Lower(s: string): (r: string)
    ensures |r| == |s| && forall k :: 0 <= k < |s| ==> r[k] == LowerChar(s[k])
  {
    seq(|s|, k requires 0 <= k < |s| => LowerChar(s[k]))
  }

  /** `s.upper()` on ASCII letters. */
  function Upper(s: string): (r: string)
    ensures |r| == |s| && forall k :: 0 <= k < |s| ==> r[k] == UpperChar(s[k])
  {
    seq(|s|, k requires 0 <= k < |s| => UpperChar(s[k]))
  }

  /** Two strings that differ only in letter case. */
  predicate SameIgnoringCase(a: string, b: string) {
    |a| == |b| && forall k :: 0 <= k < |a| ==> LowerChar(a[k]) == LowerChar(b[k])
  }

  /** `s.lower() == w` for a lower-case word `w` holds exactly when `s` spells
      `w` in any mixture of cases. */
  lemma LowerMatchesAnyCase(s: string, w: string)
    requires Lower(w) == w
    ensures Lower(s) == w <==> SameIgnoringCase(s, w)
  {
    if SameIgnoringCase(s, w) {
      assert forall k :: 0 <= k < |w| ==> LowerChar(w[k]) == w[k] by {
        forall k | 0 <= k < |w| ensures LowerChar(w[k]) == w[k] {
          assert Lower(w)[k] == LowerChar(w[k]);
        }
      }
    }
  }

  /** `s.upper() == w` for an upper-case word `w` holds exactly when `s`
      spells `w` in any mixture of cases. */
  lemma UpperMatchesAnyCase(s: string, w: string)
    requires Upper(w) == w
    ensures Upper(s) == w <==> SameIgnoringCase(s, w)
  {
    if SameIgnoringCase(s, w) {
      forall k | 0 <= k < |w| ensures UpperChar(s[k]) == w[k] {
        assert Upper(w)[k] == UpperChar(w[k]);
      }
    }
    if Upper(s) == w {
      forall k | 0 <= k < |w| ensures LowerChar(s[k]) == LowerChar(w[k]) {
        assert Upper(s)[k] == UpperChar(s[k]);
      }
    }
  }

  // ---------------------------------------------------------------------
  // replace(pat, "")

  /** `s.replace(p, "")`: every non-overlapping occurrence of `p`, scanning
      left to right, is cut out. */
  function RemoveAll(s: string, p: string): (r: string)
    requires |p| > 0
    ensures |r| <= |s|
    decreases |s|
  {
    if |s| < |p| then s
    else if s[..|p|] == p then RemoveAll(s[|p|..], p)
    else [s[0]] + RemoveAll(s[1..], p)
  }

  /** A string with no occurrence of the pattern is left unchanged. */
  lemma {:induction false} RemoveAllAbsent(s: string, p: string)
    requires |p| > 0
    requires forall i: nat :: !OccursAt(s, p, i)
    ensures RemoveAll(s, p) == s
    decreases |s|
  {
    if |s| >= |p| {
      assert !OccursAt(s, p, 0);
      assert s[0..|p|] == s[..|p|];
      forall i: nat ensures !OccursAt(s[1..], p, i) {
        if i + |p| <= |s| - 1 {
          assert s[1..][i..i + |p|] == s[i + 1..i + 1 + |p|];
          assert !OccursAt(s, p, i + 1);
        }
      }
      RemoveAllAbsent(s[1..], p);
      assert [s[0]] + s[1..] == s;
    }
  }

  /** Removal distributes over a leading occurrence: `(p + s).replace(p, "")`
      is `s.replace(p, "")`. */
  lemma RemoveAllLeading(p: string, s: string)
    requires |p| > 0
    ensures RemoveAll(p + s, p) == RemoveAll(s, p)
  {
    assert (p + s)[..|p|] == p;
    assert (p + s)[|p|..] == s;
  }
}

=== FILE: tools.dfy ===
/** The tools the server registers: for each, the arguments it takes, the
    guard that can answer it without a request, the URL it asks for, and the
    formatter its payload goes to. `Run` is the body every tool shares:
    guard, request, `if not data`, format. */
module Tools {
  import opened Wrappers
  import opened Numerals
  import opened Text
  import opened Json
  import opened Report
  import opened Regions
  import opened RiotRequest
  import AccountFormat
  import SpectatorFormat
  import SummonerFormat
  import ClashFormat
  import LeagueFormat
  import ChallengeFormat
  import StatusFormat
  import MatchFormat

  /** A tool with its arguments other than the region. */
  datatype Tool =
    | AccountByPuuid(puuid: string)
    | AccountByRiotId(gameName: string, tagLine: string)
    | ActiveShard(game: string, puuid: string)
    | ActiveRegion(game: string, puuid: string)
    | ActiveGame(puuid: string)
    | FeaturedGames
    | SummonerByPuuid(puuid: string)
    | SummonerByAccountId(accountId: string)
    | SummonerBySummonerId(summonerId: string)
    | SummonerByRsoPuuid(rsoPuuid: string)
    | ChampionRotation
    | ClashPlayers(puuid: string)
    | ClashTeam(teamId: string)
    | ClashTournaments
    | ClashTournamentByTeam(teamId: string)
    | ClashTournamentById(tournamentId: int)
    | ChallengerLeague(queue: string)
    | GrandmasterLeague(queue: string)
    | MasterLeague(queue: string)
    | LeagueEntriesByPuuid(puuid: string)
    | LeagueEntriesBySummonerId(summonerId: string)
    | LeagueById(leagueId: string)
    | LeagueEntriesByDivision(queue: string, tier: string, division: string, page: int)
    | ChallengeConfigs
    | ChallengeConfig(challengeId: int)
    | ChallengeLeaderboard(challengeId: int, level: string, limit: int)
    | PlayerChallenges(puuid: string)
    | PlatformStatus
    | MatchIds(puuid: string, query: MatchQuery)
    | MatchDetails(matchId: string)
    | MatchTimeline(matchId: string)

  /** A tool call. Every tool takes a `region`: a routing region for the
      four Account-V1 tools, a platform for the others. */
  datatype Call = Call(tool: Tool, region: string)

  /** The Account-V1 tools: their region is a routing region and is passed
      to the host unchecked. */
  predicate AccountTool(t: Tool) {
    t.AccountByPuuid? || t.AccountByRiotId? || t.ActiveShard? || t.ActiveRegion?
  }

  /** The Match-V5 tools: their platform is checked, then mapped to the
      routing region that serves its matches. */
  predicate MatchTool(t: Tool) {
    t.MatchIds? || t.MatchDetails? || t.MatchTimeline?
  }

  /** The region guard, then (for the leaderboard) the level guard. */
  function Guard(c: Call): (r: Option<string>)
    ensures AccountTool(c.tool) ==> r.None?
    ensures !AccountTool(c.tool) && c.region !in LolRegions ==> r == Some(InvalidRegion(c.region))
    ensures !AccountTool(c.tool) && c.region in LolRegions ==>
      r == (if c.tool.ChallengeLeaderboard? then CheckLevel(c.tool.level) else None)
  {
    if AccountTool(c.tool) then None
    else if CheckRegion(c.region).Some? then CheckRegion(c.region)
    else if c.tool.ChallengeLeaderboard? then CheckLevel(c.tool.level)
    else None
  }

  /** The host a call asks: its region as given, or for the match tools the
      routing region of its platform. */
  function Host(c: Call): string {
    BaseUrl(if MatchTool(c.tool) then RoutingRegion(c.region) else c.region)
  }

  function Path(t: Tool): string {
    match t
    case AccountByPuuid(puuid) => "/riot/account/v1/accounts/by-puuid/" + puuid
    case AccountByRiotId(name, tag) => "/riot/account/v1/accounts/by-riot-id/" + name + "/" + tag
    case ActiveShard(game, puuid) => "/riot/account/v1/active-shards/by-game/" + game + "/by-puuid/" + puuid
    case ActiveRegion(game, puuid) => "/riot/account/v1/region/by-game/" + game + "/by-puuid/" + puuid
    case ActiveGame(puuid) => "/lol/spectator/v5/active-games/by-summoner/" + puuid
    case FeaturedGames => "/lol/spectator/v5/featured-games"
    case SummonerByPuuid(puuid) => "/lol/summoner/v4/summoners/by-puuid/" + puuid
    case SummonerByAccountId(id) => "/lol/summoner/v4/summoners/by-account/" + id
    case SummonerBySummonerId(id) => "/lol/summoner/v4/summoners/" + id
    case SummonerByRsoPuuid(puuid) => "/fulfillment/v1/summoners/by-puuid/" + puuid
    case ChampionRotation => "/lol/platform/v3/champion-rotations"
    case ClashPlayers(puuid) => "/lol/clash/v1/players/by-puuid/" + puuid
    case ClashTeam(id) => "/lol/clash/v1/teams/" + id
    case ClashTournaments => "/lol/clash/v1/tournaments"
    case ClashTournamentByTeam(id) => "/lol/clash/v1/tournaments/by-team/" + id
    case ClashTournamentById(id) => "/lol/clash/v1/tournaments/" + IntToString(id)
    case ChallengerLeague(queue) => "/lol/league/v4/challengerleagues/by-queue/" + queue
    case GrandmasterLeague(queue) => "/lol/league/v4/grandmasterleagues/by-queue/" + queue
    case MasterLeague(queue) => "/lol/league/v4/masterleagues/by-queue/" + queue
    case LeagueEntriesByPuuid(puuid) => "/lol/league/v4/entries/by-puuid/" + puuid
    case LeagueEntriesBySummonerId(id) => "/lol/league/v4/entries/by-summoner/" + id
    case LeagueById(id) => "/lol/league/v4/leagues/" + id
    case LeagueEntriesByDivision(queue, tier, division, page) =>
      "/lol/league/v4/entries/" + queue + "/" + tier + "/" + division + "?page=" + IntToString(page)
    case ChallengeConfigs => "/lol/challenges/v1/challenges/config"
    case ChallengeConfig(id) => "/lol/challenges/v1/challenges/" + IntToString(id) + "/config"
    case ChallengeLeaderboard(id, level, limit) =>
      "/lol/challenges/v1/challenges/" + IntToString(id) + "/leaderboards/by-level/" + Upper(level)
      + "?limit=" + IntToString(limit)
    case PlayerChallenges(puuid) => "/lol/challenges/v1/player-data/" + puuid
    case PlatformStatus => "/lol/status/v4/platform-data"
    case MatchIds(puuid, query) => "/lol/match/v5/matches/by-puuid/" + puuid + "/ids" + QueryString(query)
    case MatchDetails(id) => "/lol/match/v5/matches/" + id
    case MatchTimeline(id) => "/lol/match/v5/matches/" + id + "/timeline"
  }

  function Url(c: Call): string {
    Host(c) + Path(c.tool)
  }

  /** What a tool answers when the payload is false: nothing arrived, or an
      empty list or object did. */
  function Unavailable(t: Tool): (r: string)
    ensures StartsWith(r, "Unable to fetch ") && EndsWith(r, ".")
  {
    var what := match t
      case AccountByPuuid(_) => "account data"
      case AccountByRiotId(_, _) => "account data"
      case ActiveShard(_, _) => "active shard data"
      case ActiveRegion(_, _) => "active region data"
      case ActiveGame(_) => "active game data"
      case FeaturedGames => "featured games data"
      case SummonerByPuuid(_) => "summoner data"
      case SummonerByAccountId(_) => "summoner data"
      case SummonerBySummonerId(_) => "summoner data"
      case SummonerByRsoPuuid(_) => "summoner data"
      case ChampionRotation => "champion rotation data"
      case ClashPlayers(_) => "Clash player data"
      case ClashTeam(_) => "Clash team data"
      case ClashTournaments => "Clash tournaments data"
      case ClashTournamentByTeam(_) => "Clash tournament data"
      case ClashTournamentById(_) => "Clash tournament data"
      case ChallengerLeague(_) => "challenger league data"
      case GrandmasterLeague(_) => "grandmaster league data"
      case MasterLeague(_) => "master league data"
      case LeagueEntriesByPuuid(_) => "league entries data"
      case LeagueEntriesBySummonerId(_) => "league entries data"
      case LeagueById(_) => "league data"
      case LeagueEntriesByDivision(_, _, _, _) => "league entries data"
      case ChallengeConfigs => "challenge configs data"
      case ChallengeConfig(_) => "challenge config data"
      case ChallengeLeaderboard(_, _, _) => "challenge leaderboard data"
      case PlayerChallenges(_) => "player challenges data"
      case PlatformStatus => "platform status data"
      case MatchIds(_, _) => "match IDs"
      case MatchDetails(_) => "match details"
      case MatchTimeline(_) => "match timeline";
    var r := "Unable to fetch " + what + ".";
    assert r[..16] == "Unable to fetch ";
    r
  }

  /** The formatter a tool hands its payload to. */
  function Formatter(lib: Library, t: Tool): Json -> seq<string> {
    match t
    case AccountByPuuid(_) => data => AccountFormat.FormatAccount(data)
    case AccountByRiotId(_, _) => data => AccountFormat.FormatAccount(data)
    case ActiveShard(_, _) => data => AccountFormat.FormatActiveShard(data)
    case ActiveRegion(_, _) => data => AccountFormat.FormatActiveRegion(data)
    case ActiveGame(_) => data => SpectatorFormat.FormatActiveGame(data)
    case FeaturedGames => data => SpectatorFormat.FormatFeaturedGames(data)
    case SummonerByPuuid(_) => data => SummonerFormat.FormatSummoner(lib, data)
    case SummonerByAccountId(_) => data => SummonerFormat.FormatSummoner(lib, data)
    case SummonerBySummonerId(_) => data => SummonerFormat.FormatSummoner(lib, data)
    case SummonerByRsoPuuid(_) => data => SummonerFormat.FormatSummoner(lib, data)
    case ChampionRotation => data => SummonerFormat.FormatChampionRotation(data)
    case ClashPlayers(_) => data => ClashFormat.FormatClashPlayer(data)
    case ClashTeam(_) => data => ClashFormat.FormatClashTeam(data)
    case ClashTournaments => data => ClashFormat.FormatClashTournaments(lib, data)
    case ClashTournamentByTeam(_) => data => ClashFormat.FormatClashTournament(lib, data)
    case ClashTournamentById(_) => data => ClashFormat.FormatClashTournament(lib, data)
    case ChallengerLeague(_) => data => LeagueFormat.FormatLeagueList(lib, data)
    case GrandmasterLeague(_) => data => LeagueFormat.FormatLeagueList(lib, data)
    case MasterLeague(_) => data => LeagueFormat.FormatLeagueList(lib, data)
    case LeagueEntriesByPuuid(_) => data => LeagueFormat.FormatLeagueEntries(lib, data)
    case LeagueEntriesBySummonerId(_) => data => LeagueFormat.FormatLeagueEntries(lib, data)
    case LeagueById(_) => data => LeagueFormat.FormatLeagueList(lib, data)
    case LeagueEntriesByDivision(_, _, _, _) => data => LeagueFormat.FormatLeagueEntries(lib, data)
    case ChallengeConfigs => data => ChallengeFormat.FormatChallengeConfigs(data)
    case ChallengeConfig(_) => data => ChallengeFormat.FormatChallengeConfig(lib, data)
    case ChallengeLeaderboard(_, level, _) => data => ChallengeFormat.FormatChallengeLeaderboard(lib, data, level)
    case PlayerChallenges(_) => data => ChallengeFormat.FormatPlayerChallenges(lib, data)
    case PlatformStatus => data => StatusFormat.FormatPlatformStatus(data)
    case MatchIds(puuid, _) => data => MatchFormat.FormatMatchIds(data, puuid)
    case MatchDetails(_) => data => MatchFormat.FormatMatchDetail(lib, data)
    case MatchTimeline(_) => data => MatchFormat.FormatMatchTimeline(lib, data)
  }

  function Render(lib: Library, t: Tool, data: Json): seq<string> {
    Formatter(lib, t)(data)
  }

  /** A tool call: its answer, and the requests it sent. */
  function Run(lib: Library, apiKey: Option<string>, client: Client, c: Call): (r: (string, seq<Request>))
    ensures Guard(c).Some? ==> r == (Guard(c).value, [])
    ensures Guard(c).None? ==> r.1 == MakeRiotRequest(apiKey, Url(c), client).1
  {
    match Guard(c)
    case Some(message) => (message, [])
    case None =>
      var (data, sent) := MakeRiotRequest(apiKey, Url(c), client);
      if !Truthy(data) then (Unavailable(c.tool), sent) else (Unlines(Render(lib, c.tool, data)), sent)
  }

  /** The platform tools answer an unknown region with the list of valid
      ones, before any request is made; the Account-V1 tools never reject a
      region, and send it as the host unchanged. */
  lemma RegionCheckedFirst(lib: Library, apiKey: Option<string>, client: Client, c: Call)
    ensures !AccountTool(c.tool) && c.region !in LolRegions ==>
      Run(lib, apiKey, client, c) == (InvalidRegion(c.region), [])
    ensures AccountTool(c.tool) ==> (|Run(lib, apiKey, client, c).1| == 1 <==> HasKey(apiKey))
    ensures AccountTool(c.tool) ==> Url(c) == BaseUrl(c.region) + Path(c.tool)
  {
  }

  lemma InfixInside(h: string, a: string, b: string, c: string, d: string, e: string)
    ensures IsInfix(b + c, h + ((((a + b) + c) + d) + e))
  {
    var s := h + ((((a + b) + c) + d) + e);
    assert s[|h| + |a|..|h| + |a| + |b + c|] == b + c;
    assert OccursAt(s, b + c, |h| + |a|);
  }

  /** The leaderboard level is checked after the region and before any
      request, in any letter case; the URL carries it upper-cased. */
  lemma LeaderboardLevel(lib: Library, apiKey: Option<string>, client: Client,
                         id: int, level: string, limit: int, region: string)
    requires region in LolRegions
    ensures var c := Call(ChallengeLeaderboard(id, level, limit), region);
      && (Upper(level) !in Levels ==> Run(lib, apiKey, client, c) == (InvalidLevel(level), []))
      && (Upper(level) in Levels ==> Guard(c).None?)
      && IsInfix("/leaderboards/by-level/" + Upper(level), Url(c))
  {
    LeaderboardPath(id, level, limit, region);
  }

  /** The upper-cased level sits in the leaderboard request's path. */
  lemma LeaderboardPath(id: int, level: string, limit: int, region: string)
    ensures IsInfix("/leaderboards/by-level/" + Upper(level), Url(Call(ChallengeLeaderboard(id, level, limit), region)))
  {
    var c := Call(ChallengeLeaderboard(id, level, limit), region);
    InfixInside(Host(c), "/lol/challenges/v1/challenges/" + IntToString(id), "/leaderboards/by-level/",
      Upper(level), "?limit=", IntToString(limit));
  }

  /** Every formatter passes an error report through as one `Error:` line,
      so a failed request reaches the caller as `Error: <message>`. */
  lemma ErrorsPassThrough(lib: Library, t: Tool, msg: string)
    ensures Render(lib, t, ErrorObject(msg)) == ["Error: " + msg]
  {
    var e := ErrorObject(msg);
    assert IsError(e) && ErrorLine(e) == "Error: " + msg;
  }

  /** Without an API key, every call that passes its guard answers with the
      missing-key error and sends nothing. */
  lemma NoKeyNoRequest(lib: Library, client: Client, c: Call, apiKey: Option<string>)
    requires Guard(c).None? && !HasKey(apiKey)
    ensures Run(lib, apiKey, client, c) == ("Error: " + NoKey, [])
  {
    ErrorsPassThrough(lib, c.tool, NoKey);
    assert Unlines(["Error: " + NoKey]) == "Error: " + NoKey;
  }

  /** An HTTP error reaches the caller with its status code and body text,
      after exactly one request that carried the key. */
  lemma HttpErrorReported(lib: Library, client: Client, c: Call, key: string)
    requires Guard(c).None? && key != ""
    requires client(Request(Url(c), Headers(key), 30.0)).Response?
    requires !Success(client(Request(Url(c), Headers(key), 30.0)).status)
    ensures var reply := client(Request(Url(c), Headers(key), 30.0));
      Run(lib, Some(key), client, c)
        == ("Error: " + ("HTTP " + IntToString(reply.status) + ": " + reply.text), [Request(Url(c), Headers(key), 30.0)])
  {
    var reply := client(Request(Url(c), Headers(key), 30.0));
    var msg := "HTTP " + IntToString(reply.status) + ": " + reply.text;
    ErrorsPassThrough(lib, c.tool, msg);
    assert Unlines(["Error: " + msg]) == "Error: " + msg;
  }

  /** A successful but false payload (`[]`, `{}`, `null`) is answered with
      the tool's `Unable to fetch` line: the formatters' own messages for an
      empty list are never reached through a tool. */
  lemma EmptyPayloadUnavailable(lib: Library, client: Client, c: Call, key: string)
    requires Guard(c).None? && key != ""
    requires var reply := client(Request(Url(c), Headers(key), 30.0));
      reply.Response? && Success(reply.status) && reply.body.Ok? && !Truthy(reply.body.value)
    ensures Run(lib, Some(key), client, c).0 == Unavailable(c.tool)
  {
  }

  /** A payload that arrives is formatted by the tool's formatter. */
  lemma DataFormatted(lib: Library, client: Client, c: Call, key: string)
    requires Guard(c).None? && key != ""
    requires var reply := client(Request(Url(c), Headers(key), 30.0));
      reply.Response? && Success(reply.status) && reply.body.Ok? && Truthy(reply.body.value)
    ensures Run(lib, Some(key), client, c).0
      == Unlines(Render(lib, c.tool, client(Request(Url(c), Headers(key), 30.0)).body.value))
  {
  }

  /** A match tool that passes its guard asks the routing region the table
      gives for its platform, never the `americas` fallback. */
  lemma MatchRouting(c: Call)
    requires MatchTool(c.tool) && Guard(c).None?
    ensures c.region in PlatformToRouting
    ensures Url(c) == BaseUrl(PlatformToRouting[c.region]) + Path(c.tool)
  {
    RoutingCoversPlatforms();
  }

  /** The ID search carries its filters in a query string after the fixed
      path, and the query string reads back as the search the call made. */
  lemma MatchIdsQuery(puuid: string, query: MatchQuery, region: string)
    requires region in LolRegions
    requires query.matchType.Some? ==> '&' !in query.matchType.value
    ensures Url(Call(MatchIds(puuid, query), region))
      == BaseUrl(RoutingRegion(region)) + ("/lol/match/v5/matches/by-puuid/" + puuid + "/ids" + QueryString(query))
    ensures ReadQuery(QueryString(query)) == Effective(query)
  {
    MatchIdsUrl(puuid, query, region);
    QueryRoundTrip(query);
  }

  /** The ID search's URL: the routing host, the fixed path, then the query
      string. */
  lemma MatchIdsUrl(puuid: string, query: MatchQuery, region: string)
    ensures Url(Call(MatchIds(puuid, query), region))
      == BaseUrl(RoutingRegion(region)) + ("/lol/match/v5/matches/by-puuid/" + puuid + "/ids" + QueryString(query))
  {
    var c := Call(MatchIds(puuid, query), region);
    assert MatchTool(c.tool);
    assert Host(c) == BaseUrl(RoutingRegion(region));
    assert Path(c.tool) == "/lol/match/v5/matches/by-puuid/" + puuid + "/ids" + QueryString(query);
  }
}

=== FILE: wrappers.dfy ===
/** Failure-carrying datatypes shared by the whole model. */
module Wrappers {

  /** An optional value: Python's `None` or a present value. */
  datatype Option<+T> = None | Some(value: T) {

    /** The value, or `default` when absent. */
    function GetOr(default: T): T {
      match this
      case Some(v) => v
      case None => default
    }
  }

  /** A computation that either produced a value or stopped with an error. */
  datatype Result<+T, +E> = Ok(value: T) | Err(error: E)
}
